=== FILE: README.md ===
# go-server-rest-api: a Dafny model of the task API core

This project models the core of a small REST service written in Go with gin.
Users register and log in under `/api/auth` and receive an HS256 access token.
With that token in the `x-access-token` header, they add, list and fetch their own tasks under `/api/secured`.
The service keeps users and tasks in two MySQL tables and reaches them only through six prepared statements.

The model follows the program's structure, one module per source file, with small modules for what those files rely on:

- `Base`: `Option`, `Result` and 64-bit integer helpers.
- `Strconv`: Go's `strconv.ParseInt(s, 10, 64)`, the decimal formatting of `%d`, and the `%q` quoting used in conversion errors.
- `Models`: the request, response, user and task records.
- `Gin`: the request context (headers plus `Set`/`MustGet`), body binding as an input, and the reply.
  `Panicked` stands for a handler panic, which gin's Recovery turns into a 500.
- `Sql`: a small relational engine.
  - It stores rows as column-to-value maps and keeps an auto-increment counter per table.
  - Statements are data: `Insert`, `Update`, and `Select` with `=`, `>` and `<` conditions, ordering and `LIMIT ?`.
  - Arguments are positional, and `Exec`, `Query` and `QueryRow` behave as `database/sql` does, including its arity error and `ErrNoRows`.
  - `TableWf` is the table invariant: ids are unique and below the counter. The empty store has it. Inserts and updates preserve it, so do the repository's three writes, and so does serving any request (`Router.ServeKeepsWf`). The lemmas that require it therefore hold on every store the service can reach.
- `Repo` (`app/repo/app_repo.go`): the six statements, column for column, plus `AddUser`, `UpdateUser`, `GetUserByEmail`, `GetAllTasks`, `GetTaskById`, `AddTask`, and the row scanners.
  `Scan` follows `database/sql`: column by column, the first value that does not convert stops it with `sql: Scan error on column index i, name "c": ...`. Text converts to an integer destination only if it parses as a decimal int64, an integer converts to a string destination as its decimal text, and NULL converts to nothing.
  A row stream that breaks off mid-listing is modelled separately, beside the listing the handlers use.
- `Auth` (`app/auth/auth.go`): `AuthenticateUser`. The JWT library is a `TokenCodec` parameter. The properties relied on (signing succeeds, own tokens verify while live, expiry is enforced, foreign keys are refused) are predicates required by the lemmas that need them.
- `AppController`: the handlers' shared error envelope.
- `TaskController` (`app/controller/task_controller.go`): `GetTasks`, `GetTask`, `AddTask`.
- `AuthController` (`app/controller/auth_controller.go`): `Login` and `Register`. bcrypt is a `Hasher` parameter.
- `Router` (`app/router.go`): the route table, the token middleware in front of the secured group, and the 404 fallback. `Serve` routes one request through them.

Each handler works on a `Database` value.
A handler returns its reply together with the database afterwards.
Driver failures are inputs: each store call takes an optional error, and a handler takes one for its read and one for its write.
The request time `now` is an input too. `AddTask` reads the clock twice, so its handler also takes the second reading, `later`.

Behaviour is modelled as the code does it, including these quirks:

- The listing's cursor is `task_id > ?` combined with `order by task_id desc`.
- The next cursor `GetTasks` hands out is taken from the last task's `UserId`.
- `scanRowUser` fills `Name` from the email column.
- The user insert and update write `DateUpdated` into `date_created`.
- `Register` reads any lookup error as "no such user".
- A failed login writes the user back with the scanned name (the email) in the `name` column.

Corrected variants live beside the as-written members and are used only by the lemmas under "## Findings".
The routed handlers stay as written.

Two corrections of the listing are kept:
- `GetAllTasksBelow` (`task_id < ?`, highest id first) is the one "## Findings" names. It keeps the descending order the source asks for, and makes the documented cursor, the last listed id, continue where the page stopped.
- `GetAllTasksAscending` is the smallest edit of the statement (`asc` for `desc`). It keeps the source's `task_id > ?` and its cursor, and changes the order clients see.

The ascending members show that this one-word edit also repairs paging (`AscendingPagesChain`), so the paging bug is in the pairing of `>` with `desc`, not in either clause alone.

## Model

| member | source | states |
|---|---|---|
| Strconv.ParseInt64 | app/controller/task_controller.go:127 | succeeds exactly on an optional sign followed by one or more decimal digits whose value fits int64, and then yields that value |
| Strconv.FormatParseRoundTrip | app/controller/task_controller.go:127-143 | every int64 formatted in decimal parses back to itself, so an id printed in a reply can be sent back as a path segment |
| AppController.Abort | app/controller/task_controller.go:61 | `AbortWithStatusJSON(status, getErrorResponse(msg, err))`: the reply carries that status and the error envelope of the message and error |
| AppController.GetErrorResponse | app/controller/task_controller.go:210-221 | the envelope keeps the message and has no data; `errors` is absent exactly when there is no error, and otherwise holds the error's text alone |
| Repo.Convert | app/repo/app_repo.go:184 | a converted value has the destination's kind (int64 for integer destinations); a value already of that kind is kept unchanged |
| Repo.ConvertCases | app/repo/app_repo.go:184 | (the conversion table unfolded, used by the proofs about `Scan`) NULL never converts, with the "converting NULL to ... is unsupported" error; text into an integer destination converts exactly when it parses as a decimal int64, to that number, and otherwise fails with the quoted text and "invalid syntax" or "value out of range"; an integer into a string destination becomes its decimal text |
| Repo.Scan | app/repo/app_repo.go:184 | `Scan` returns no error exactly when the row has one value per destination and each converts, and then each destination holds its value's conversion; a wrong value count is the arity error |
| Repo.ScanStopsAt | app/repo/app_repo.go:184 | the first column that does not convert decides the error: "sql: Scan error on column index i, name "c": " followed by that column's conversion error |
| Repo.ScanNative | app/repo/app_repo.go:211 | a row whose every value already has its destination's kind scans to itself |
| Strconv.QuotePlain | app/repo/app_repo.go:184 | `%q` of a string without quotes, backslashes or control characters is the string between double quotes |
| Repo.ScanRowUser | app/repo/app_repo.go:173-198 | a scanned user has `Name` equal to `Email`, and int64 id and counter |
| Repo.ScanRowUserErrors | app/repo/app_repo.go:184-186 | the user scanner fails exactly when `Scan` does, with `Scan`'s error |
| Repo.ScanRowUserFields | app/repo/app_repo.go:184-197 | each field of a scanned user is the conversion of its column, positionally, except that both `Name` and `Email` come from the email column |
| Repo.ScanRowTask | app/repo/app_repo.go:200-225 | a scanned task has an int64 id and an int64 owner |
| Repo.ScanRowTaskErrors | app/repo/app_repo.go:211-213 | the task scanner fails exactly when `Scan` does, with `Scan`'s error |
| Repo.ScanRowTaskFields | app/repo/app_repo.go:211-224 | each field of a scanned task is the conversion of its column, positionally |
| Repo.ScanRowTaskKey | app/repo/app_repo.go:215-217 | a scanned task's id and owner are the integers stored in its first two columns |
| Repo.ScanTasks | app/repo/app_repo.go:140-148 | succeeds exactly when every row scans, and then yields one task per row in order; otherwise the error is "mysql: could not read row: " followed by the scan error of the first failing row, every row before it having scanned |
| Repo.AddUser | app/repo/app_repo.go:103-105 | a driver error is returned as is; otherwise the insert succeeds and leaves the task table alone |
| Repo.UpdateUser | app/repo/app_repo.go:107-109 | a driver error is returned as is; otherwise the update succeeds, leaves the task table and the id counter alone |
| Repo.GetUserByEmail | app/repo/app_repo.go:111-123 | a driver error is returned as is; a user it returns has int64 id and counter |
| Repo.GetAllTasks | app/repo/app_repo.go:125-149 | a driver error is returned as is; a negative limit is MySQL's LIMIT error (the row stream never breaks here; see `GetAllTasksStreamed`) |
| Repo.GetTaskById | app/repo/app_repo.go:151-163 | a driver error is returned as is |
| Repo.AddTask | app/repo/app_repo.go:165-167 | a driver error is returned as is; otherwise the insert succeeds and leaves the user table alone |
| Repo.GetTasksWhere | app/repo/app_repo.go:52 | `task_id > ? and user_id = ?` holds exactly for the owner's rows whose integer id lies above the cursor |
| Repo.GetAllTasksScansPage | app/repo/app_repo.go:125-148 | a successful listing on an unbroken stream had no fault and a non-negative limit, and is the scan of the matching rows sorted by descending id and cut to the limit |
| Repo.ListingKeys | app/repo/app_repo.go:140-148 | a successful listing has one task per selected row, with the row's id and the caller as owner |
| Repo.TaskPageRows | app/repo/app_repo.go:52 | the selected rows are stored rows of the owner above the cursor, at most `limit` of them, in descending id order |
| Repo.GetAllTasksScoped | app/repo/app_repo.go:52 | a listing holds only the caller's tasks, all above the cursor, at most `limit`, with ids non-increasing |
| Repo.GetAllTasksStrictlyDescending | app/repo/app_repo.go:52 | on a table with unique ids the listing's ids strictly decrease, so no task is listed twice |
| Repo.GetAllTasksTopOfRange | app/repo/app_repo.go:52 | every stored task of the caller above the cursor is listed, or the page is full and that task ranks no higher than any listed one |
| Repo.ListedTaskRow | app/repo/app_repo.go:125-148 | each listed task comes from a stored row of the caller above the cursor, with the row's id |
| Repo.DescendingNextPageRepeatsTop | app/repo/app_repo.go:52 | with the descending order, any next cursor between the requested one and the first listed id yields a page that starts with that same first task |
| Repo.GetTaskByIdWhere | app/repo/app_repo.go:53 | `task_id = ? and user_id = ?` holds exactly for the row with that id and that owner |
| Repo.GetTaskByIdUnfold | app/repo/app_repo.go:151-163 | (the lookup unfolded, a step towards `GetTaskByIdFindsOwnedRow`) with a working store, the lookup is "task not found" when no row matches, and otherwise the scan of the first matching row |
| Repo.GetTaskByIdFirstRow | app/repo/app_repo.go:151-163 | the lookup scans the first stored row, in storage order, with the id and owner |
| Repo.GetTaskByIdFindsOwnedRow | app/repo/app_repo.go:151-163 | "task not found" comes back exactly when no stored row has both the id and the owner; a task returned has both |
| Repo.OtherOwnersTaskLooksMissing | app/repo/app_repo.go:53 | on a table with unique ids, asking for another owner's task gets the same "task not found" as asking for an id not yet handed out |
| Repo.GetUserByEmailUnfold | app/repo/app_repo.go:111-123 | (the lookup unfolded, a step towards `GetUserByEmailFirstRow`) with a working store, the lookup is "user not found" when no row carries the email, and otherwise the scan of the first such row |
| Repo.GetUserByEmailWhere | app/repo/app_repo.go:49 | `email = ?` holds exactly for the rows whose email column is that string |
| Repo.GetUserByEmailMissing | app/repo/app_repo.go:116-117 | with no stored row carrying the email, the lookup answers "user not found" |
| Repo.UserQueryRowFirst | app/repo/app_repo.go:112 | the user query hands `Scan` the first stored row, in storage order, that carries the email |
| Repo.GetUserByEmailFirstRow | app/repo/app_repo.go:111-123 | a successful lookup is the scan of the first stored row that carries the email |
| Repo.GetUserByEmailCarriesEmail | app/repo/app_repo.go:188-191 | a user found by email has that email as both its email and its name |
| Repo.AddTaskAppends | app/repo/app_repo.go:165-167 | with a working store, adding a task appends one row holding the task's values and the next id, and advances the counter |
| Repo.AddUserAppends | app/repo/app_repo.go:103-105 | with a working store, adding a user appends one row holding the user's values and the next id, and advances the counter |
| Repo.InsertedTaskReadsBack | app/repo/app_repo.go:51-53 | the inserted task row, read with the select columns, gives the new id followed by the insert's arguments |
| Repo.InsertedTaskOwner | app/repo/app_repo.go:51-53 | the inserted task row has the new id and the task's owner |
| Repo.InsertedUserReadsBack | app/repo/app_repo.go:47-49 | the inserted user row, read with the select columns, gives the new id followed by the insert's arguments |
| Repo.InsertedUserEmail | app/repo/app_repo.go:47-49 | the inserted user row carries the user's email |
| Repo.ScanWrittenTask | app/repo/app_repo.go:200-225 | scanning the written values of a task that fits the columns gives the task back with the new id |
| Repo.ScanWrittenUser | app/repo/app_repo.go:173-198 | scanning the written values of a user gives the user back with the new id, the email as name and `DateUpdated` as creation date |
| Repo.GetTaskByIdAfterAppend | app/repo/app_repo.go:151-163 | a row appended behind rows lacking its id-and-owner pair is the one the lookup scans |
| Repo.AddTaskLookupFindsNewRow | app/repo/app_repo.go:151-167 | after an insert into a table with unique ids, the lookup by the new id and the owner scans the new row |
| Repo.AddTaskThenGetTaskById | app/repo/app_repo.go:151-167 | a task added and then fetched by the handed-out id and its owner comes back with every field as stored |
| Repo.UserQueryRowAfterAppend | app/repo/app_repo.go:111-123 | a row appended behind rows lacking its email is the one the user query returns first |
| Repo.AddUserLookupFindsNewRow | app/repo/app_repo.go:103-123 | after inserting a user under an unused email, the user query returns the new row |
| Repo.AddUserThenGetUserByEmail | app/repo/app_repo.go:103-123 | a user added under an unused email reads back with the new id, the email in place of the name and `DateUpdated` as creation date; every other field as written |
| Repo.UserAssignmentColumns | app/repo/app_repo.go:104 | the user insert assigns each field to its own column, `DateUpdated` to both date columns, and never the id column |
| Repo.AddUserColumns | app/repo/app_repo.go:103-105 | with a working store, adding a user appends exactly the assigned columns plus the new id, and advances the counter |
| Repo.UpdatedUserRow | app/repo/app_repo.go:108 | an updated row takes the written counter and name and keeps its id |
| Repo.UpdateUserColumns | app/repo/app_repo.go:107-109 | with a working store, an update overwrites the assigned columns of exactly the rows with the user's id; the others, the row count and the counter are unchanged |
| Repo.AddUserKeepsWf | app/repo/app_repo.go:103-105 | with a working store, adding a user keeps both tables' ids unique and below their counters |
| Repo.AddTaskKeepsWf | app/repo/app_repo.go:165-167 | with a working store, adding a task keeps both tables' ids unique and below their counters |
| Repo.UpdateUserTable | app/repo/app_repo.go:107-109 | with a working store, the update rewrites the rows of the user table that its WHERE clause selects, and nothing else |
| Repo.UpdateUserKeepsWf | app/repo/app_repo.go:107-109 | the update never assigns `user_id`, so with a working store both tables keep unique ids below their counters |
| Repo.ScanRowUserCorrected | app/repo/app_repo.go:190 | the corrected scanner fails exactly when the original does, and otherwise differs from it only in `Name` |
| Repo.ScanRowUserCorrectedName | app/repo/app_repo.go:190 | the corrected scanner takes `Name` from the name column |
| Repo.GetUserByEmailCorrected | app/repo/app_repo.go:111-123 | the corrected lookup succeeds or fails exactly as the original does, with the same error, and finds the same email |
| Repo.AddUserThenGetUserByEmailCorrected | app/repo/app_repo.go:190 | with the corrected scanner, a user added under an unused email reads back exactly as written, apart from the new id |
| Repo.GetAllTasksAscending | app/repo/app_repo.go:52 | the one-word alternative correction (`asc`), which pages forward but lists lowest id first, fails as the original does on a driver error or a negative limit |
| Repo.AscendingListingKeys | app/repo/app_repo.go:52 | a successful ascending listing has one task per selected row, with the row's id and the caller as owner |
| Repo.GetAllTasksAscendingScansPage | app/repo/app_repo.go:52 | a successful ascending listing is the scan of the matching rows sorted by ascending id and cut to the limit |
| Repo.TaskPageAscendingRows | app/repo/app_repo.go:52 | the ascending selection holds stored rows of the owner above the cursor, at most `limit` of them, in ascending id order |
| Repo.GetAllTasksAscendingScoped | app/repo/app_repo.go:52 | the ascending listing keeps the original's scope and lists ids in non-decreasing order |
| Repo.GetAllTasksAscendingBottomOfRange | app/repo/app_repo.go:52 | every stored task of the caller above the cursor is on the ascending page, or the page is full and the task ranks no lower than any listed one |
| Repo.AscendingPagesChain | app/repo/app_repo.go:52 | following the last listed id, the next ascending page lists only higher ids; every task above the first cursor is on one of the two pages or ahead of a full second page |
| Repo.GetTasksBelowWhere | app/repo/app_repo.go:52 | the corrected WHERE clause (`user_id = ?` for cursor 0, else `task_id < ? and user_id = ?`) holds exactly for the owner's rows below the cursor, or all of the owner's rows for cursor 0 |
| Repo.GetAllTasksBelow | app/repo/app_repo.go:125-149 | the corrected listing fails as the original does on a driver error or a negative limit |
| Repo.GetAllTasksBelowScansPage | app/repo/app_repo.go:125-148 | a successful corrected listing is the scan of the matching rows sorted by descending id and cut to the limit |
| Repo.TaskPageBelowRows | app/repo/app_repo.go:52 | the corrected selection holds stored rows of the owner below the cursor, at most `limit` of them, in descending id order |
| Repo.BelowListingKeys | app/repo/app_repo.go:140-148 | on a well-formed table, a corrected listing has one task per selected row, with the row's positive id and the caller as owner |
| Repo.GetAllTasksBelowScoped | app/repo/app_repo.go:52 | on a well-formed table, the corrected listing holds only the caller's tasks, with positive ids below the cursor (any id for cursor 0), at most `limit` of them |
| Repo.TaskPageBelowDistinct | app/repo/app_repo.go:52 | on a well-formed table no two rows of the corrected page share an id |
| Repo.GetAllTasksBelowStrictlyDescending | app/repo/app_repo.go:52 | on a well-formed table the corrected listing's ids strictly decrease |
| Repo.TaskPageBelowTop | app/repo/app_repo.go:52 | every matching stored row is on the corrected page, or the page is full and the row ranks no higher than any row on it |
| Repo.GetAllTasksBelowTopOfRange | app/repo/app_repo.go:52 | every stored task of the caller below the cursor is on the corrected page, or the page is full and the task ranks no higher than any listed one |
| Repo.BelowNextPageBelow | app/repo/app_repo.go:52 | following the last listed id, every task of the next corrected page ranks below every task of this one |
| Repo.BelowPagesReach | app/repo/app_repo.go:52 | a caller task below the first cursor is on one of the two corrected pages, or ranks below a full second page |
| Repo.BelowPagesChain | app/repo/app_repo.go:52 | on a well-formed table, following the last listed id the next corrected page lists only lower ids, and every task below the first cursor (every task, from cursor 0) is on one of the two pages or ahead of a full second page |
| Repo.Delivered | app/repo/app_repo.go:140 | a broken stream delivers a prefix of the selected rows, cut at the break |
| Repo.GetAllTasksStreamed | app/repo/app_repo.go:125-149 | the listing as written over a stream that may break: a driver error is returned as is |
| Repo.StreamedWithoutBreak | app/repo/app_repo.go:140-148 | with no break, the streamed listing is the listing the handlers use |
| Repo.ScanTasksPrefix | app/repo/app_repo.go:140-146 | scanning a prefix of rows that all scan yields the same prefix of tasks |
| Repo.BrokenStreamLooksComplete | app/repo/app_repo.go:140-148 | a stream that breaks after `k` rows of a listing yields success with only the first `k` tasks, because the stream's error is never checked |
| Repo.GetAllTasksChecked | app/repo/app_repo.go:140-148 | the corrected listing fails on a driver error and on any break, and otherwise is the unbroken listing |
| Repo.CheckedListingIsComplete | app/repo/app_repo.go:140-148 | a successful corrected listing is the full unbroken listing; a break in a listing that would succeed surfaces as the stream's error |
| Auth.AuthenticateUser | app/auth/auth.go:50-68 | succeeds exactly when the library parses the token as valid under the service's key, returning the token and storing its claims under "claims"; every error begins with "access token is invalid" and leaves the context untouched |
| Auth.SignedTokenAuthenticates | app/auth/auth.go:45-68 | a token signed with the service's key authenticates while its claims are live and stores exactly those claims |
| Auth.ExpiredTokenRejected | app/auth/auth.go:52-58 | a token whose expiry has passed never authenticates and sets no claims |
| Auth.ForeignTokenRejected | app/auth/auth.go:52-58 | a token signed with another key never authenticates and leaves the claims as they were |
| TaskController.ClampLimit | app/controller/task_controller.go:65-69 | the page size is kept exactly when it lies in 1..100, and otherwise becomes 100 |
| TaskController.GetTasks | app/controller/task_controller.go:50-95 | a bind failure answers 400; a bound query without claims panics; with claims there is always a reply, and a 200 carries a page with limit in 1..100, no errors and the count in its message; an empty 200 page has cursor 0 |
| TaskController.GetTasksServesCallersPage | app/controller/task_controller.go:71-94 | a 200 page is the repository listing for the caller with the clamped limit: the caller's tasks above the cursor, at most the limit, highest id first |
| TaskController.GetTasksCursorIsCallerId | app/controller/task_controller.go:82-85 | the cursor of a non-empty 200 page is the caller's user id, whatever tasks it holds |
| TaskController.CursorRepeatsFirstTask | app/controller/task_controller.go:84 | when the caller's id lies between the cursor and the first listed id, the page fetched with the handed-out cursor starts with the same task |
| TaskController.GetTask | app/controller/task_controller.go:125-146 | a non-decimal or out-of-range id answers 400 "task id is invalid" before the claims are read; without claims it panics; a 200 carries a task and names the parsed id |
| TaskController.GetTaskFindsCallersTask | app/controller/task_controller.go:133-145 | with a working store, "task not found" comes back exactly when the caller owns no task with that id; a 200 task has that id and the caller as owner |
| TaskController.AddTask | app/controller/task_controller.go:181-208 | it panics exactly when the claims are missing; a bad body or an empty title answers 400; only a 201 changes the store, appending the body stamped with the two clock readings and owned by the caller |
| TaskController.AddTaskThenGetTask | app/controller/task_controller.go:190-199 | adding a task and fetching it by the decimal form of the handed-out id returns it with the caller as owner, the first clock reading as creation date and the second as update date |
| TaskController.AddTaskKeepsWf | app/controller/task_controller.go:197-207 | the only write adding a task makes, the insert, keeps both tables' ids unique and below their counters |
| TaskController.GetTasksCorrected | app/controller/task_controller.go:82-85 | the corrected handler answers as the original on errors; a 200 is the corrected descending listing below the cursor, and its cursor is the last listed task's id |
| TaskController.CorrectedPage | app/controller/task_controller.go:74-85 | a 200 page of the corrected handler comes from a caller with claims, is the corrected listing with the clamped limit, and carries the last task's id as cursor |
| TaskController.CorrectedPagesChain | app/controller/task_controller.go:84 | on a well-formed table, paging with the corrected handler's cursor lists strictly lower ids on the next page, and every caller task below the first cursor (all of them, from cursor 0) is on the first two pages or ahead of a full second page |
| AuthController.WithFailedAttempt | app/controller/auth_controller.go:55 | the counter is advanced by one with 64-bit wrap-around and no other field changes |
| AuthController.Login | app/controller/auth_controller.go:40-89 | always a reply; a bind failure is 400; a lookup error is 401 with that error; only a wrong password writes the store, and it answers 401 "email or password is incorrect" whether or not the write succeeds; a 200 needs a matching password and carries a token expiring 300 minutes after `now` |
| AuthController.LoginTokenAuthenticates | app/controller/auth_controller.go:65-80 | a login token authenticates until it expires and puts in the context the claims of the user the login found |
| AuthController.FailedLoginUnfold | app/controller/auth_controller.go:53-62 | with a working store, a wrong password answers 401 and stores the user with one more failed attempt |
| AuthController.FailedAttemptRows | app/controller/auth_controller.go:55-56 | storing the bumped user rewrites the counter and name of the rows with its id and keeps every other row |
| AuthController.FailedLoginRecordsAttempt | app/controller/auth_controller.go:53-63 | a wrong password increments the stored counter, overwrites the stored name with the email, and changes no other row and no task |
| AuthController.Register | app/controller/auth_controller.go:116-173 | always a reply; a found email is 409 without errors; a missing field (email, password, name in that order) is 400; only a 201 changes the store, inserting the user with the bcrypt hash |
| AuthController.LoginKeepsWf | app/controller/auth_controller.go:53-62 | the only write a login makes, the failed-attempt update, keeps both tables' ids unique and below their counters |
| AuthController.RegisterKeepsWf | app/controller/auth_controller.go:156-172 | the only write a registration makes, the user insert, keeps both tables' ids unique and below their counters |
| AuthController.RegisterCreates | app/controller/auth_controller.go:156-172 | past the lookup and the field checks, with working hashing and insert, registration answers 201 and stores the user |
| AuthController.RegisterThenLogin | app/controller/auth_controller.go:116-173 | registering and then logging in with the same credentials succeeds without writing, and the token carries the new id, the email, and the email again as name |
| AuthController.RegisterTwiceConflicts | app/controller/auth_controller.go:123-128 | registering an email twice creates the user once; the second request gets 409 and changes nothing |
| AuthController.RegisterLookupFaultDuplicates | app/controller/auth_controller.go:123-128 | when the lookup's read fails, an already stored email is registered again as a second row |
| AuthController.LoginRevealsUnknownEmail | app/controller/auth_controller.go:47-51 | an unknown email gets errors ["user not found"] while a wrong password gets ["email or password is incorrect"], so the replies differ |
| AuthController.LoginUniform | app/controller/auth_controller.go:47-51 | the corrected login answers as the original once the user is found, and with the uniform credentials error on any lookup error |
| AuthController.LoginUniformHidesUnknownEmail | app/controller/auth_controller.go:47-51 | with the uniform error, an unknown email and a wrong password get identical replies |
| Router.FindRoute | app/router.go:62-79 | the route found is the first in the table that matches method and path; none is found exactly when no route matches |
| Router.RoutesAreDisjoint | app/router.go:62-79 | no request matches two routes |
| Router.RouteTable | app/router.go:62-79 | the five endpoints answer POST register and login, POST and GET tasks, and GET tasks/:taskId with the segment as `taskId`; a GET to login matches nothing |
| Router.AuthMiddleware | app/router.go:39-51 | the token in `x-access-token` passes exactly when the library accepts it, and then its claims are in the context |
| Router.Serve | app/router.go:53-60 | a request no route matches gets 404 "page not found" and leaves the store alone |
| Router.UnauthenticatedRequestChangesNothing | app/router.go:39-51 | a secured request whose token is refused gets 401 "UNAUTHORIZED ACCESS" with the reason, and the store is unchanged |
| Router.ServeNeverPanics | app/router.go:70-77 | no request makes a handler panic, because the handlers that read the claims run only after the middleware stored them |
| Router.ServeKeepsWf | app/router.go:53-79 | serving any request from a store with unique ids below the counters leaves a store with that property |
| Router.SecuredAnswerNeedsLiveToken | app/router.go:70-77 | any secured answer other than 401 was given for a token accepted at the request time, whose claims were live |

## Left out

- Repo.UserQueryRowFirst: `getUserByEmail`'s statement (app_repo.go:49) has no `ORDER BY`, so with several rows sharing an email MySQL may return any of them. The model returns the first in storage order. This is exact while emails are unique, and duplicates arise only as `AuthController.RegisterLookupFaultDuplicates` shows.
- Repo.GetUserByEmailFirstRow: the same choice. With duplicate emails, the scanned row is the first in storage order, where MySQL may pick any matching row.
- The connection and prepared-statement setup (`NewAppRepo`, `dataStoreName`, `Close`) are left out. The statements are constants of the model, and preparing them cannot fail in it.
- Closing the result set is left out. In the source, a failure there panics from a deferred call.
- JSON and HTTP encoding are left out. This covers `omitempty`, the status line, gin's `Content-Type` middleware and header canonicalisation. Header lookup is an exact-key map lookup.
- Body and query binding are left out. They appear as a `Bind` input holding either the error or the bound value.
- The clock is an input `now`, in Unix seconds, plus `later` for the second reading in `AddTask`. `Serve` passes the same `now` to the token's expiry check and to `AddTask`'s first reading, although the source reads the clock again after the middleware. No stated lemma depends on the two instants being equal. Timezones and the `time.Duration` arithmetic are not modelled beyond "300 minutes later".
- HS256 signing and verification, and bcrypt hashing, are not modelled. They are function parameters, and the properties relied on are stated as predicates.
- The printed log line in `Login` is left out.
- The type assertion on the stored claims is left out. Only the middleware stores "claims", so the assertion always holds.
- MySQL column widths and types are not modelled, so inserts never fail on out-of-range values. `TaskFitsColumns` and `UserFitsColumns` only require int64 values where the scanners expect them.
- Sql.KeyOf: a row whose id column is missing or not an integer sorts as 0. With `TableWf` this does not arise.
- Repo.GetAllTasks: the int-to-int64 conversion of `limit` is not modelled. The clamped limit is always in 1..100.
- `user_controller.go`, `user_repo.go`, the service layer and `main.go` are outside the modelled core.
- The JWT library's `exp` check is abstracted as `Live`: no expiry, or not yet past it. Clock skew and `nbf`/`iat` are left out.
- gin's `HandleMethodNotAllowed` is off by default, so a wrong method is answered like an unknown path (404). Other gin engine options are not modelled.
- Router.Serve: gin's `RedirectTrailingSlash` (on by default) is not modelled. For example, `GET /api/secured/tasks/5/` gets a 301 to `/api/secured/tasks/5` from gin, while the model answers 404. `RedirectFixedPath` is off by default.
- Repo.GetAllTasks: the handlers' listing reads an unbroken row stream. A stream that breaks off is modelled only by `GetAllTasksStreamed`, which is not wired into `TaskController.GetTasks`; see "## Findings".
- Repo.GetAllTasksScansPage: it describes the unbroken stream only. On a broken stream the listing is a prefix of this page (`BrokenStreamLooksComplete`).
- Sql.SqlEq: string comparison is exact. MySQL's default collations ignore case, and its PAD SPACE collations also ignore trailing spaces, so `email = ?` can match rows this model does not match.
- Repo.GetUserByEmailWhere: it uses the same exact comparison. A row stored as "A@x.com" is found only by "A@x.com", while MySQL would also return it for "a@x.com".
- AuthController.RegisterLookupFaultDuplicates: no unique index on `email` is modelled, because the table definitions are not part of this model. An insert that such an index would refuse can only appear here as a write fault, so the second row this lemma shows may be refused by a real schema.
- Repo.Convert: integer destinations are int64 only, since Go's `int` is 64 bits on 64-bit platforms. Byte slices, floats, booleans and times are not column values here. `%q` of non-ASCII text is not modelled: such characters are kept as they are, whereas Go escapes non-printable runes.

## Findings

| source | as written | input that shows it | evidently intended | confidence | as-written member | corrected member |
|---|---|---|---|---|---|---|
| app/repo/app_repo.go:52 | the page after cursor `lastId` is `task_id > lastId order by task_id desc limit n` | user 1 owns tasks 1, 2, 3; `lastId=0&limit=2` lists [3, 2]; continuing with `lastId=2` lists [3] again, and task 1 is never reached | pages in descending id order below the cursor (`task_id < ?`, no bound for cursor 0), so that the last listed id continues where the page stopped | medium, not executed | Repo.DescendingNextPageRepeatsTop | Repo.BelowPagesChain |
| app/controller/task_controller.go:84 | the next cursor is the last task's `UserId` | same tasks: the page [3, 2] hands out `lastId=1` (the owner's id), and `lastId=1` lists [3, 2] again | the last task's `TaskId` | high, not executed | TaskController.CursorRepeatsFirstTask | TaskController.CorrectedPagesChain |
| app/repo/app_repo.go:190 | `Name` is filled from the email column | register name "Ann" with email "a@x": the login token's name is "a@x", and a wrong-password attempt overwrites the stored name with "a@x" | `Name` from the name column | high, not executed | Repo.AddUserThenGetUserByEmail | Repo.AddUserThenGetUserByEmailCorrected |
| app/controller/auth_controller.go:49 | a failed lookup's own error is sent in `errors` under the uniform message | unknown email gets errors ["user not found"]; known email with wrong password gets ["email or password is incorrect"] | the same errors for both, so the reply does not reveal which emails are registered | low, not executed | AuthController.LoginRevealsUnknownEmail | AuthController.LoginUniformHidesUnknownEmail |
| app/repo/app_repo.go:140-148 | the `rows.Next()` loop ends without checking `rows.Err()` | the caller owns tasks 3, 2, 1 and the connection drops after the first row: the listing returns [3] with no error, and `GetTasks` answers 200 with one task | return `rows.Err()` after the loop, so a broken stream is an error | medium, not executed | Repo.BrokenStreamLooksComplete | Repo.CheckedListingIsComplete |

=== FILE: app_controller.dfy ===
/**
 * `app/controller`: what the handlers share. A handler reads the store,
 * may write it, and leaves a reply; the store's driver can fail on any
 * call, and which call fails is an input.
 */
module AppController {
  import opened Base
  import opened Models
  import opened Gin
  import opened Sql

  /** The driver failure (if any) of the handler's read and of its write. */
  datatype StoreFaults = StoreFaults(query: Option<string>, write: Option<string>)

  const NoFaults := StoreFaults(None, None)

  /** The reply a handler leaves and the store afterwards. */
  datatype Handled = Handled(reply: Reply, db: Database)

  /**
   * `getErrorResponse(msg, err)`: an envelope with the message and no data;
   * its `errors` field holds the error's text alone, and is left out when
   * there is no error.
   */
  function GetErrorResponse(msg: string, err: Option<string>): (r: Response)
    ensures r.message == msg && r.data == NoData
    ensures r.errors.None? <==> err.None?
    ensures err.Some? ==> r.errors == Some([err.value])
  {
    if err.None? then Response(msg, NoData, None) else Response(msg, NoData, Some([err.value]))
  }

  /** `ctx.AbortWithStatusJSON(status, getErrorResponse(msg, err))`. */
  function Abort(status: int, msg: string, err: Option<string>): (r: Reply)
    ensures r.Reply? && r.status == status && r.body == GetErrorResponse(msg, err)
  {
    Reply(status, GetErrorResponse(msg, err))
  }
}

=== FILE: auth.dfy ===
/**
 * `app/auth`: the access-token check the secured routes run first. A token
 * is an HS256 JWT carrying the caller's claims; signing and verifying it are
 * done by the JWT library, which is passed in as a `TokenCodec` together with
 * the properties the server relies on it to have.
 */
module Auth {
  import opened Base
  import opened Gin

  /** The request header that carries the access token. */
  const TokenHeader := "x-access-token"

  /** How long an issued token is accepted, in minutes. */
  const AccessTokenExpirationMinutes := 300

  /** The context key under which the verified claims are stored. */
  const ClaimsKey := "claims"

  const InvalidToken := "access token is invalid"

  /**
   * The token payload: the caller's id, email and name, and the standard
   * `exp` claim in Unix seconds. The JWT library treats `expiresAt == 0` as
   * "no expiry".
   */
  datatype Claims = Claims(userId: int, email: string, name: string, expiresAt: int)

  /** The auth service: the HMAC key tokens are signed and verified with. */
  datatype Auth = Auth(jwtKey: string)

  function NewAuth(jwtKey: string): Auth {
    Auth(jwtKey)
  }

  function GetJWTKey(a: Auth): string {
    a.jwtKey
  }

  /**
   * What `jwt.ParseWithClaims` yields: an error (bad signature, malformed or
   * expired token, ...) or the decoded claims with the token's `Valid` flag.
   */
  datatype ParseOutcome = ParseFailed(error: string) | Parsed(claims: Claims, valid: bool)

  /** The JWT library: `sign(claims, key)` and `parse(token, key, now)`. */
  datatype TokenCodec = TokenCodec(
    sign: (Claims, string) -> Result<string>,
    parse: (string, string, int) -> ParseOutcome)

  /** Whether claims are still accepted at `now` under the library's rule: no expiry, or not yet past it. */
  predicate Live(c: Claims, now: int) {
    c.expiresAt == 0 || now <= c.expiresAt
  }

  predicate Accepts(o: ParseOutcome) {
    o.Parsed? && o.valid
  }

  /** HMAC signing of well-formed claims does not fail. */
  ghost predicate SignsEverything(codec: TokenCodec) {
    forall c, key :: codec.sign(c, key).Ok?
  }

  /** A token signed with a key is accepted under that key, with its own claims, while they are live. */
  ghost predicate VerifiesOwnTokens(codec: TokenCodec) {
    forall c, key, now :: codec.sign(c, key).Ok? && Live(c, now) ==>
      codec.parse(codec.sign(c, key).value, key, now) == Parsed(c, true)
  }

  /** An accepted token's claims are live. */
  ghost predicate EnforcesExpiry(codec: TokenCodec) {
    forall token, key, now :: Accepts(codec.parse(token, key, now)) ==> Live(codec.parse(token, key, now).claims, now)
  }

  /** A token signed with one key is not accepted under another. */
  ghost predicate RejectsOtherKeys(codec: TokenCodec) {
    forall c, key, other, now :: key != other && codec.sign(c, key).Ok? ==>
      !Accepts(codec.parse(codec.sign(c, key).value, other, now))
  }

  ghost predicate WellBehaved(codec: TokenCodec) {
    SignsEverything(codec) && VerifiesOwnTokens(codec) && EnforcesExpiry(codec) && RejectsOtherKeys(codec)
  }

  /** The outcome of `AuthenticateUser`: the returned token or error, and the context afterwards. */
  datatype Authenticated = Authenticated(result: Result<string>, ctx: Context<Claims>)

  /**
   * `AuthenticateUser`: parses the token with the service's key; a parse
   * error is wrapped as "access token is invalid: <error>", a token the
   * library marks invalid is refused with "access token is invalid", and an
   * accepted token's claims are stored in the context under "claims".
   */
  function AuthenticateUser(a: Auth, ctx: Context<Claims>, accessToken: string, now: int, codec: TokenCodec)
    : (out: Authenticated)
    ensures out.result.Ok? <==> Accepts(codec.parse(accessToken, a.jwtKey, now))
    ensures out.result.Ok? ==>
      && out.result.value == accessToken
      && out.ctx == Set(ctx, ClaimsKey, codec.parse(accessToken, a.jwtKey, now).claims)
    ensures out.result.Err? ==> out.ctx == ctx && InvalidToken <= out.result.error
  {
    match codec.parse(accessToken, a.jwtKey, now)
    case ParseFailed(err) => Authenticated(Err(InvalidToken + ": " + err), ctx)
    case Parsed(claims, valid) =>
      if !valid then Authenticated(Err(InvalidToken), ctx)
      else Authenticated(Ok(accessToken), Set(ctx, ClaimsKey, claims))
  }

  /**
   * A token the service signs with its own key authenticates while its
   * claims are live, and puts exactly those claims in the context.
   */
  lemma SignedTokenAuthenticates(jwtKey: string, c: Claims, ctx: Context<Claims>, now: int, codec: TokenCodec)
    requires WellBehaved(codec)
    requires Live(c, now)
    ensures var a := NewAuth(jwtKey);
      var token := codec.sign(c, GetJWTKey(a)).value;
      var out := AuthenticateUser(a, ctx, token, now, codec);
      out.result == Ok(token) && MustGet(out.ctx, ClaimsKey) == Some(c)
  {
    assert codec.sign(c, jwtKey).Ok?;
  }

  /**
   * Once its expiry has passed, no token authenticates, whoever signed it.
   * This is the codec's expiry check carried through `AuthenticateUser` in
   * one step: the service adds no check of its own on top of the library's.
   */
  lemma ExpiredTokenRejected(a: Auth, ctx: Context<Claims>, token: string, now: int, codec: TokenCodec)
    requires EnforcesExpiry(codec)
    requires codec.parse(token, a.jwtKey, now).Parsed?
    requires !Live(codec.parse(token, a.jwtKey, now).claims, now)
    ensures AuthenticateUser(a, ctx, token, now, codec).result.Err?
    ensures AuthenticateUser(a, ctx, token, now, codec).ctx == ctx
  {
  }

  /**
   * A token signed with a different key never authenticates and never sets
   * claims. Like the expiry case, this follows in one step from the codec's
   * signature check; the service relies on the library for it.
   */
  lemma ForeignTokenRejected(a: Auth, other: string, c: Claims, ctx: Context<Claims>, now: int, codec: TokenCodec)
    requires WellBehaved(codec)
    requires other != a.jwtKey
    ensures var out := AuthenticateUser(a, ctx, codec.sign(c, other).value, now, codec);
      out.result.Err? && MustGet(out.ctx, ClaimsKey) == MustGet(ctx, ClaimsKey)
  {
    assert codec.sign(c, other).Ok?;
  }
}

=== FILE: auth_controller.dfy ===
/**
 * `app/controller/auth_controller.go`: registration and login. Password
 * hashing is bcrypt's, passed in as a `Hasher`; token signing is the JWT
 * library's, passed in as a `TokenCodec`; `now` is the request time in Unix
 * seconds.
 */
module AuthController {
  import opened Base
  import opened Models
  import opened Gin
  import opened Sql
  import opened Auth
  import opened AppController
  import Repo

  /** bcrypt: `generate(password, cost)` and `compare(hash, password)` (true when they match). */
  datatype Hasher = Hasher(generate: (string, int) -> Result<string>, compare: (string, string) -> bool)

  const BcryptCost := 10

  /** A hash bcrypt produces for a password matches that password. */
  ghost predicate HashesVerify(h: Hasher) {
    forall password, cost :: h.generate(password, cost).Ok? ==> h.compare(h.generate(password, cost).value, password)
  }

  const CredentialsIncorrect := "email or password is incorrect"

  /** `AccessTokenExpirationMinutes` in seconds. */
  const TokenLifetime := AccessTokenExpirationMinutes * 60

  /** The claims `Login` signs for a user whose token expires at `expiresAt`. */
  function ClaimsFor(u: User, expiresAt: int): Claims {
    Claims(u.userId, u.email, u.name, expiresAt)
  }

  /** The user row after a failed attempt: the counter advanced as a Go `int` (64-bit) does. */
  function WithFailedAttempt(u: User): (u': User)
    requires IsInt64(u.failedLoginAttempt)
    ensures u'.failedLoginAttempt == Int64Inc(u.failedLoginAttempt)
    ensures u'.(failedLoginAttempt := u.failedLoginAttempt) == u
  {
    u.(failedLoginAttempt := Int64Inc(u.failedLoginAttempt))
  }

  /**
   * `Login`: looks the user up by email, checks the password against the
   * stored hash, and on success signs claims that expire 300 minutes after
   * `now`. A wrong password records the failed attempt (a failure of that
   * write is only logged) and answers 401; nothing else writes the store.
   */
  function Login(db: Database, a: Auth, body: Bind<LoginRequest>, now: int, codec: TokenCodec, hasher: Hasher,
                 faults: StoreFaults): (h: Handled)
    ensures h.reply.Reply?
    ensures body.BindFailed? ==> h == Handled(Abort(StatusBadRequest, "invalid request", Some(body.error)), db)
    ensures body.Bound? && Repo.GetUserByEmail(db, body.value.email, faults.query).Err? ==>
      h == Handled(Abort(StatusUnauthorized, CredentialsIncorrect,
                         Some(Repo.GetUserByEmail(db, body.value.email, faults.query).error)), db)
    ensures h.db != db ==> h.reply == Abort(StatusUnauthorized, CredentialsIncorrect, Some(CredentialsIncorrect))
    ensures body.Bound? && Repo.GetUserByEmail(db, body.value.email, faults.query).Ok?
            && !hasher.compare(Repo.GetUserByEmail(db, body.value.email, faults.query).value.password, body.value.password) ==>
      && h.reply == Abort(StatusUnauthorized, CredentialsIncorrect, Some(CredentialsIncorrect))
      && (faults.write.Some? ==> h.db == db)
    ensures h.reply.Status() == StatusOK ==>
      && body.Bound?
      && Repo.GetUserByEmail(db, body.value.email, faults.query).Ok?
      && hasher.compare(Repo.GetUserByEmail(db, body.value.email, faults.query).value.password, body.value.password)
      && h.reply.body.data.LoginData?
      && h.reply.body.data.login.expiresAt == now + TokenLifetime
  {
    match body
    case BindFailed(e) => Handled(Abort(StatusBadRequest, "invalid request", Some(e)), db)
    case Bound(req) =>
      match Repo.GetUserByEmail(db, req.email, faults.query)
      case Err(e) => Handled(Abort(StatusUnauthorized, CredentialsIncorrect, Some(e)), db)
      case Ok(user) =>
        if !hasher.compare(user.password, req.password) then
          var db' := match Repo.UpdateUser(db, WithFailedAttempt(user), faults.write)
            case Ok(updated) => updated
            case Err(_) => db;
          Handled(Abort(StatusUnauthorized, CredentialsIncorrect, Some(CredentialsIncorrect)), db')
        else
          var expiresAt := now + TokenLifetime;
          match codec.sign(ClaimsFor(user, expiresAt), GetJWTKey(a))
          case Err(e) => Handled(Abort(StatusUnauthorized, CredentialsIncorrect, Some(e)), db)
          case Ok(token) =>
            Handled(Reply(StatusOK, Response("successfully logged in user", LoginData(LoginResponse(token, expiresAt)), None)),
                    db)
  }

  function ConflictMessage(email: string): string {
    "user with email [" + email + "] exists"
  }

  /** The user `Register` builds from a request: no login yet, both dates `now`. */
  function NewUser(req: RegisterRequest, now: int): User {
    User(0, req.name, req.email, req.password, 0, 0, now, now)
  }

  /** The first empty field, in the order `Register` checks them: email, password, name. */
  function MissingField(req: RegisterRequest): Option<string> {
    if |req.email| == 0 then Some("field email is required")
    else if |req.password| == 0 then Some("field password is required")
    else if |req.name| == 0 then Some("field name is required")
    else None
  }

  /**
   * `Register`: refuses an email the lookup finds (409, before the fields
   * are checked), then an empty email, password or name, hashes the
   * password with cost 10 and inserts the user. Any lookup error, not only
   * "user not found", lets the registration go ahead.
   */
  function Register(db: Database, body: Bind<RegisterRequest>, now: int, hasher: Hasher, faults: StoreFaults)
    : (h: Handled)
    ensures h.reply.Reply?
    ensures body.BindFailed? ==> h == Handled(Abort(StatusBadRequest, "invalid request", Some(body.error)), db)
    ensures body.Bound? && Repo.GetUserByEmail(db, body.value.email, faults.query).Ok? ==>
      h == Handled(Abort(StatusConflict, ConflictMessage(body.value.email), None), db)
    ensures (body.Bound? && Repo.GetUserByEmail(db, body.value.email, faults.query).Err? && MissingField(body.value).Some?) ==>
      h == Handled(Abort(StatusBadRequest, "invalid request", MissingField(body.value)), db)
    ensures h.reply.Status() != StatusCreated ==> h.db == db
    ensures h.reply.Status() == StatusCreated ==>
      && body.Bound?
      && Repo.GetUserByEmail(db, body.value.email, faults.query).Err?
      && MissingField(body.value).None?
      && hasher.generate(body.value.password, BcryptCost).Ok?
      && h.db == Repo.AddUser(db, NewUser(body.value, now).(password := hasher.generate(body.value.password, BcryptCost).value), None).value
  {
    match body
    case BindFailed(e) => Handled(Abort(StatusBadRequest, "invalid request", Some(e)), db)
    case Bound(req) =>
      if Repo.GetUserByEmail(db, req.email, faults.query).Ok? then
        Handled(Abort(StatusConflict, ConflictMessage(req.email), None), db)
      else if MissingField(req).Some? then
        Handled(Abort(StatusBadRequest, "invalid request", MissingField(req)), db)
      else
        var user := NewUser(req, now);
        match hasher.generate(user.password, BcryptCost)
        case Err(e) => Handled(Abort(StatusBadRequest, "failed to register user", Some(e)), db)
        case Ok(hash) =>
          match Repo.AddUser(db, user.(password := hash), faults.write)
          case Err(e) => Handled(Abort(StatusBadRequest, "failed to register user", Some(e)), db)
          case Ok(db') => Handled(Reply(StatusCreated, Response("successfully registered user", NoData, None)), db')
  }

  // ---------------------------------------------------------------------
  // Properties of registration and login
  // ---------------------------------------------------------------------

  /** The stored user a registration under a fresh email creates, as `Login` later reads it back. */
  function RegisteredUser(req: RegisterRequest, now: int, hash: string, id: int): User {
    NewUser(req, now).(password := hash, userId := id, name := req.email)
  }

  /**
   * Register, then log in with the same email and password: the login
   * succeeds, writes nothing, and its token carries the id the store handed
   * out, the email, and (because the user is read back with the email as
   * its name) the email again as the name.
   */
  lemma RegisterThenLogin(db: Database, a: Auth, req: RegisterRequest, now: int, later: int, codec: TokenCodec,
                          hasher: Hasher)
    requires forall k :: 0 <= k < |db.users.rows| ==> !Repo.HasEmail(db.users.rows[k], req.email)
    requires MissingField(req).None? && IsInt64(now) && IsInt64(db.users.nextId)
    requires HashesVerify(hasher) && hasher.generate(req.password, BcryptCost).Ok?
    requires SignsEverything(codec)
    ensures var h1 := Register(db, Bound(req), now, hasher, NoFaults);
      var user := RegisteredUser(req, now, hasher.generate(req.password, BcryptCost).value, db.users.nextId);
      var h2 := Login(h1.db, a, Bound(LoginRequest(req.email, req.password)), later, codec, hasher, NoFaults);
      && h1.reply == Reply(StatusCreated, Response("successfully registered user", NoData, None))
      && h2.db == h1.db
      && h2.reply == Reply(StatusOK, Response("successfully logged in user",
           LoginData(LoginResponse(codec.sign(ClaimsFor(user, later + TokenLifetime), a.jwtKey).value, later + TokenLifetime)),
           None))
  {
    var hash := hasher.generate(req.password, BcryptCost).value;
    var u := NewUser(req, now).(password := hash);
    Repo.GetUserByEmailMissing(db, req.email);
    Repo.AddUserThenGetUserByEmail(db, u);
    assert u.(userId := db.users.nextId, name := u.email, dateCreated := u.dateUpdated)
      == RegisteredUser(req, now, hash, db.users.nextId);
    assert codec.sign(ClaimsFor(RegisteredUser(req, now, hash, db.users.nextId), later + TokenLifetime), a.jwtKey).Ok?;
  }

  /**
   * The token a successful login hands out authenticates under the same
   * service until it expires, and the claims it puts in the context name the
   * user the login found.
   */
  lemma LoginTokenAuthenticates(db: Database, a: Auth, req: LoginRequest, now: int, at: int, codec: TokenCodec,
                                hasher: Hasher, faults: StoreFaults, ctx: Context<Claims>)
    requires WellBehaved(codec)
    requires Login(db, a, Bound(req), now, codec, hasher, faults).reply.Status() == StatusOK
    requires at <= now + TokenLifetime
    ensures var token := Login(db, a, Bound(req), now, codec, hasher, faults).reply.body.data.login.token;
      var out := AuthenticateUser(a, ctx, token, at, codec);
      var user := Repo.GetUserByEmail(db, req.email, faults.query).value;
      && out.result == Ok(token)
      && MustGet(out.ctx, ClaimsKey) == Some(ClaimsFor(user, now + TokenLifetime))
      && user.email == req.email
  {
    var user := Repo.GetUserByEmail(db, req.email, faults.query).value;
    Repo.GetUserByEmailCarriesEmail(db, req.email, faults.query);
    SignedTokenAuthenticates(a.jwtKey, ClaimsFor(user, now + TokenLifetime), ctx, at, codec);
  }

  /** With a working store, a wrong password answers 401 and stores the user with one more failed attempt. */
  lemma FailedLoginUnfold(db: Database, a: Auth, req: LoginRequest, now: int, codec: TokenCodec, hasher: Hasher)
    requires Repo.GetUserByEmail(db, req.email, None).Ok?
    requires !hasher.compare(Repo.GetUserByEmail(db, req.email, None).value.password, req.password)
    ensures var user := Repo.GetUserByEmail(db, req.email, None).value;
      Login(db, a, Bound(req), now, codec, hasher, NoFaults)
      == Handled(Abort(StatusUnauthorized, CredentialsIncorrect, Some(CredentialsIncorrect)),
                 Repo.UpdateUser(db, WithFailedAttempt(user), None).value)
  {
  }

  /** Storing a user with one more failed attempt rewrites the rows with its id and leaves the rest alone. */
  lemma FailedAttemptRows(db: Database, user: User)
    requires IsInt64(user.failedLoginAttempt)
    ensures var rows := Repo.UpdateUser(db, WithFailedAttempt(user), None).value.users.rows;
      && |rows| == |db.users.rows|
      && forall k :: 0 <= k < |rows| ==>
           if Repo.HasUserId(db.users.rows[k], user.userId) then
             && ColumnIs(rows[k], "failed_login_attempt", IntVal(Int64Inc(user.failedLoginAttempt)))
             && ColumnIs(rows[k], "name", StrVal(user.name))
             && ColumnIs(rows[k], "user_id", IntVal(user.userId))
           else rows[k] == db.users.rows[k]
  {
    var bumped := WithFailedAttempt(user);
    Repo.UpdateUserColumns(db, bumped);
    var rows := Repo.UpdateUser(db, bumped, None).value.users.rows;
    forall k | 0 <= k < |rows| && Repo.HasUserId(db.users.rows[k], user.userId)
      ensures ColumnIs(rows[k], "failed_login_attempt", IntVal(Int64Inc(user.failedLoginAttempt)))
      ensures ColumnIs(rows[k], "name", StrVal(user.name))
      ensures ColumnIs(rows[k], "user_id", IntVal(user.userId))
    {
      Repo.UpdatedUserRow(db.users.rows[k], bumped);
    }
  }

  /**
   * A wrong password, with a working store, rewrites the user's row: the
   * failure counter goes up by one (as a 64-bit int) and, because the user
   * was read back with the email as its name, the name column now holds the
   * email. Every other row is left alone.
   */
  lemma FailedLoginRecordsAttempt(db: Database, a: Auth, req: LoginRequest, now: int, codec: TokenCodec, hasher: Hasher)
    requires Repo.GetUserByEmail(db, req.email, None).Ok?
    requires !hasher.compare(Repo.GetUserByEmail(db, req.email, None).value.password, req.password)
    ensures var user := Repo.GetUserByEmail(db, req.email, None).value;
      var h := Login(db, a, Bound(req), now, codec, hasher, NoFaults);
      var rows := h.db.users.rows;
      && h.reply == Abort(StatusUnauthorized, CredentialsIncorrect, Some(CredentialsIncorrect))
      && h.db.tasks == db.tasks
      && |rows| == |db.users.rows|
      && forall k :: 0 <= k < |rows| ==>
           if Repo.HasUserId(db.users.rows[k], user.userId) then
             && ColumnIs(rows[k], "failed_login_attempt", IntVal(Int64Inc(user.failedLoginAttempt)))
             && ColumnIs(rows[k], "name", StrVal(req.email))
             && ColumnIs(rows[k], "user_id", IntVal(user.userId))
           else rows[k] == db.users.rows[k]
  {
    var user := Repo.GetUserByEmail(db, req.email, None).value;
    Repo.GetUserByEmailCarriesEmail(db, req.email, None);
    FailedLoginUnfold(db, a, req, now, codec, hasher);
    FailedAttemptRows(db, user);
  }

  /**
   * Registering the same email twice with a working store: the first
   * request creates the user, the second is refused with 409 and changes
   * nothing.
   */
  lemma RegisterTwiceConflicts(db: Database, req: RegisterRequest, now: int, later: int, hasher: Hasher)
    requires forall k :: 0 <= k < |db.users.rows| ==> !Repo.HasEmail(db.users.rows[k], req.email)
    requires MissingField(req).None? && IsInt64(now) && IsInt64(db.users.nextId)
    requires hasher.generate(req.password, BcryptCost).Ok?
    ensures var h1 := Register(db, Bound(req), now, hasher, NoFaults);
      var h2 := Register(h1.db, Bound(req), later, hasher, NoFaults);
      && h1.reply.Status() == StatusCreated
      && h2 == Handled(Abort(StatusConflict, ConflictMessage(req.email), None), h1.db)
  {
    var u := NewUser(req, now).(password := hasher.generate(req.password, BcryptCost).value);
    Repo.GetUserByEmailMissing(db, req.email);
    Repo.AddUserThenGetUserByEmail(db, u);
  }

  /** Past the lookup and the field checks, a registration whose hash and insert succeed stores the new user. */
  lemma RegisterCreates(db: Database, req: RegisterRequest, now: int, hasher: Hasher, faults: StoreFaults)
    requires Repo.GetUserByEmail(db, req.email, faults.query).Err?
    requires MissingField(req).None? && hasher.generate(req.password, BcryptCost).Ok? && faults.write.None?
    ensures Register(db, Bound(req), now, hasher, faults)
      == Handled(Reply(StatusCreated, Response("successfully registered user", NoData, None)),
                 Repo.AddUser(db, NewUser(req, now).(password := hasher.generate(req.password, BcryptCost).value), None).value)
  {
  }

  /**
   * A failing lookup is read as "no such user": when the store's read fails,
   * registering an email that is already stored appends a second row for it.
   */
  lemma RegisterLookupFaultDuplicates(db: Database, req: RegisterRequest, now: int, hasher: Hasher, fault: string, k: nat)
    requires k < |db.users.rows| && Repo.HasEmail(db.users.rows[k], req.email)
    requires MissingField(req).None? && hasher.generate(req.password, BcryptCost).Ok?
    ensures var h := Register(db, Bound(req), now, hasher, StoreFaults(Some(fault), None));
      && h.reply.Status() == StatusCreated
      && |h.db.users.rows| == |db.users.rows| + 1
      && Repo.HasEmail(h.db.users.rows[k], req.email)
      && Repo.HasEmail(h.db.users.rows[|db.users.rows|], req.email)
  {
    var u := NewUser(req, now).(password := hasher.generate(req.password, BcryptCost).value);
    RegisterCreates(db, req, now, hasher, StoreFaults(Some(fault), None));
    Repo.AddUserAppends(db, u);
    Repo.InsertedUserEmail(u, db.users.nextId);
  }

  // ---------------------------------------------------------------------
  // What a failed login reveals
  // ---------------------------------------------------------------------

  /**
   * As written, a login for an unknown email and a login with a wrong
   * password get the same status and message but different `errors`:
   * ["user not found"] against ["email or password is incorrect"].
   */
  lemma LoginRevealsUnknownEmail(db: Database, a: Auth, unknown: LoginRequest, known: LoginRequest, now: int,
                                 codec: TokenCodec, hasher: Hasher)
    requires forall k :: 0 <= k < |db.users.rows| ==> !Repo.HasEmail(db.users.rows[k], unknown.email)
    requires Repo.GetUserByEmail(db, known.email, None).Ok?
    requires !hasher.compare(Repo.GetUserByEmail(db, known.email, None).value.password, known.password)
    ensures Login(db, a, Bound(unknown), now, codec, hasher, NoFaults).reply.body.errors == Some([Repo.UserNotFound])
    ensures Login(db, a, Bound(known), now, codec, hasher, NoFaults).reply.body.errors == Some([CredentialsIncorrect])
    ensures Login(db, a, Bound(unknown), now, codec, hasher, NoFaults).reply
         != Login(db, a, Bound(known), now, codec, hasher, NoFaults).reply
  {
    Repo.GetUserByEmailMissing(db, unknown.email);
    assert [Repo.UserNotFound] != [CredentialsIncorrect] by {
      assert Repo.UserNotFound[0] != CredentialsIncorrect[0];
    }
  }

  /** `Login` with the lookup's error text replaced by the uniform "email or password is incorrect". */
  function LoginUniform(db: Database, a: Auth, body: Bind<LoginRequest>, now: int, codec: TokenCodec, hasher: Hasher,
                        faults: StoreFaults): (h: Handled)
    ensures body.Bound? && Repo.GetUserByEmail(db, body.value.email, faults.query).Ok? ==>
      h == Login(db, a, body, now, codec, hasher, faults)
    ensures body.Bound? && Repo.GetUserByEmail(db, body.value.email, faults.query).Err? ==>
      h == Handled(Abort(StatusUnauthorized, CredentialsIncorrect, Some(CredentialsIncorrect)), db)
  {
    match body
    case BindFailed(e) => Handled(Abort(StatusBadRequest, "invalid request", Some(e)), db)
    case Bound(req) =>
      match Repo.GetUserByEmail(db, req.email, faults.query)
      case Err(_) => Handled(Abort(StatusUnauthorized, CredentialsIncorrect, Some(CredentialsIncorrect)), db)
      case Ok(_) => Login(db, a, body, now, codec, hasher, faults)
  }

  /** With the uniform error, an unknown email and a wrong password get byte-for-byte the same reply. */
  lemma LoginUniformHidesUnknownEmail(db: Database, a: Auth, unknown: LoginRequest, known: LoginRequest, now: int,
                                      codec: TokenCodec, hasher: Hasher)
    requires forall k :: 0 <= k < |db.users.rows| ==> !Repo.HasEmail(db.users.rows[k], unknown.email)
    requires Repo.GetUserByEmail(db, known.email, None).Ok?
    requires !hasher.compare(Repo.GetUserByEmail(db, known.email, None).value.password, known.password)
    ensures LoginUniform(db, a, Bound(unknown), now, codec, hasher, NoFaults).reply
         == LoginUniform(db, a, Bound(known), now, codec, hasher, NoFaults).reply
  {
    Repo.GetUserByEmailMissing(db, unknown.email);
  }

  // ---------------------------------------------------------------------
  // The handlers keep the table invariant
  // ---------------------------------------------------------------------

  /** A login writes at most the failed-attempt update, which keeps ids unique and below the counter. */
  lemma LoginKeepsWf(db: Database, a: Auth, body: Bind<LoginRequest>, now: int, codec: TokenCodec, hasher: Hasher,
                     faults: StoreFaults)
    requires DatabaseWf(db)
    ensures DatabaseWf(Login(db, a, body, now, codec, hasher, faults).db)
  {
    var h := Login(db, a, body, now, codec, hasher, faults);
    if h.db != db {
      var user := Repo.GetUserByEmail(db, body.value.email, faults.query).value;
      assert h.db == Repo.UpdateUser(db, WithFailedAttempt(user), None).value;
      Repo.UpdateUserKeepsWf(db, WithFailedAttempt(user));
    }
  }

  /** A registration writes at most one insert, which hands out a fresh id. */
  lemma RegisterKeepsWf(db: Database, body: Bind<RegisterRequest>, now: int, hasher: Hasher, faults: StoreFaults)
    requires DatabaseWf(db)
    ensures DatabaseWf(Register(db, body, now, hasher, faults).db)
  {
    var h := Register(db, body, now, hasher, faults);
    if h.reply.Status() == StatusCreated {
      Repo.AddUserKeepsWf(db, NewUser(body.value, now).(password := hasher.generate(body.value.password, BcryptCost).value));
    }
  }
}

=== FILE: base.dfy ===
/**
 * Small shared vocabulary: optional values, results carrying an error
 * message (Go's `(T, error)` pairs), and Go's 64-bit signed integers.
 */
module Base {

  /** An optional value; `None` plays the role of Go's nil. */
  datatype Option<+T> = None | Some(value: T)

  /** A value or an error message: Go's `(T, error)` with exactly one of them set. */
  datatype Result<+T> = Ok(value: T) | Err(error: string)

  const MinInt64: int := -0x8000_0000_0000_0000
  const MaxInt64: int := 0x7FFF_FFFF_FFFF_FFFF

  /** Go's `int64` (and `int` on the 64-bit platforms the server runs on). */
  predicate IsInt64(x: int) {
    MinInt64 <= x <= MaxInt64
  }

  /** Go's `x++` on a 64-bit integer: two's-complement wrap-around at the top. */
  function Int64Inc(x: int): (r: int)
    requires IsInt64(x)
    ensures IsInt64(r)
    ensures x < MaxInt64 ==> r == x + 1
    ensures x == MaxInt64 ==> r == MinInt64
  {
    if x == MaxInt64 then MinInt64 else x + 1
  }
}

=== FILE: gin.dfy ===
/**
 * The slice of the gin web framework the server's code touches: a request
 * context holding headers and per-request values, the outcome of binding a
 * request body or query onto a Go struct, and the reply a handler leaves.
 */
module Gin {
  import opened Base
  import opened Models

  const StatusOK := 200
  const StatusCreated := 201
  const StatusBadRequest := 400
  const StatusUnauthorized := 401
  const StatusNotFound := 404
  const StatusConflict := 409
  const StatusInternalServerError := 500

  /**
   * A request context: the request headers and the values stored with
   * `ctx.Set`. Header names are compared exactly (gin canonicalises them,
   * which is left out).
   */
  datatype Context<V> = Context(headers: map<string, string>, values: map<string, V>)

  /** A fresh context for an incoming request: no value has been set yet. */
  function NewContext<V>(headers: map<string, string>): (ctx: Context<V>)
    ensures ctx.headers == headers && ctx.values == map[]
  {
    Context(headers, map[])
  }

  /** `ctx.GetHeader(name)`: the header's value, or "" when the request lacks it. */
  function GetHeader<V>(ctx: Context<V>, name: string): (v: string)
    ensures name in ctx.headers ==> v == ctx.headers[name]
    ensures name !in ctx.headers ==> v == ""
  {
    if name in ctx.headers then ctx.headers[name] else ""
  }

  /** `ctx.Set(key, value)`: stores the value and leaves the headers alone. */
  function Set<V>(ctx: Context<V>, key: string, value: V): (ctx': Context<V>)
    ensures ctx'.headers == ctx.headers
    ensures key in ctx'.values && ctx'.values[key] == value
    ensures forall k :: k != key ==> (k in ctx'.values <==> k in ctx.values)
  {
    ctx.(values := ctx.values[key := value])
  }

  /** `ctx.MustGet(key)`: the stored value; `None` stands for the panic gin raises when the key is missing. */
  function MustGet<V>(ctx: Context<V>, key: string): (v: Option<V>)
    ensures v.Some? <==> key in ctx.values
    ensures v.Some? ==> v.value == ctx.values[key]
  {
    if key in ctx.values then Some(ctx.values[key]) else None
  }

  /**
   * The outcome of `ctx.BindJSON(&x)` / `ctx.BindQuery(&x)`: either the
   * struct gin filled in or the binding error's message. Which one a request
   * yields is decided by gin and the JSON decoder, and is an input here.
   */
  datatype Bind<+T> = BindFailed(error: string) | Bound(value: T)

  /**
   * What the client receives: a status code with a JSON envelope, or the
   * answer of gin's Recovery middleware (installed by `gin.Default`) to a
   * handler that panicked.
   */
  datatype Reply = Reply(status: int, body: Response) | Panicked {
    function Status(): int {
      if Reply? then status else StatusInternalServerError
    }
  }
}

=== FILE: models.dfy ===
/**
 * The record shapes of `app/models`: the stored `User` and `Task`, the
 * request bodies, and the JSON envelope every handler answers with.
 * Integer fields are Go `int64`/`int`; they are kept as `int` here and the
 * places that depend on the width say so.
 */
module Models {
  import opened Base

  datatype User = User(
    userId: int,
    name: string,
    email: string,
    password: string,
    lastLogin: int,
    failedLoginAttempt: int,
    dateCreated: int,
    dateUpdated: int)

  datatype Task = Task(
    taskId: int,
    userId: int,
    title: string,
    description: string,
    dateCreated: int,
    dateUpdated: int,
    dueDate: int,
    dateCompleted: int)

  datatype LoginRequest = LoginRequest(email: string, password: string)

  datatype RegisterRequest = RegisterRequest(name: string, email: string, password: string)

  datatype LoginResponse = LoginResponse(token: string, expiresAt: int)

  /** One page of a listing: the items, the cursor for the next request and the page size used. */
  datatype Paged = Paged(items: seq<Task>, lastId: int, limit: int)

  /** What a `Response.Data` field can hold in this server; `NoData` is an omitted field. */
  datatype Data =
    | NoData
    | PageData(page: Paged)
    | TaskData(task: Task)
    | LoginData(login: LoginResponse)

  /** The generic envelope `{message, data?, errors?}`; `errors` is `None` when the field is nil. */
  datatype Response = Response(message: string, data: Data, errors: Option<seq<string>>)
}

=== FILE: repo.dfy ===
/**
 * `app/repo/app_repo.go`: the six prepared statements, the repository
 * operations that run them, and the two row scanners that turn a result row
 * into a `User` or a `Task`. The statements are kept as data whose shape
 * mirrors their SQL text, column for column and `?` for `?`.
 */
module Repo {
  import opened Base
  import opened Models
  import opened Sql
  import Strconv

  // ---------------------------------------------------------------------
  // The statements (app_repo.go lines 47-53)
  // ---------------------------------------------------------------------

  /** The columns the user insert and update assign, in their `?` order. */
  const UserWriteColumns: seq<string> :=
    ["name", "email", "password", "last_login", "failed_login_attempt", "date_created", "date_updated"]

  const UserSelectColumns: seq<string> :=
    ["user_id", "name", "email", "password", "last_login", "failed_login_attempt", "date_created", "date_updated"]

  const TaskInsertColumns: seq<string> :=
    ["user_id", "title", "description", "date_created", "date_updated", "due_date", "date_complete"]

  const TaskSelectColumns: seq<string> :=
    ["task_id", "user_id", "title", "description", "date_created", "date_updated", "due_date", "date_complete"]

  /** insert into GOS_USER (name, email, password, last_login, failed_login_attempt, date_created, date_updated) VALUES (?, ?, ?, ?, ?, ?, ?) */
  const CreateUserStatement := Insert(GosUser, UserWriteColumns)

  /** update GOS_USER set name = ?, ..., date_updated = ? where user_id = ? */
  const UpdateUserStatement := Update(GosUser, UserWriteColumns, ColEq("user_id", 7))

  /** select user_id, ..., date_updated from GOS_USER where email = ? */
  const GetUserByEmailStatement := Select(GosUser, UserSelectColumns, ColEq("email", 0), StorageOrder, None)

  /** insert into GOS_TASK (user_id, title, description, date_created, date_updated, due_date, date_complete) VALUES (?, ..., ?) */
  const InsertTaskStatement := Insert(GosTask, TaskInsertColumns)

  /** select task_id, ..., date_complete from GOS_TASK where task_id > ? and user_id = ? order by task_id desc limit ? */
  const GetTasksStatement :=
    Select(GosTask, TaskSelectColumns, And(ColGt("task_id", 0), ColEq("user_id", 1)), Descending("task_id"), Some(2))

  /** select task_id, ..., date_complete from GOS_TASK where task_id = ? and user_id = ? */
  const GetTaskByIdStatement :=
    Select(GosTask, TaskSelectColumns, And(ColEq("task_id", 0), ColEq("user_id", 1)), StorageOrder, None)

  const UserNotFound := "user not found"
  const TaskNotFound := "task not found"
  const ReadRowPrefix := "mysql: could not read row: "

  // ---------------------------------------------------------------------
  // Scanning a result row into Go variables
  // ---------------------------------------------------------------------

  /**
   * The kind of Go variable `Scan` writes a column into: `int64`, `int`
   * (64 bits wide on the platforms the server targets) or `string`.
   */
  datatype Dest = Int64Dest | IntDest | StringDest

  /** The destination's kind as Go's conversion errors print it. */
  function KindName(d: Dest): string {
    match d
    case Int64Dest => "int64"
    case IntDest => "int"
    case StringDest => "string"
  }

  /** A value of the destination's own Go type, which `Scan` stores unchanged. */
  predicate Native(v: Value, d: Dest) {
    if d == StringDest then v.StrVal? else v.IntVal? && IsInt64(v.i)
  }

  /** The reason `strconv.ParseInt` gives for text it refuses, as `convertAssign` passes it on. */
  function ParseFailure(s: string): string {
    if Strconv.WellFormedDecimal(s) then "value out of range" else "invalid syntax"
  }

  /**
   * `convertAssign` for the values the MySQL driver returns from a prepared
   * statement: NULL, an `int64`, or text as a `[]uint8`. NULL converts into
   * nothing; text is parsed into an integer destination; an integer is
   * formatted in decimal into a string destination. An integer outside int64
   * is refused as Go refuses the same digits given as text.
   */
  function Convert(v: Value, d: Dest): (r: Result<Value>)
    ensures r.Ok? ==> Native(r.value, d)
    ensures Native(v, d) ==> r == Ok(v)
    ensures r.Ok? && v.IntVal? && d != StringDest ==> r.value == v
  {
    match v
    case Null => Err(NullConversionError(d))
    case IntVal(i) =>
      if d == StringDest then Ok(StrVal(Strconv.FormatInt(i)))
      else if IsInt64(i) then Ok(v)
      else Err(TextConversionError(Strconv.FormatInt(i), d))
    case StrVal(text) =>
      if d == StringDest then Ok(v)
      else match Strconv.ParseInt64(text)
        case Some(n) => Ok(IntVal(n))
        case None => Err(TextConversionError(text, d))
  }

  function NullConversionError(d: Dest): string {
    "converting NULL to " + KindName(d) + " is unsupported"
  }

  function TextConversionError(text: string, d: Dest): string {
    "converting driver.Value type []uint8 (" + Strconv.Quote(text) + ") to a " + KindName(d) + ": " + ParseFailure(text)
  }

  /**
   * What the conversion does with each kind of value: NULL is refused for
   * every destination, text goes into an integer exactly when `ParseInt`
   * accepts it, and an integer goes into a string as its decimal form.
   */
  lemma ConvertCases(v: Value, d: Dest)
    ensures v.Null? ==> Convert(v, d) == Err(NullConversionError(d))
    ensures v.StrVal? && d != StringDest ==>
      && (Convert(v, d).Ok? <==> Strconv.ParseInt64(v.s).Some?)
      && (Convert(v, d).Ok? ==> Convert(v, d).value == IntVal(Strconv.ParseInt64(v.s).value))
      && (Convert(v, d).Err? ==> Convert(v, d).error == TextConversionError(v.s, d))
    ensures v.IntVal? && d == StringDest ==> Convert(v, d) == Ok(StrVal(Strconv.FormatInt(v.i)))
  {
  }

  /** The first column, from `from` on, whose value does not convert. */
  function FirstFailure(vals: seq<Value>, dests: seq<Dest>, from: nat): (r: Option<nat>)
    requires |vals| == |dests| && from <= |vals|
    ensures r.None? ==> forall i :: from <= i < |vals| ==> Convert(vals[i], dests[i]).Ok?
    ensures r.Some? ==>
      && from <= r.value < |vals|
      && Convert(vals[r.value], dests[r.value]).Err?
      && (forall i :: from <= i < r.value ==> Convert(vals[i], dests[i]).Ok?)
    decreases |vals| - from
  {
    if from == |vals| then None
    else if Convert(vals[from], dests[from]).Err? then Some(from)
    else FirstFailure(vals, dests, from + 1)
  }

  /** `Rows.Scan`'s error for a column that does not convert: its index, its quoted name, and the reason. */
  function ScanColumnError(index: nat, name: string, cause: string): (e: string)
    ensures |e| > 0 && e[0] == 's'
  {
    "sql: Scan error on column index " + Strconv.FormatInt(index) + ", name " + Strconv.Quote(name) + ": " + cause
  }

  function ScanArityError(columns: nat, dests: nat): (e: string)
    ensures |e| > 0 && e[0] == 's'
  {
    "sql: expected " + Strconv.FormatInt(columns) + " destination arguments in Scan, not " + Strconv.FormatInt(dests)
  }

  /**
   * `Scan(dest...)` over a result whose columns are named `names`: the value
   * each destination receives, or the error for the first column that does
   * not convert.
   */
  function Scan(vals: seq<Value>, names: seq<string>, dests: seq<Dest>): (r: Result<seq<Value>>)
    requires |names| == |dests|
    ensures |vals| != |dests| ==> r == Err(ScanArityError(|vals|, |dests|))
    ensures r.Ok? <==> |vals| == |dests| && forall i :: 0 <= i < |vals| ==> Convert(vals[i], dests[i]).Ok?
    ensures r.Ok? ==> |r.value| == |vals| && forall i :: 0 <= i < |vals| ==> Convert(vals[i], dests[i]) == Ok(r.value[i])
    ensures r.Err? ==> |r.error| > 0 && r.error[0] == 's'
  {
    if |vals| != |dests| then Err(ScanArityError(|vals|, |dests|))
    else match FirstFailure(vals, dests, 0)
      case Some(i) => Err(ScanColumnError(i, names[i], Convert(vals[i], dests[i]).error))
      case None => Ok(seq(|vals|, i requires 0 <= i < |vals| => Convert(vals[i], dests[i]).value))
  }

  /** The search for a failing column, started at or before the first one, finds that one. */
  lemma {:induction false} FirstFailureFinds(vals: seq<Value>, dests: seq<Dest>, from: nat, i: nat)
    requires |vals| == |dests| && from <= i < |vals|
    requires Convert(vals[i], dests[i]).Err?
    requires forall j :: from <= j < i ==> Convert(vals[j], dests[j]).Ok?
    ensures FirstFailure(vals, dests, from) == Some(i)
    decreases i - from
  {
    if from < i {
      FirstFailureFinds(vals, dests, from + 1, i);
    }
  }

  /** `Scan` reports the first column that does not convert, under its own name and with the conversion's reason. */
  lemma ScanStopsAt(vals: seq<Value>, names: seq<string>, dests: seq<Dest>, i: nat)
    requires |names| == |dests| == |vals| && i < |vals|
    requires Convert(vals[i], dests[i]).Err?
    requires forall j :: 0 <= j < i ==> Convert(vals[j], dests[j]).Ok?
    ensures Scan(vals, names, dests) == Err(ScanColumnError(i, names[i], Convert(vals[i], dests[i]).error))
  {
    FirstFailureFinds(vals, dests, 0, i);
  }

  /** A row whose every value already has its destination's type scans to itself. */
  lemma ScanNative(vals: seq<Value>, names: seq<string>, dests: seq<Dest>)
    requires |names| == |dests| == |vals|
    requires forall i :: 0 <= i < |vals| ==> Native(vals[i], dests[i])
    ensures Scan(vals, names, dests) == Ok(vals)
  {
    assert forall i :: 0 <= i < |vals| ==> Convert(vals[i], dests[i]) == Ok(vals[i]);
    var cv := Scan(vals, names, dests).value;
    assert forall i :: 0 <= i < |vals| ==> cv[i] == vals[i];
    assert cv == vals;
  }

  /** The integer a converted value holds (conversion into an integer destination always yields one). */
  function IntOf(v: Value): int {
    if v.IntVal? then v.i else 0
  }

  /** The text a converted value holds (conversion into a string destination always yields one). */
  function StrOf(v: Value): string {
    if v.StrVal? then v.s else ""
  }

  const UserDests := [Int64Dest, StringDest, StringDest, StringDest, IntDest, IntDest, Int64Dest, Int64Dest]
  const TaskDests := [Int64Dest, Int64Dest, StringDest, StringDest, Int64Dest, Int64Dest, Int64Dest, Int64Dest]

  /**
   * `scanRowUser`: columns user_id, name, email, password, last_login,
   * failed_login_attempt, date_created, date_updated. The `Name` field is
   * filled from the email column; the name column is read and dropped.
   */
  function ScanRowUser(vals: seq<Value>): (r: Result<User>)
    ensures r.Ok? ==> r.value.name == r.value.email
    ensures r.Ok? ==> IsInt64(r.value.userId) && IsInt64(r.value.failedLoginAttempt)
  {
    match Scan(vals, UserSelectColumns, UserDests)
    case Err(e) => Err(e)
    case Ok(cv) =>
      assert Native(cv[0], UserDests[0]) && Native(cv[5], UserDests[5]);
      Ok(User(IntOf(cv[0]), StrOf(cv[2]), StrOf(cv[2]), StrOf(cv[3]), IntOf(cv[4]), IntOf(cv[5]), IntOf(cv[6]), IntOf(cv[7])))
  }

  /** `scanRowUser` fails exactly when `Scan` does, with `Scan`'s error. */
  lemma ScanRowUserErrors(vals: seq<Value>)
    ensures ScanRowUser(vals).Ok? <==> Scan(vals, UserSelectColumns, UserDests).Ok?
    ensures ScanRowUser(vals).Err? ==> ScanRowUser(vals).error == Scan(vals, UserSelectColumns, UserDests).error
  {
  }

  /** Each field of a scanned user is its column converted into the field's Go type, by position. */
  lemma ScanRowUserFields(vals: seq<Value>)
    requires ScanRowUser(vals).Ok?
    ensures var u := ScanRowUser(vals).value;
      && Convert(vals[0], Int64Dest) == Ok(IntVal(u.userId))
      && Convert(vals[2], StringDest) == Ok(StrVal(u.name))
      && Convert(vals[2], StringDest) == Ok(StrVal(u.email))
      && Convert(vals[3], StringDest) == Ok(StrVal(u.password))
      && Convert(vals[4], IntDest) == Ok(IntVal(u.lastLogin))
      && Convert(vals[5], IntDest) == Ok(IntVal(u.failedLoginAttempt))
      && Convert(vals[6], Int64Dest) == Ok(IntVal(u.dateCreated))
      && Convert(vals[7], Int64Dest) == Ok(IntVal(u.dateUpdated))
  {
    var cv := Scan(vals, UserSelectColumns, UserDests).value;
    assert Native(cv[0], Int64Dest) && Native(cv[2], StringDest) && Native(cv[3], StringDest);
    assert Native(cv[4], IntDest) && Native(cv[5], IntDest) && Native(cv[6], Int64Dest) && Native(cv[7], Int64Dest);
  }

  /** `scanRowTask`: columns task_id, user_id, title, description, date_created, date_updated, due_date, date_complete. */
  function ScanRowTask(vals: seq<Value>): (r: Result<Task>)
    ensures r.Ok? ==> IsInt64(r.value.taskId) && IsInt64(r.value.userId)
  {
    match Scan(vals, TaskSelectColumns, TaskDests)
    case Err(e) => Err(e)
    case Ok(cv) =>
      assert Native(cv[0], TaskDests[0]) && Native(cv[1], TaskDests[1]);
      Ok(Task(IntOf(cv[0]), IntOf(cv[1]), StrOf(cv[2]), StrOf(cv[3]), IntOf(cv[4]), IntOf(cv[5]), IntOf(cv[6]), IntOf(cv[7])))
  }

  /** `scanRowTask` fails exactly when `Scan` does, with `Scan`'s error. */
  lemma ScanRowTaskErrors(vals: seq<Value>)
    ensures ScanRowTask(vals).Ok? <==> Scan(vals, TaskSelectColumns, TaskDests).Ok?
    ensures ScanRowTask(vals).Err? ==> ScanRowTask(vals).error == Scan(vals, TaskSelectColumns, TaskDests).error
  {
  }

  /** Each field of a scanned task is its column converted into the field's Go type, by position. */
  lemma ScanRowTaskFields(vals: seq<Value>)
    requires ScanRowTask(vals).Ok?
    ensures var t := ScanRowTask(vals).value;
      && Convert(vals[0], Int64Dest) == Ok(IntVal(t.taskId))
      && Convert(vals[1], Int64Dest) == Ok(IntVal(t.userId))
      && Convert(vals[2], StringDest) == Ok(StrVal(t.title))
      && Convert(vals[3], StringDest) == Ok(StrVal(t.description))
      && Convert(vals[4], Int64Dest) == Ok(IntVal(t.dateCreated))
      && Convert(vals[5], Int64Dest) == Ok(IntVal(t.dateUpdated))
      && Convert(vals[6], Int64Dest) == Ok(IntVal(t.dueDate))
      && Convert(vals[7], Int64Dest) == Ok(IntVal(t.dateCompleted))
  {
    var cv := Scan(vals, TaskSelectColumns, TaskDests).value;
    assert Native(cv[0], Int64Dest) && Native(cv[1], Int64Dest) && Native(cv[2], StringDest) && Native(cv[3], StringDest);
    assert Native(cv[4], Int64Dest) && Native(cv[5], Int64Dest) && Native(cv[6], Int64Dest) && Native(cv[7], Int64Dest);
  }

  /** A scanned task's integer field holds the column's own integer, when the column holds one. */
  lemma ScanRowTaskKey(vals: seq<Value>, k: nat)
    requires ScanRowTask(vals).Ok? && k < 2 && vals[k].IntVal?
    ensures k == 0 ==> ScanRowTask(vals).value.taskId == vals[0].i
    ensures k == 1 ==> ScanRowTask(vals).value.userId == vals[1].i
  {
    ScanRowTaskFields(vals);
  }

  /** The `rows.Next()` loop of `GetAllTasks`: scans every row, stopping at the first that fails. */
  /** Row `i` is the first row of `rows` that does not scan, and the loop reports it as `error`. */
  predicate FirstScanError(rows: seq<seq<Value>>, i: int, error: string) {
    && 0 <= i < |rows|
    && ScanRowTask(rows[i]).Err?
    && error == ReadRowPrefix + ScanRowTask(rows[i]).error
    && forall j :: 0 <= j < i ==> ScanRowTask(rows[j]).Ok?
  }

  function ScanTasks(rows: seq<seq<Value>>): (r: Result<seq<Task>>)
    ensures r.Ok? ==> |r.value| == |rows|
    ensures r.Ok? ==> forall i :: 0 <= i < |rows| ==> ScanRowTask(rows[i]) == Ok(r.value[i])
    ensures r.Ok? <==> forall i :: 0 <= i < |rows| ==> ScanRowTask(rows[i]).Ok?
    ensures r.Err? ==> exists i :: FirstScanError(rows, i, r.error)
    decreases |rows|
  {
    if |rows| == 0 then Ok([])
    else match ScanRowTask(rows[0])
      case Err(e) =>
        assert FirstScanError(rows, 0, ReadRowPrefix + e);
        Err(ReadRowPrefix + e)
      case Ok(t) =>
        match ScanTasks(rows[1..])
        case Err(e) =>
          FirstScanErrorShift(rows, e);
          Err(e)
        case Ok(ts) =>
          assert forall i :: 1 <= i < |rows| ==> rows[i] == rows[1..][i - 1];
          Ok([t] + ts)
  }

  /** A first failure in the rest of the rows, after a first row that scans, is a first failure of all of them. */
  lemma FirstScanErrorShift(rows: seq<seq<Value>>, error: string)
    requires |rows| > 0 && ScanRowTask(rows[0]).Ok?
    requires exists k :: FirstScanError(rows[1..], k, error)
    ensures exists i :: FirstScanError(rows, i, error)
  {
    var k :| FirstScanError(rows[1..], k, error);
    assert rows[1..][k] == rows[k + 1];
    forall j | 0 <= j < k + 1
      ensures ScanRowTask(rows[j]).Ok?
    {
      if j > 0 {
        assert rows[j] == rows[1..][j - 1];
      }
    }
    assert FirstScanError(rows, k + 1, error);
  }

  // ---------------------------------------------------------------------
  // The repository operations
  // ---------------------------------------------------------------------

  /** The positional arguments of the user insert/update: `DateUpdated` is passed for both date columns. */
  function UserWriteArgs(u: User): (args: seq<Value>)
    ensures |args| == |UserWriteColumns|
  {
    [StrVal(u.name), StrVal(u.email), StrVal(u.password), IntVal(u.lastLogin), IntVal(u.failedLoginAttempt),
     IntVal(u.dateUpdated), IntVal(u.dateUpdated)]
  }

  function TaskInsertArgs(t: Task): (args: seq<Value>)
    ensures |args| == |TaskInsertColumns|
  {
    [IntVal(t.userId), StrVal(t.title), StrVal(t.description), IntVal(t.dateCreated), IntVal(t.dateUpdated),
     IntVal(t.dueDate), IntVal(t.dateCompleted)]
  }

  /** `AddUser`: runs the user insert. */
  function AddUser(db: Database, u: User, fault: Option<string>): (r: Result<Database>)
    ensures fault.Some? ==> r == Err(fault.value)
    ensures fault.None? ==> r.Ok? && r.value.tasks == db.tasks
  {
    Exec(db, CreateUserStatement, UserWriteArgs(u), fault)
  }

  /** `UpdateUser`: runs the user update, selecting the row by `UserId`. */
  function UpdateUser(db: Database, u: User, fault: Option<string>): (r: Result<Database>)
    ensures fault.Some? ==> r == Err(fault.value)
    ensures fault.None? ==> r.Ok? && r.value.tasks == db.tasks && r.value.users.nextId == db.users.nextId
  {
    Exec(db, UpdateUserStatement, UserWriteArgs(u) + [IntVal(u.userId)], fault)
  }

  /** `GetUserByEmail`: no row becomes "user not found"; every other error passes through unchanged. */
  function GetUserByEmail(db: Database, email: string, fault: Option<string>): (r: Result<User>)
    ensures fault.Some? ==> r == Err(fault.value)
    ensures r.Ok? ==> IsInt64(r.value.userId) && IsInt64(r.value.failedLoginAttempt)
  {
    match QueryRow(db, GetUserByEmailStatement, [StrVal(email)], fault)
    case RowError(e) => Err(e)
    case NoRows => Err(UserNotFound)
    case FirstRow(vals) => ScanRowUser(vals)
  }

  function TaskPageArgs(lastTaskId: int, userId: int, limit: int): seq<Value> {
    [IntVal(lastTaskId), IntVal(userId), IntVal(limit)]
  }

  /** `GetAllTasks`: the caller's tasks above the cursor, highest id first, at most `limit` of them. */
  function GetAllTasks(db: Database, lastTaskId: int, userId: int, limit: int, fault: Option<string>): (r: Result<seq<Task>>)
    ensures fault.Some? ==> r == Err(fault.value)
    ensures fault.None? && limit < 0 ==> r == Err(LimitError)
  {
    match Query(db, GetTasksStatement, TaskPageArgs(lastTaskId, userId, limit), fault)
    case Err(e) => Err(e)
    case Ok(rows) => ScanTasks(rows)
  }

  /** `GetTaskById`: the task with that id AND that owner; no such row becomes "task not found". */
  function GetTaskById(db: Database, taskId: int, userId: int, fault: Option<string>): (r: Result<Task>)
    ensures fault.Some? ==> r == Err(fault.value)
  {
    match QueryRow(db, GetTaskByIdStatement, [IntVal(taskId), IntVal(userId)], fault)
    case RowError(e) => Err(e)
    case NoRows => Err(TaskNotFound)
    case FirstRow(vals) => ScanRowTask(vals)
  }

  /** `AddTask`: runs the task insert with the task's own `UserId`. */
  function AddTask(db: Database, t: Task, fault: Option<string>): (r: Result<Database>)
    ensures fault.Some? ==> r == Err(fault.value)
    ensures fault.None? ==> r.Ok? && r.value.users == db.users
  {
    Exec(db, InsertTaskStatement, TaskInsertArgs(t), fault)
  }

  // ---------------------------------------------------------------------
  // Properties of the task listing
  // ---------------------------------------------------------------------

  /** The rows `GetAllTasks` reads, before scanning. */
  function TaskPage(db: Database, lastTaskId: int, userId: int, limit: nat): seq<Row> {
    var matching := Filter(db.tasks.rows, GetTasksStatement.where, TaskPageArgs(lastTaskId, userId, limit));
    Take(SortDesc(matching, "task_id"), limit)
  }

  /** A successful listing is exactly the scan of its page rows, one task per row. */
  lemma GetAllTasksScansPage(db: Database, lastTaskId: int, userId: int, limit: int, fault: Option<string>)
    requires GetAllTasks(db, lastTaskId, userId, limit, fault).Ok?
    ensures fault.None? && limit >= 0
    ensures var ts := GetAllTasks(db, lastTaskId, userId, limit, fault).value;
      var page := TaskPage(db, lastTaskId, userId, limit);
      |ts| == |page| &&
      forall i :: 0 <= i < |page| ==> ScanRowTask(Project(page[i], TaskSelectColumns)) == Ok(ts[i])
  {
    var stmt := GetTasksStatement;
    var args := TaskPageArgs(lastTaskId, userId, limit);
    var page := TaskPage(db, lastTaskId, userId, limit);
    assert SelectRows(db, stmt, args) == Ok(page);
    var q := Query(db, stmt, args, fault);
    assert q.Ok? && |q.value| == |page|;
    assert forall i :: 0 <= i < |page| ==> q.value[i] == Project(page[i], TaskSelectColumns);
  }

  /** What the listing's WHERE clause says about a row, in plain terms. */
  predicate AboveCursorAndOwned(r: Row, lastTaskId: int, userId: int) {
    && "task_id" in r && r["task_id"].IntVal? && r["task_id"].i > lastTaskId
    && "user_id" in r && r["user_id"] == IntVal(userId)
  }

  /** `task_id > ? and user_id = ?` selects exactly the caller's rows above the cursor. */
  lemma GetTasksWhere(r: Row, lastTaskId: int, userId: int, limit: int)
    ensures Holds(GetTasksStatement.where, r, TaskPageArgs(lastTaskId, userId, limit))
      <==> AboveCursorAndOwned(r, lastTaskId, userId)
  {
  }

  /** Every page row belongs to the caller, lies above the cursor, and comes from the table; the page is ordered. */
  lemma TaskPageRows(db: Database, lastTaskId: int, userId: int, limit: nat)
    ensures var page := TaskPage(db, lastTaskId, userId, limit);
      && |page| <= limit
      && SortedDesc(page, "task_id")
      && forall i :: 0 <= i < |page| ==> page[i] in db.tasks.rows && AboveCursorAndOwned(page[i], lastTaskId, userId)
  {
    var args := TaskPageArgs(lastTaskId, userId, limit);
    var matching := Filter(db.tasks.rows, GetTasksStatement.where, args);
    var sorted := SortDesc(matching, "task_id");
    SortDescFacts(matching, "task_id");
    var page := Take(sorted, limit);
    assert page == sorted[..|page|];
    forall i | 0 <= i < |page|
      ensures page[i] in db.tasks.rows && AboveCursorAndOwned(page[i], lastTaskId, userId)
    {
      assert page[i] == sorted[i];
      assert sorted[i] in multiset(matching);
      var j :| 0 <= j < |matching| && matching[j] == page[i];
      GetTasksWhere(page[i], lastTaskId, userId, limit);
    }
  }

  /** A listed task's id is its page row's `task_id`. */
  lemma ListingKeys(db: Database, lastTaskId: int, userId: int, limit: int, fault: Option<string>)
    requires GetAllTasks(db, lastTaskId, userId, limit, fault).Ok?
    ensures fault.None? && limit >= 0
    ensures var ts := GetAllTasks(db, lastTaskId, userId, limit, fault).value;
      var page := TaskPage(db, lastTaskId, userId, limit);
      && |ts| == |page|
      && forall i :: 0 <= i < |page| ==> ts[i].taskId == KeyOf(page[i], "task_id") && ts[i].userId == userId
  {
    GetAllTasksScansPage(db, lastTaskId, userId, limit, fault);
    TaskPageRows(db, lastTaskId, userId, limit);
    var ts := GetAllTasks(db, lastTaskId, userId, limit, fault).value;
    var page := TaskPage(db, lastTaskId, userId, limit);
    forall i | 0 <= i < |page| ensures ts[i].taskId == KeyOf(page[i], "task_id") && ts[i].userId == userId {
      var vals := Project(page[i], TaskSelectColumns);
      assert vals[0] == page[i]["task_id"] && vals[1] == page[i]["user_id"];
      ScanRowTaskKey(vals, 0);
      ScanRowTaskKey(vals, 1);
    }
  }


  /**
   * `GetAllTasks` never returns another user's task or one at or below the
   * cursor, returns at most `limit` tasks, and orders them by descending id.
   */
  lemma GetAllTasksScoped(db: Database, lastTaskId: int, userId: int, limit: int, fault: Option<string>)
    requires GetAllTasks(db, lastTaskId, userId, limit, fault).Ok?
    ensures var ts := GetAllTasks(db, lastTaskId, userId, limit, fault).value;
      && |ts| <= limit
      && (forall i :: 0 <= i < |ts| ==> ts[i].userId == userId && ts[i].taskId > lastTaskId)
      && (forall i, j :: 0 <= i < j < |ts| ==> ts[i].taskId >= ts[j].taskId)
  {
    TaskPageRows(db, lastTaskId, userId, limit);
    ListingKeys(db, lastTaskId, userId, limit, fault);
  }

  /** On a well-formed table (unique ids) the order is strict: no task appears twice. */
  lemma GetAllTasksStrictlyDescending(db: Database, lastTaskId: int, userId: int, limit: int, fault: Option<string>)
    requires TableWf(db.tasks, "task_id")
    requires GetAllTasks(db, lastTaskId, userId, limit, fault).Ok?
    ensures var ts := GetAllTasks(db, lastTaskId, userId, limit, fault).value;
      forall i, j :: 0 <= i < j < |ts| ==> ts[i].taskId > ts[j].taskId
  {
    GetAllTasksScoped(db, lastTaskId, userId, limit, fault);
    var args := TaskPageArgs(lastTaskId, userId, limit);
    var matching := Filter(db.tasks.rows, GetTasksStatement.where, args);
    WfDistinctKeys(db.tasks, "task_id");
    FilterDistinct(db.tasks.rows, GetTasksStatement.where, args, "task_id");
    SortDescDistinct(matching, "task_id");
    var ts := GetAllTasks(db, lastTaskId, userId, limit, fault).value;
    var page := TaskPage(db, lastTaskId, userId, limit);
    ListingKeys(db, lastTaskId, userId, limit, fault);
    forall i, j | 0 <= i < j < |ts| ensures ts[i].taskId > ts[j].taskId {
      assert page[i] == SortDesc(matching, "task_id")[i] && page[j] == SortDesc(matching, "task_id")[j];
    }
  }

  /**
   * The page is the top of the caller's tasks above the cursor: a matching
   * stored task that is not on the page ranks no higher than every task on
   * it, and can only be missing when the page is full.
   */
  lemma GetAllTasksTopOfRange(db: Database, lastTaskId: int, userId: int, limit: int, fault: Option<string>, k: nat)
    requires GetAllTasks(db, lastTaskId, userId, limit, fault).Ok?
    requires k < |db.tasks.rows|
    requires AboveCursorAndOwned(db.tasks.rows[k], lastTaskId, userId)
    ensures var ts := GetAllTasks(db, lastTaskId, userId, limit, fault).value;
      || (exists i :: 0 <= i < |ts| && ts[i].taskId == KeyOf(db.tasks.rows[k], "task_id"))
      || (|ts| == limit && forall i :: 0 <= i < |ts| ==> KeyOf(db.tasks.rows[k], "task_id") <= ts[i].taskId)
  {
    ListingKeys(db, lastTaskId, userId, limit, fault);
    var ts := GetAllTasks(db, lastTaskId, userId, limit, fault).value;
    var page := TaskPage(db, lastTaskId, userId, limit);
    var row := db.tasks.rows[k];
    TaskPageTop(db, lastTaskId, userId, limit, k);
    if i :| 0 <= i < |page| && page[i] == row {
      assert ts[i].taskId == KeyOf(row, "task_id");
    }
  }

  /** The rows the listing selects are the highest-ranked matching rows. */
  lemma TaskPageTop(db: Database, lastTaskId: int, userId: int, limit: nat, k: nat)
    requires k < |db.tasks.rows|
    requires AboveCursorAndOwned(db.tasks.rows[k], lastTaskId, userId)
    ensures var page := TaskPage(db, lastTaskId, userId, limit);
      || (exists i :: 0 <= i < |page| && page[i] == db.tasks.rows[k])
      || (|page| == limit && forall i :: 0 <= i < |page| ==> KeyOf(db.tasks.rows[k], "task_id") <= KeyOf(page[i], "task_id"))
  {
    var args := TaskPageArgs(lastTaskId, userId, limit);
    var matching := Filter(db.tasks.rows, GetTasksStatement.where, args);
    var sorted := SortDesc(matching, "task_id");
    SortDescFacts(matching, "task_id");
    var row := db.tasks.rows[k];
    GetTasksWhere(row, lastTaskId, userId, limit);
    assert row in matching;
    assert row in multiset(sorted);
    var j :| 0 <= j < |sorted| && sorted[j] == row;
    var page := TaskPage(db, lastTaskId, userId, limit);
    assert page == sorted[..|page|];
    if j < |page| {
      assert page[j] == row;
    }
  }

  /** A listed task's id is its row's `task_id`, and the row is one of the caller's stored rows above the cursor. */
  lemma ListedTaskRow(db: Database, lastTaskId: int, userId: int, limit: int, i: nat)
    requires GetAllTasks(db, lastTaskId, userId, limit, None).Ok?
    requires i < |GetAllTasks(db, lastTaskId, userId, limit, None).value|
    ensures exists k :: (0 <= k < |db.tasks.rows|
      && AboveCursorAndOwned(db.tasks.rows[k], lastTaskId, userId)
      && KeyOf(db.tasks.rows[k], "task_id") == GetAllTasks(db, lastTaskId, userId, limit, None).value[i].taskId)
  {
    ListingKeys(db, lastTaskId, userId, limit, None);
    TaskPageRows(db, lastTaskId, userId, limit);
    var page := TaskPage(db, lastTaskId, userId, limit);
    var k :| 0 <= k < |db.tasks.rows| && db.tasks.rows[k] == page[i];
  }

  /**
   * With the descending order, a next-page cursor that lies anywhere below
   * the page's first task (in particular the last task's id, or the owner's
   * id when that is smaller) brings back a page that starts with that same
   * first task: the listing restarts from the top instead of moving on.
   */
  lemma DescendingNextPageRepeatsTop(db: Database, lastTaskId: int, next: int, userId: int, limit: int)
    requires GetAllTasks(db, lastTaskId, userId, limit, None).Ok?
    requires GetAllTasks(db, next, userId, limit, None).Ok?
    requires |GetAllTasks(db, lastTaskId, userId, limit, None).value| > 0
    requires lastTaskId <= next < GetAllTasks(db, lastTaskId, userId, limit, None).value[0].taskId
    ensures var ts2 := GetAllTasks(db, next, userId, limit, None).value;
      |ts2| > 0 && ts2[0].taskId == GetAllTasks(db, lastTaskId, userId, limit, None).value[0].taskId
  {
    var ts1 := GetAllTasks(db, lastTaskId, userId, limit, None).value;
    var ts2 := GetAllTasks(db, next, userId, limit, None).value;
    NextPageReachesTop(db, lastTaskId, next, userId, limit, ts1, ts2);
    NextPageBelowTop(db, lastTaskId, next, userId, limit, ts1, ts2);
  }

  /** The page after a cursor below the first listed id still lists that id, or starts above it. */
  lemma NextPageReachesTop(db: Database, lastTaskId: int, next: int, userId: int, limit: int, ts1: seq<Task>, ts2: seq<Task>)
    requires GetAllTasks(db, lastTaskId, userId, limit, None) == Ok(ts1) && |ts1| > 0
    requires GetAllTasks(db, next, userId, limit, None) == Ok(ts2)
    requires next < ts1[0].taskId
    ensures |ts2| > 0 && ts2[0].taskId >= ts1[0].taskId
  {
    var k := PageTaskRow(db, lastTaskId, userId, limit, ts1, 0);
    assert AboveCursorAndOwned(db.tasks.rows[k], next, userId);
    PageOnOrAbove(db, lastTaskId, userId, limit, ts1, k);
    PageOnOrAbove(db, next, userId, limit, ts2, k);
  }

  /** A page after a cursor at or above the previous one starts no higher than the previous page did. */
  lemma NextPageBelowTop(db: Database, lastTaskId: int, next: int, userId: int, limit: int, ts1: seq<Task>, ts2: seq<Task>)
    requires GetAllTasks(db, lastTaskId, userId, limit, None) == Ok(ts1) && |ts1| > 0
    requires GetAllTasks(db, next, userId, limit, None) == Ok(ts2) && |ts2| > 0
    requires lastTaskId <= next
    ensures ts2[0].taskId <= ts1[0].taskId
  {
    var q := PageTaskRow(db, next, userId, limit, ts2, 0);
    assert AboveCursorAndOwned(db.tasks.rows[q], lastTaskId, userId);
    PageOnOrAbove(db, lastTaskId, userId, limit, ts1, q);
  }

  /** `ListedTaskRow`, stated about the page `ts` the listing returned, naming the row. */
  lemma PageTaskRow(db: Database, lastTaskId: int, userId: int, limit: int, ts: seq<Task>, i: nat) returns (k: nat)
    requires GetAllTasks(db, lastTaskId, userId, limit, None) == Ok(ts) && i < |ts|
    ensures k < |db.tasks.rows| && AboveCursorAndOwned(db.tasks.rows[k], lastTaskId, userId)
    ensures KeyOf(db.tasks.rows[k], "task_id") == ts[i].taskId
  {
    ListedTaskRow(db, lastTaskId, userId, limit, i);
    k :| 0 <= k < |db.tasks.rows| && AboveCursorAndOwned(db.tasks.rows[k], lastTaskId, userId)
      && KeyOf(db.tasks.rows[k], "task_id") == ts[i].taskId;
  }

  /**
   * `GetAllTasksTopOfRange` and `GetAllTasksScoped`, stated about the page
   * `ts` the listing returned: a caller row above the cursor is on it or
   * ranks below a full page, and the page is descending and within the limit.
   */
  lemma PageOnOrAbove(db: Database, lastTaskId: int, userId: int, limit: int, ts: seq<Task>, k: nat)
    requires GetAllTasks(db, lastTaskId, userId, limit, None) == Ok(ts)
    requires k < |db.tasks.rows| && AboveCursorAndOwned(db.tasks.rows[k], lastTaskId, userId)
    ensures OnOrAbove(KeyOf(db.tasks.rows[k], "task_id"), ts, limit)
    ensures |ts| <= limit && forall i, j :: 0 <= i < j < |ts| ==> ts[i].taskId >= ts[j].taskId
  {
    GetAllTasksScoped(db, lastTaskId, userId, limit, None);
    GetAllTasksTopOfRange(db, lastTaskId, userId, limit, None, k);
  }

  // ---------------------------------------------------------------------
  // Properties of the single-task lookup
  // ---------------------------------------------------------------------

  /** `task_id = ? and user_id = ?`: the row has that id AND that owner. */
  predicate IdAndOwner(r: Row, taskId: int, userId: int) {
    "task_id" in r && r["task_id"] == IntVal(taskId) && "user_id" in r && r["user_id"] == IntVal(userId)
  }

  lemma GetTaskByIdWhere(r: Row, taskId: int, userId: int)
    ensures Holds(GetTaskByIdStatement.where, r, [IntVal(taskId), IntVal(userId)]) <==> IdAndOwner(r, taskId, userId)
  {
  }

  /** The rows `select ... where task_id = ? and user_id = ?` returns, in storage order. */
  function IdMatches(db: Database, taskId: int, userId: int): seq<Row> {
    Filter(db.tasks.rows, GetTaskByIdStatement.where, [IntVal(taskId), IntVal(userId)])
  }

  lemma GetTaskByIdUnfold(db: Database, taskId: int, userId: int)
    ensures GetTaskById(db, taskId, userId, None) ==
      if |IdMatches(db, taskId, userId)| == 0 then Err(TaskNotFound)
      else ScanRowTask(Project(IdMatches(db, taskId, userId)[0], TaskSelectColumns))
  {
    var args := [IntVal(taskId), IntVal(userId)];
    var m := IdMatches(db, taskId, userId);
    assert Arrange(m, StorageOrder) == m;
    assert SelectRows(db, GetTaskByIdStatement, args) == Ok(m);
    var q := Query(db, GetTaskByIdStatement, args, None);
    assert q.Ok? && |q.value| == |m|;
    if |m| > 0 {
      assert q.value[0] == Project(m[0], TaskSelectColumns);
      assert QueryRow(db, GetTaskByIdStatement, args, None) == FirstRow(Project(m[0], TaskSelectColumns));
    }
  }

  /** The lookup scans the first stored row, in storage order, with that id and owner. */
  lemma GetTaskByIdFirstRow(db: Database, taskId: int, userId: int, k: nat)
    requires k < |db.tasks.rows| && IdAndOwner(db.tasks.rows[k], taskId, userId)
    requires forall j :: 0 <= j < k ==> !IdAndOwner(db.tasks.rows[j], taskId, userId)
    ensures GetTaskById(db, taskId, userId, None) == ScanRowTask(Project(db.tasks.rows[k], TaskSelectColumns))
  {
    GetTaskByIdUnfold(db, taskId, userId);
    forall j | 0 <= j <= k {
      GetTaskByIdWhere(db.tasks.rows[j], taskId, userId);
    }
    FilterFirst(db.tasks.rows, GetTaskByIdStatement.where, [IntVal(taskId), IntVal(userId)], k);
  }

  /**
   * `GetTaskById` answers "task not found" exactly when no stored row has
   * both the id and the owner, and a task it returns has both.
   */
  lemma GetTaskByIdFindsOwnedRow(db: Database, taskId: int, userId: int)
    ensures var r := GetTaskById(db, taskId, userId, None);
      && (r == Err(TaskNotFound) <==> forall k :: 0 <= k < |db.tasks.rows| ==> !IdAndOwner(db.tasks.rows[k], taskId, userId))
      && (r.Ok? ==> r.value.taskId == taskId && r.value.userId == userId)
  {
    GetTaskByIdUnfold(db, taskId, userId);
    var rows := db.tasks.rows;
    var m := IdMatches(db, taskId, userId);
    if |m| > 0 {
      assert m[0] in rows;
      GetTaskByIdWhere(m[0], taskId, userId);
      var vals := Project(m[0], TaskSelectColumns);
      assert vals[0] == IntVal(taskId) && vals[1] == IntVal(userId);
      if ScanRowTask(vals).Ok? {
        ScanRowTaskKey(vals, 0);
        ScanRowTaskKey(vals, 1);
      }
      var k :| 0 <= k < |rows| && rows[k] == m[0];
      assert IdAndOwner(rows[k], taskId, userId);
    } else {
      forall k | 0 <= k < |rows| ensures !IdAndOwner(rows[k], taskId, userId) {
        GetTaskByIdWhere(rows[k], taskId, userId);
      }
    }
  }

  /**
   * Anti-enumeration: on a well-formed table, asking for another user's task
   * gets the same "task not found" as asking for an id that does not exist.
   */
  lemma OtherOwnersTaskLooksMissing(db: Database, k: nat, callerId: int)
    requires TableWf(db.tasks, "task_id")
    requires k < |db.tasks.rows| && "user_id" in db.tasks.rows[k] && db.tasks.rows[k]["user_id"] != IntVal(callerId)
    ensures GetTaskById(db, db.tasks.rows[k]["task_id"].i, callerId, None) == Err(TaskNotFound)
    ensures GetTaskById(db, db.tasks.nextId, callerId, None) == Err(TaskNotFound)
  {
    GetTaskByIdFindsOwnedRow(db, db.tasks.rows[k]["task_id"].i, callerId);
    GetTaskByIdFindsOwnedRow(db, db.tasks.nextId, callerId);
  }

  // ---------------------------------------------------------------------
  // Properties of the user lookup
  // ---------------------------------------------------------------------

  predicate HasEmail(r: Row, email: string) {
    "email" in r && r["email"] == StrVal(email)
  }

  /** The rows `select ... where email = ?` returns, in storage order. */
  function EmailMatches(db: Database, email: string): seq<Row> {
    Filter(db.users.rows, GetUserByEmailStatement.where, [StrVal(email)])
  }

  lemma GetUserByEmailUnfold(db: Database, email: string)
    ensures GetUserByEmail(db, email, None) ==
      if |EmailMatches(db, email)| == 0 then Err(UserNotFound)
      else ScanRowUser(Project(EmailMatches(db, email)[0], UserSelectColumns))
  {
    var args := [StrVal(email)];
    var m := EmailMatches(db, email);
    assert Arrange(m, StorageOrder) == m;
    assert SelectRows(db, GetUserByEmailStatement, args) == Ok(m);
    var q := Query(db, GetUserByEmailStatement, args, None);
    assert q.Ok? && |q.value| == |m|;
    if |m| > 0 {
      assert q.value[0] == Project(m[0], UserSelectColumns);
      assert QueryRow(db, GetUserByEmailStatement, args, None) == FirstRow(Project(m[0], UserSelectColumns));
    }
  }

  lemma GetUserByEmailWhere(r: Row, email: string)
    ensures Holds(GetUserByEmailStatement.where, r, [StrVal(email)]) <==> HasEmail(r, email)
  {
  }

  /** With no stored row carrying the email, the lookup answers "user not found". */
  lemma GetUserByEmailMissing(db: Database, email: string)
    requires forall k :: 0 <= k < |db.users.rows| ==> !HasEmail(db.users.rows[k], email)
    ensures GetUserByEmail(db, email, None) == Err(UserNotFound)
  {
    GetUserByEmailUnfold(db, email);
    var m := EmailMatches(db, email);
    if |m| > 0 {
      assert m[0] in db.users.rows;
      GetUserByEmailWhere(m[0], email);
    }
  }

  /** The row the user query leaves for `Scan`: the first stored row, in storage order, that carries the email. */
  lemma UserQueryRowFirst(db: Database, email: string, k: nat)
    requires k < |db.users.rows| && HasEmail(db.users.rows[k], email)
    requires forall j :: 0 <= j < k ==> !HasEmail(db.users.rows[j], email)
    ensures QueryRow(db, GetUserByEmailStatement, [StrVal(email)], None) == FirstRow(Project(db.users.rows[k], UserSelectColumns))
  {
    forall j | 0 <= j <= k {
      GetUserByEmailWhere(db.users.rows[j], email);
    }
    FilterFirst(db.users.rows, GetUserByEmailStatement.where, [StrVal(email)], k);
  }

  /** Otherwise it scans the first stored row, in storage order, that carries the email. */
  lemma GetUserByEmailFirstRow(db: Database, email: string, k: nat)
    requires k < |db.users.rows| && HasEmail(db.users.rows[k], email)
    requires forall j :: 0 <= j < k ==> !HasEmail(db.users.rows[j], email)
    ensures GetUserByEmail(db, email, None) == ScanRowUser(Project(db.users.rows[k], UserSelectColumns))
  {
    UserQueryRowFirst(db, email, k);
  }

  /** A user the lookup returns carries the email asked for, in `Email` and (as scanned) in `Name`. */
  lemma GetUserByEmailCarriesEmail(db: Database, email: string, fault: Option<string>)
    requires GetUserByEmail(db, email, fault).Ok?
    ensures GetUserByEmail(db, email, fault).value.email == email
    ensures GetUserByEmail(db, email, fault).value.name == email
  {
    GetUserByEmailUnfold(db, email);
    var m := EmailMatches(db, email);
    assert m[0] in db.users.rows;
    GetUserByEmailWhere(m[0], email);
    assert Project(m[0], UserSelectColumns)[2] == m[0]["email"];
  }

  // ---------------------------------------------------------------------
  // Writes read back
  // ---------------------------------------------------------------------

  predicate TaskFitsColumns(t: Task) {
    IsInt64(t.userId) && IsInt64(t.dateCreated) && IsInt64(t.dateUpdated) && IsInt64(t.dueDate) && IsInt64(t.dateCompleted)
  }

  predicate UserFitsColumns(u: User) {
    IsInt64(u.lastLogin) && IsInt64(u.failedLoginAttempt) && IsInt64(u.dateUpdated)
  }

  lemma ColumnListsDistinct()
    ensures Distinct(TaskInsertColumns) && "task_id" !in TaskInsertColumns
    ensures TaskSelectColumns == ["task_id"] + TaskInsertColumns
    ensures Distinct(UserWriteColumns) && "user_id" !in UserWriteColumns
    ensures UserSelectColumns == ["user_id"] + UserWriteColumns
  {
  }

  /** The row `AddTask` appends: the task's values under the insert's columns, plus the fresh id. */
  function InsertedTaskRow(t: Task, id: int): Row {
    Zip(TaskInsertColumns, TaskInsertArgs(t))["task_id" := IntVal(id)]
  }

  function InsertedUserRow(u: User, id: int): Row {
    Zip(UserWriteColumns, UserWriteArgs(u))["user_id" := IntVal(id)]
  }

  lemma AddTaskAppends(db: Database, t: Task)
    ensures AddTask(db, t, None).Ok?
    ensures AddTask(db, t, None).value.tasks == Table(db.tasks.rows + [InsertedTaskRow(t, db.tasks.nextId)], db.tasks.nextId + 1)
  {
  }

  lemma AddUserAppends(db: Database, u: User)
    ensures AddUser(db, u, None).Ok?
    ensures AddUser(db, u, None).value.users == Table(db.users.rows + [InsertedUserRow(u, db.users.nextId)], db.users.nextId + 1)
  {
  }

  lemma InsertedTaskReadsBack(t: Task, id: int)
    ensures Project(InsertedTaskRow(t, id), TaskSelectColumns) == [IntVal(id)] + TaskInsertArgs(t)
  {
    ColumnListsDistinct();
    ProjectInserted(TaskInsertColumns, TaskInsertArgs(t), "task_id", id);
  }

  lemma InsertedTaskOwner(t: Task, id: int)
    ensures IdAndOwner(InsertedTaskRow(t, id), id, t.userId)
  {
    ColumnListsDistinct();
    ZipLookup(TaskInsertColumns, TaskInsertArgs(t), 0);
  }

  lemma InsertedUserReadsBack(u: User, id: int)
    ensures Project(InsertedUserRow(u, id), UserSelectColumns) == [IntVal(id)] + UserWriteArgs(u)
  {
    ColumnListsDistinct();
    ProjectInserted(UserWriteColumns, UserWriteArgs(u), "user_id", id);
  }

  lemma InsertedUserEmail(u: User, id: int)
    ensures HasEmail(InsertedUserRow(u, id), u.email)
  {
    ColumnListsDistinct();
    ZipLookup(UserWriteColumns, UserWriteArgs(u), 1);
  }

  lemma ScanWrittenTask(t: Task, id: int)
    requires IsInt64(id) && TaskFitsColumns(t)
    ensures ScanRowTask([IntVal(id)] + TaskInsertArgs(t)) == Ok(t.(taskId := id))
  {
    var vals := [IntVal(id)] + TaskInsertArgs(t);
    ScanNative(vals, TaskSelectColumns, TaskDests);
  }

  lemma ScanWrittenUser(u: User, id: int)
    requires IsInt64(id) && UserFitsColumns(u)
    ensures ScanRowUser([IntVal(id)] + UserWriteArgs(u)) == Ok(u.(userId := id, name := u.email, dateCreated := u.dateUpdated))
  {
    var vals := [IntVal(id)] + UserWriteArgs(u);
    ScanNative(vals, UserSelectColumns, UserDests);
  }

  /** A row appended behind rows that all lack its id-and-owner pair is the one the lookup finds. */
  lemma GetTaskByIdAfterAppend(db: Database, rows: seq<Row>, row: Row, taskId: int, userId: int)
    requires db.tasks.rows == rows + [row]
    requires forall j :: 0 <= j < |rows| ==> !IdAndOwner(rows[j], taskId, userId)
    requires IdAndOwner(row, taskId, userId)
    ensures GetTaskById(db, taskId, userId, None) == ScanRowTask(Project(row, TaskSelectColumns))
  {
    assert db.tasks.rows[|rows|] == row;
    assert forall j :: 0 <= j < |rows| ==> db.tasks.rows[j] == rows[j];
    GetTaskByIdFirstRow(db, taskId, userId, |rows|);
  }

  /** After an insert, the new row is the only one with the fresh id, so the lookup by id and owner finds it. */
  lemma AddTaskLookupFindsNewRow(db: Database, t: Task)
    requires TableWf(db.tasks, "task_id")
    ensures AddTask(db, t, None).Ok?
    ensures GetTaskById(AddTask(db, t, None).value, db.tasks.nextId, t.userId, None)
      == ScanRowTask(Project(InsertedTaskRow(t, db.tasks.nextId), TaskSelectColumns))
  {
    AddTaskAppends(db, t);
    InsertedTaskOwner(t, db.tasks.nextId);
    GetTaskByIdAfterAppend(AddTask(db, t, None).value, db.tasks.rows, InsertedTaskRow(t, db.tasks.nextId),
      db.tasks.nextId, t.userId);
  }

  /**
   * A task stored by `AddTask` and read back by id and owner has every field
   * it was stored with; its id is the one the table handed out.
   */
  lemma AddTaskThenGetTaskById(db: Database, t: Task)
    requires TableWf(db.tasks, "task_id") && IsInt64(db.tasks.nextId) && TaskFitsColumns(t)
    ensures AddTask(db, t, None).Ok?
    ensures GetTaskById(AddTask(db, t, None).value, db.tasks.nextId, t.userId, None) == Ok(t.(taskId := db.tasks.nextId))
  {
    AddTaskLookupFindsNewRow(db, t);
    InsertedTaskReadsBack(t, db.tasks.nextId);
    ScanWrittenTask(t, db.tasks.nextId);
  }

  /** A row appended behind rows that all lack its email is the one the user query returns first. */
  lemma UserQueryRowAfterAppend(db: Database, rows: seq<Row>, row: Row, email: string)
    requires db.users.rows == rows + [row]
    requires forall j :: 0 <= j < |rows| ==> !HasEmail(rows[j], email)
    requires HasEmail(row, email)
    ensures QueryRow(db, GetUserByEmailStatement, [StrVal(email)], None) == FirstRow(Project(row, UserSelectColumns))
  {
    assert db.users.rows[|rows|] == row;
    assert forall j :: 0 <= j < |rows| ==> db.users.rows[j] == rows[j];
    UserQueryRowFirst(db, email, |rows|);
  }

  /** After an insert under an email no row had, the user query returns the new row first. */
  lemma AddUserLookupFindsNewRow(db: Database, u: User)
    requires forall k :: 0 <= k < |db.users.rows| ==> !HasEmail(db.users.rows[k], u.email)
    ensures AddUser(db, u, None).Ok?
    ensures QueryRow(AddUser(db, u, None).value, GetUserByEmailStatement, [StrVal(u.email)], None)
      == FirstRow(Project(InsertedUserRow(u, db.users.nextId), UserSelectColumns))
  {
    AddUserAppends(db, u);
    InsertedUserEmail(u, db.users.nextId);
    UserQueryRowAfterAppend(AddUser(db, u, None).value, db.users.rows, InsertedUserRow(u, db.users.nextId), u.email);
  }

  /**
   * A user stored by `AddUser` under a fresh email reads back by email with
   * the id the table handed out, the email in place of the name, and
   * `DateUpdated` as its creation date; every other field as written.
   */
  lemma AddUserThenGetUserByEmail(db: Database, u: User)
    requires IsInt64(db.users.nextId) && UserFitsColumns(u)
    requires forall k :: 0 <= k < |db.users.rows| ==> !HasEmail(db.users.rows[k], u.email)
    ensures AddUser(db, u, None).Ok?
    ensures GetUserByEmail(AddUser(db, u, None).value, u.email, None)
      == Ok(u.(userId := db.users.nextId, name := u.email, dateCreated := u.dateUpdated))
  {
    AddUserLookupFindsNewRow(db, u);
    InsertedUserReadsBack(u, db.users.nextId);
    ScanWrittenUser(u, db.users.nextId);
  }

  /** The column assignments of the user insert and update, from the user's fields in `?` order. */
  function UserAssignment(u: User): Row {
    Zip(UserWriteColumns, UserWriteArgs(u))
  }

  /** `DateUpdated` lands in both date columns, every other field in its own column; the id column is not assigned. */
  lemma UserAssignmentColumns(u: User)
    ensures var a := UserAssignment(u);
      && "user_id" !in a
      && a["name"] == StrVal(u.name)
      && a["email"] == StrVal(u.email)
      && a["password"] == StrVal(u.password)
      && a["last_login"] == IntVal(u.lastLogin)
      && a["failed_login_attempt"] == IntVal(u.failedLoginAttempt)
      && a["date_created"] == IntVal(u.dateUpdated)
      && a["date_updated"] == IntVal(u.dateUpdated)
  {
    ColumnListsDistinct();
    var cols := UserWriteColumns;
    var args := UserWriteArgs(u);
    ZipLookup(cols, args, 0);
    ZipLookup(cols, args, 1);
    ZipLookup(cols, args, 2);
    ZipLookup(cols, args, 3);
    ZipLookup(cols, args, 4);
    ZipLookup(cols, args, 5);
    ZipLookup(cols, args, 6);
  }

  /** `AddUser` appends one row: the user's assignment under a fresh id. */
  lemma AddUserColumns(db: Database, u: User)
    ensures var t := AddUser(db, u, None).value.users;
      && t.rows == db.users.rows + [UserAssignment(u)["user_id" := IntVal(db.users.nextId)]]
      && t.nextId == db.users.nextId + 1
  {
    AddUserAppends(db, u);
  }

  /** An updated row takes the assigned columns and keeps its own id. */
  lemma UpdatedUserRow(r: Row, u: User)
    ensures ColumnIs(r + UserAssignment(u), "failed_login_attempt", IntVal(u.failedLoginAttempt))
    ensures ColumnIs(r + UserAssignment(u), "name", StrVal(u.name))
    ensures "user_id" in r ==> ColumnIs(r + UserAssignment(u), "user_id", r["user_id"])
  {
    UserAssignmentColumns(u);
  }

  predicate HasUserId(r: Row, userId: int) {
    "user_id" in r && r["user_id"] == IntVal(userId)
  }

  /**
   * `UpdateUser` overwrites the seven assigned columns of the rows whose
   * `user_id` is the user's id, keeps their id, and leaves every other row alone.
   */
  lemma UpdateUserColumns(db: Database, u: User)
    ensures var t := UpdateUser(db, u, None).value.users;
      && |t.rows| == |db.users.rows| && t.nextId == db.users.nextId
      && forall k :: 0 <= k < |t.rows| ==>
           t.rows[k] == if HasUserId(db.users.rows[k], u.userId) then db.users.rows[k] + UserAssignment(u)
                        else db.users.rows[k]
  {
    var args := UserWriteArgs(u) + [IntVal(u.userId)];
    assert args[..7] == UserWriteArgs(u);
    forall r: Row ensures Holds(UpdateUserStatement.where, r, args) <==> HasUserId(r, u.userId) {
    }
  }

  // ---------------------------------------------------------------------
  // The writes keep the table invariant
  // ---------------------------------------------------------------------

  /** An insert through `AddUser` hands out a fresh id, so ids stay unique and below the counter. */
  lemma AddUserKeepsWf(db: Database, u: User)
    requires DatabaseWf(db)
    ensures DatabaseWf(AddUser(db, u, None).value)
  {
    InsertKeepsWf(db.users, "user_id", UserAssignment(u));
  }

  /** An insert through `AddTask` hands out a fresh id, so ids stay unique and below the counter. */
  lemma AddTaskKeepsWf(db: Database, t: Task)
    requires DatabaseWf(db)
    ensures DatabaseWf(AddTask(db, t, None).value)
  {
    InsertKeepsWf(db.tasks, "task_id", Zip(TaskInsertColumns, TaskInsertArgs(t)));
  }

  /** `UpdateUser` never assigns `user_id`, so every row keeps its id and the counter is unchanged. */
  lemma UpdateUserKeepsWf(db: Database, u: User)
    requires DatabaseWf(db)
    ensures DatabaseWf(UpdateUser(db, u, None).value)
  {
    var args := UserWriteArgs(u) + [IntVal(u.userId)];
    UpdateUserTable(db, u);
    UserAssignmentColumns(u);
    UpdateKeepsWf(db.users, "user_id", UserAssignment(u), UpdateUserStatement.where, args);
  }

  /** With a working store, `UpdateUser` rewrites the user table's selected rows and nothing else. */
  lemma UpdateUserTable(db: Database, u: User)
    ensures UpdateUser(db, u, None).value
         == db.(users := UpdateRows(db.users, UserAssignment(u), UpdateUserStatement.where, UserWriteArgs(u) + [IntVal(u.userId)]))
  {
    var args := UserWriteArgs(u) + [IntVal(u.userId)];
    assert args[..7] == UserWriteArgs(u);
  }

  // ---------------------------------------------------------------------
  // Corrected user read
  // ---------------------------------------------------------------------

  /** `scanRowUser` with `Name` taken from the name column, as the column list intends. */
  function ScanRowUserCorrected(vals: seq<Value>): (r: Result<User>)
    ensures r.Ok? <==> ScanRowUser(vals).Ok?
    ensures r.Err? ==> r == ScanRowUser(vals)
    ensures r.Ok? ==> r.value.(name := ScanRowUser(vals).value.name) == ScanRowUser(vals).value
  {
    match Scan(vals, UserSelectColumns, UserDests)
    case Err(e) => Err(e)
    case Ok(cv) => Ok(User(IntOf(cv[0]), StrOf(cv[1]), StrOf(cv[2]), StrOf(cv[3]), IntOf(cv[4]), IntOf(cv[5]), IntOf(cv[6]), IntOf(cv[7])))
  }

  /** The corrected scanner's `Name` is the name column, converted into a string. */
  lemma ScanRowUserCorrectedName(vals: seq<Value>)
    requires ScanRowUserCorrected(vals).Ok?
    ensures Convert(vals[1], StringDest) == Ok(StrVal(ScanRowUserCorrected(vals).value.name))
  {
    var cv := Scan(vals, UserSelectColumns, UserDests).value;
    assert Native(cv[1], StringDest);
  }

  /** The corrected scan of a written user's values gives the user back, name included. */
  lemma ScanWrittenUserCorrected(u: User, id: int)
    requires IsInt64(id) && UserFitsColumns(u)
    ensures ScanRowUserCorrected([IntVal(id)] + UserWriteArgs(u)) == Ok(u.(userId := id, dateCreated := u.dateUpdated))
  {
    var vals := [IntVal(id)] + UserWriteArgs(u);
    ScanWrittenUser(u, id);
    assert vals[1] == StrVal(u.name);
  }

  /** `GetUserByEmail` over the corrected scan. */
  function GetUserByEmailCorrected(db: Database, email: string, fault: Option<string>): (r: Result<User>)
    ensures r.Ok? <==> GetUserByEmail(db, email, fault).Ok?
    ensures r.Err? ==> r == GetUserByEmail(db, email, fault)
    ensures r.Ok? ==> r.value.email == GetUserByEmail(db, email, fault).value.email
  {
    match QueryRow(db, GetUserByEmailStatement, [StrVal(email)], fault)
    case RowError(e) => Err(e)
    case NoRows => Err(UserNotFound)
    case FirstRow(vals) => ScanRowUserCorrected(vals)
  }

  /** The corrected lookup scans the row the user query returns first. */
  lemma GetUserByEmailCorrectedScans(db: Database, email: string, vals: seq<Value>)
    requires QueryRow(db, GetUserByEmailStatement, [StrVal(email)], None) == FirstRow(vals)
    ensures GetUserByEmailCorrected(db, email, None) == ScanRowUserCorrected(vals)
  {
  }

  /**
   * With the corrected scan, a user stored under a fresh email reads back
   * exactly as written, name included, apart from the id the table handed out
   * (the creation date is written from `DateUpdated`, so the two must agree).
   */
  lemma AddUserThenGetUserByEmailCorrected(db: Database, u: User)
    requires IsInt64(db.users.nextId) && UserFitsColumns(u) && u.dateCreated == u.dateUpdated
    requires forall k :: 0 <= k < |db.users.rows| ==> !HasEmail(db.users.rows[k], u.email)
    ensures AddUser(db, u, None).Ok?
    ensures GetUserByEmailCorrected(AddUser(db, u, None).value, u.email, None) == Ok(u.(userId := db.users.nextId))
  {
    var vals := Project(InsertedUserRow(u, db.users.nextId), UserSelectColumns);
    AddUserLookupFindsNewRow(db, u);
    InsertedUserReadsBack(u, db.users.nextId);
    ScanWrittenUserCorrected(u, db.users.nextId);
    GetUserByEmailCorrectedScans(AddUser(db, u, None).value, u.email, vals);
  }

  /**
   * The listing as keyset pagination needs it: the same filter, but
   * `order by task_id asc`, so that a page followed by the page above its
   * last task id walks through the caller's tasks without repeating any.
   */
  const GetTasksAscendingStatement :=
    Select(GosTask, TaskSelectColumns, And(ColGt("task_id", 0), ColEq("user_id", 1)), Ascending("task_id"), Some(2))

  function GetAllTasksAscending(db: Database, lastTaskId: int, userId: int, limit: int, fault: Option<string>)
    : (r: Result<seq<Task>>)
    ensures fault.Some? ==> r == Err(fault.value)
    ensures fault.None? && limit < 0 ==> r == Err(LimitError)
  {
    match Query(db, GetTasksAscendingStatement, TaskPageArgs(lastTaskId, userId, limit), fault)
    case Err(e) => Err(e)
    case Ok(rows) => ScanTasks(rows)
  }

  function TaskPageAscending(db: Database, lastTaskId: int, userId: int, limit: nat): seq<Row> {
    var matching := Filter(db.tasks.rows, GetTasksAscendingStatement.where, TaskPageArgs(lastTaskId, userId, limit));
    Take(SortAsc(matching, "task_id"), limit)
  }

  lemma GetAllTasksAscendingScansPage(db: Database, lastTaskId: int, userId: int, limit: int, fault: Option<string>)
    requires GetAllTasksAscending(db, lastTaskId, userId, limit, fault).Ok?
    ensures fault.None? && limit >= 0
    ensures var ts := GetAllTasksAscending(db, lastTaskId, userId, limit, fault).value;
      var page := TaskPageAscending(db, lastTaskId, userId, limit);
      |ts| == |page| &&
      forall i :: 0 <= i < |page| ==> ScanRowTask(Project(page[i], TaskSelectColumns)) == Ok(ts[i])
  {
    var stmt := GetTasksAscendingStatement;
    var args := TaskPageArgs(lastTaskId, userId, limit);
    var page := TaskPageAscending(db, lastTaskId, userId, limit);
    assert SelectRows(db, stmt, args) == Ok(page);
    var q := Query(db, stmt, args, fault);
    assert q.Ok? && |q.value| == |page|;
    assert forall i :: 0 <= i < |page| ==> q.value[i] == Project(page[i], TaskSelectColumns);
  }

  lemma TaskPageAscendingRows(db: Database, lastTaskId: int, userId: int, limit: nat)
    ensures var page := TaskPageAscending(db, lastTaskId, userId, limit);
      && |page| <= limit
      && SortedAsc(page, "task_id")
      && forall i :: 0 <= i < |page| ==> page[i] in db.tasks.rows && AboveCursorAndOwned(page[i], lastTaskId, userId)
  {
    var args := TaskPageArgs(lastTaskId, userId, limit);
    var matching := Filter(db.tasks.rows, GetTasksAscendingStatement.where, args);
    var sorted := SortAsc(matching, "task_id");
    SortAscFacts(matching, "task_id");
    var page := Take(sorted, limit);
    assert page == sorted[..|page|];
    forall i | 0 <= i < |page|
      ensures page[i] in db.tasks.rows && AboveCursorAndOwned(page[i], lastTaskId, userId)
    {
      assert page[i] == sorted[i];
      assert sorted[i] in multiset(matching);
      var j :| 0 <= j < |matching| && matching[j] == page[i];
      GetTasksWhere(page[i], lastTaskId, userId, limit);
    }
  }

  /** A listed task's id is its page row's `task_id`. */
  lemma AscendingListingKeys(db: Database, lastTaskId: int, userId: int, limit: int, fault: Option<string>)
    requires GetAllTasksAscending(db, lastTaskId, userId, limit, fault).Ok?
    ensures fault.None? && limit >= 0
    ensures var ts := GetAllTasksAscending(db, lastTaskId, userId, limit, fault).value;
      var page := TaskPageAscending(db, lastTaskId, userId, limit);
      && |ts| == |page|
      && forall i :: 0 <= i < |page| ==> ts[i].taskId == KeyOf(page[i], "task_id") && ts[i].userId == userId
  {
    GetAllTasksAscendingScansPage(db, lastTaskId, userId, limit, fault);
    TaskPageAscendingRows(db, lastTaskId, userId, limit);
    var ts := GetAllTasksAscending(db, lastTaskId, userId, limit, fault).value;
    var page := TaskPageAscending(db, lastTaskId, userId, limit);
    forall i | 0 <= i < |page| ensures ts[i].taskId == KeyOf(page[i], "task_id") && ts[i].userId == userId {
      var vals := Project(page[i], TaskSelectColumns);
      assert vals[0] == page[i]["task_id"] && vals[1] == page[i]["user_id"];
      ScanRowTaskKey(vals, 0);
      ScanRowTaskKey(vals, 1);
    }
  }


  /** The corrected listing keeps the scope of the original and lists the lowest ids first. */
  lemma GetAllTasksAscendingScoped(db: Database, lastTaskId: int, userId: int, limit: int, fault: Option<string>)
    requires GetAllTasksAscending(db, lastTaskId, userId, limit, fault).Ok?
    ensures var ts := GetAllTasksAscending(db, lastTaskId, userId, limit, fault).value;
      && |ts| <= limit
      && (forall i :: 0 <= i < |ts| ==> ts[i].userId == userId && ts[i].taskId > lastTaskId)
      && (forall i, j :: 0 <= i < j < |ts| ==> ts[i].taskId <= ts[j].taskId)
  {
    TaskPageAscendingRows(db, lastTaskId, userId, limit);
    AscendingListingKeys(db, lastTaskId, userId, limit, fault);
  }

  /**
   * The corrected page is the bottom of the caller's tasks above the
   * cursor: a matching stored task is on the page, or the page is full and
   * the task ranks no lower than every task on it.
   */
  lemma GetAllTasksAscendingBottomOfRange(db: Database, lastTaskId: int, userId: int, limit: int, fault: Option<string>, k: nat)
    requires GetAllTasksAscending(db, lastTaskId, userId, limit, fault).Ok?
    requires k < |db.tasks.rows|
    requires AboveCursorAndOwned(db.tasks.rows[k], lastTaskId, userId)
    ensures var ts := GetAllTasksAscending(db, lastTaskId, userId, limit, fault).value;
      || (exists i :: 0 <= i < |ts| && ts[i].taskId == KeyOf(db.tasks.rows[k], "task_id"))
      || (|ts| == limit && forall i :: 0 <= i < |ts| ==> KeyOf(db.tasks.rows[k], "task_id") >= ts[i].taskId)
  {
    AscendingListingKeys(db, lastTaskId, userId, limit, fault);
    var ts := GetAllTasksAscending(db, lastTaskId, userId, limit, fault).value;
    var page := TaskPageAscending(db, lastTaskId, userId, limit);
    var row := db.tasks.rows[k];
    TaskPageAscendingBottom(db, lastTaskId, userId, limit, k);
    if i :| 0 <= i < |page| && page[i] == row {
      assert ts[i].taskId == KeyOf(row, "task_id");
    }
  }

  /** The rows the corrected listing selects are the lowest-ranked matching rows. */
  lemma TaskPageAscendingBottom(db: Database, lastTaskId: int, userId: int, limit: nat, k: nat)
    requires k < |db.tasks.rows|
    requires AboveCursorAndOwned(db.tasks.rows[k], lastTaskId, userId)
    ensures var page := TaskPageAscending(db, lastTaskId, userId, limit);
      || (exists i :: 0 <= i < |page| && page[i] == db.tasks.rows[k])
      || (|page| == limit && forall i :: 0 <= i < |page| ==> KeyOf(db.tasks.rows[k], "task_id") >= KeyOf(page[i], "task_id"))
  {
    var args := TaskPageArgs(lastTaskId, userId, limit);
    var matching := Filter(db.tasks.rows, GetTasksAscendingStatement.where, args);
    var sorted := SortAsc(matching, "task_id");
    SortAscFacts(matching, "task_id");
    var row := db.tasks.rows[k];
    GetTasksWhere(row, lastTaskId, userId, limit);
    assert row in matching;
    assert row in multiset(sorted);
    var j :| 0 <= j < |sorted| && sorted[j] == row;
    var page := TaskPageAscending(db, lastTaskId, userId, limit);
    assert page == sorted[..|page|];
    if j < |page| {
      assert page[j] == row;
    }
  }

  /**
   * A task id is reached by two consecutive pages when it is listed on one
   * of them, or the second page is full and the id ranks above all of it, so
   * that a later page can still list it.
   */
  predicate Reached(taskId: int, ts1: seq<Task>, ts2: seq<Task>, limit: int) {
    || (exists i :: 0 <= i < |ts1| && ts1[i].taskId == taskId)
    || (exists j :: 0 <= j < |ts2| && ts2[j].taskId == taskId)
    || (|ts2| == limit && forall j :: 0 <= j < |ts2| ==> taskId >= ts2[j].taskId)
  }

  /** Every task of `later` has a higher id than every task of `earlier`. */
  predicate RanksAbove(later: seq<Task>, earlier: seq<Task>) {
    forall i, j :: 0 <= i < |earlier| && 0 <= j < |later| ==> earlier[i].taskId < later[j].taskId
  }

  /** Every stored task of the owner above the cursor is reached by the two pages. */
  predicate PagesCover(rows: seq<Row>, lastTaskId: int, userId: int, ts1: seq<Task>, ts2: seq<Task>, limit: int) {
    forall k :: 0 <= k < |rows| && AboveCursorAndOwned(rows[k], lastTaskId, userId) ==>
      Reached(KeyOf(rows[k], "task_id"), ts1, ts2, limit)
  }

  /** After the corrected listing's cursor (the last listed id), every task of the next page ranks above every task of this one. */
  lemma AscendingNextPageAbove(db: Database, lastTaskId: int, userId: int, limit: int, ts1: seq<Task>, ts2: seq<Task>)
    requires GetAllTasksAscending(db, lastTaskId, userId, limit, None) == Ok(ts1) && |ts1| > 0
    requires GetAllTasksAscending(db, ts1[|ts1| - 1].taskId, userId, limit, None) == Ok(ts2)
    ensures RanksAbove(ts2, ts1)
  {
    GetAllTasksAscendingScoped(db, lastTaskId, userId, limit, None);
    GetAllTasksAscendingScoped(db, ts1[|ts1| - 1].taskId, userId, limit, None);
  }

  /** A task of the caller above the first cursor is reached by the page and the one after it. */
  lemma AscendingPagesReach(db: Database, lastTaskId: int, userId: int, limit: int, ts1: seq<Task>, ts2: seq<Task>, k: nat)
    requires GetAllTasksAscending(db, lastTaskId, userId, limit, None) == Ok(ts1) && |ts1| > 0
    requires GetAllTasksAscending(db, ts1[|ts1| - 1].taskId, userId, limit, None) == Ok(ts2)
    requires k < |db.tasks.rows| && AboveCursorAndOwned(db.tasks.rows[k], lastTaskId, userId)
    ensures Reached(KeyOf(db.tasks.rows[k], "task_id"), ts1, ts2, limit)
  {
    var next := ts1[|ts1| - 1].taskId;
    var key := KeyOf(db.tasks.rows[k], "task_id");
    GetAllTasksAscendingBottomOfRange(db, lastTaskId, userId, limit, None, k);
    if key > next {
      GetAllTasksAscendingBottomOfRange(db, next, userId, limit, None, k);
    } else {
      assert ts1[|ts1| - 1].taskId == next;
    }
  }

  /**
   * Following the corrected listing's cursor (the last task's id) neither
   * repeats nor skips: every task on the next page ranks above every task on
   * this one, and each of the caller's tasks above the first cursor is on
   * one of the two pages, or the next page is full and the task ranks above
   * all of it (so a later page reaches it).
   */
  lemma AscendingPagesChain(db: Database, lastTaskId: int, userId: int, limit: int, ts1: seq<Task>, ts2: seq<Task>)
    requires GetAllTasksAscending(db, lastTaskId, userId, limit, None) == Ok(ts1) && |ts1| > 0
    requires GetAllTasksAscending(db, ts1[|ts1| - 1].taskId, userId, limit, None) == Ok(ts2)
    ensures RanksAbove(ts2, ts1)
    ensures PagesCover(db.tasks.rows, lastTaskId, userId, ts1, ts2, limit)
  {
    AscendingNextPageAbove(db, lastTaskId, userId, limit, ts1, ts2);
    forall k | 0 <= k < |db.tasks.rows| && AboveCursorAndOwned(db.tasks.rows[k], lastTaskId, userId)
      ensures Reached(KeyOf(db.tasks.rows[k], "task_id"), ts1, ts2, limit)
    {
      AscendingPagesReach(db, lastTaskId, userId, limit, ts1, ts2, k);
    }
  }

  // ---------------------------------------------------------------------
  // Corrected listing: descending pages below the cursor
  // ---------------------------------------------------------------------

  /** select task_id, ..., date_complete from GOS_TASK where user_id = ? order by task_id desc limit ? */
  const GetTasksFirstPageStatement :=
    Select(GosTask, TaskSelectColumns, ColEq("user_id", 0), Descending("task_id"), Some(1))

  /** select task_id, ..., date_complete from GOS_TASK where task_id < ? and user_id = ? order by task_id desc limit ? */
  const GetTasksBelowStatement :=
    Select(GosTask, TaskSelectColumns, And(ColLt("task_id", 0), ColEq("user_id", 1)), Descending("task_id"), Some(2))

  /**
   * The statement the corrected listing runs: cursor 0 asks for the first
   * page, with no bound on the ids; any other cursor asks for the ids below it.
   */
  function BelowStatement(lastTaskId: int): (stmt: Statement)
    ensures stmt.Select? && stmt.table == GosTask && stmt.columns == TaskSelectColumns
    ensures stmt.order == Descending("task_id")
  {
    if lastTaskId == 0 then GetTasksFirstPageStatement else GetTasksBelowStatement
  }

  function BelowArgs(lastTaskId: int, userId: int, limit: int): (args: seq<Value>)
    ensures |args| == Placeholders(BelowStatement(lastTaskId))
  {
    if lastTaskId == 0 then [IntVal(userId), IntVal(limit)] else TaskPageArgs(lastTaskId, userId, limit)
  }

  /** The caller's row, with an integer id below the cursor unless the cursor is 0. */
  predicate BelowCursorAndOwned(r: Row, lastTaskId: int, userId: int) {
    && (lastTaskId != 0 ==> "task_id" in r && r["task_id"].IntVal? && r["task_id"].i < lastTaskId)
    && "user_id" in r && r["user_id"] == IntVal(userId)
  }

  /** The corrected WHERE clause selects exactly the caller's rows below the cursor (all of them for cursor 0). */
  lemma GetTasksBelowWhere(r: Row, lastTaskId: int, userId: int, limit: int)
    ensures Holds(BelowStatement(lastTaskId).where, r, BelowArgs(lastTaskId, userId, limit))
      <==> BelowCursorAndOwned(r, lastTaskId, userId)
  {
  }

  /**
   * The corrected listing: the caller's tasks below the cursor, highest id
   * first, at most `limit`, so that the cursor the handler documents, the id
   * of the last task in the response (task_controller.go:27), continues where
   * the page stopped. Cursor 0 asks for the first page.
   */
  function GetAllTasksBelow(db: Database, lastTaskId: int, userId: int, limit: int, fault: Option<string>)
    : (r: Result<seq<Task>>)
    ensures fault.Some? ==> r == Err(fault.value)
    ensures fault.None? && limit < 0 ==> r == Err(LimitError)
  {
    ScanQuery(Query(db, BelowStatement(lastTaskId), BelowArgs(lastTaskId, userId, limit), fault))
  }

  /** A query's result read by the `rows.Next()` loop: a query error passes through, otherwise every row is scanned. */
  function ScanQuery(q: Result<seq<seq<Value>>>): (r: Result<seq<Task>>)
    ensures q.Err? ==> r == Err(q.error)
  {
    match q
    case Err(e) => Err(e)
    case Ok(rows) => ScanTasks(rows)
  }

  function TaskPageBelow(db: Database, lastTaskId: int, userId: int, limit: nat): seq<Row> {
    var matching := Filter(db.tasks.rows, BelowStatement(lastTaskId).where, BelowArgs(lastTaskId, userId, limit));
    Take(SortDesc(matching, "task_id"), limit)
  }

  lemma GetAllTasksBelowScansPage(db: Database, lastTaskId: int, userId: int, limit: int, fault: Option<string>)
    requires GetAllTasksBelow(db, lastTaskId, userId, limit, fault).Ok?
    ensures fault.None? && limit >= 0
    ensures var ts := GetAllTasksBelow(db, lastTaskId, userId, limit, fault).value;
      var page := TaskPageBelow(db, lastTaskId, userId, limit);
      |ts| == |page| &&
      forall i :: 0 <= i < |page| ==> ScanRowTask(Project(page[i], TaskSelectColumns)) == Ok(ts[i])
  {
    var stmt := BelowStatement(lastTaskId);
    var args := BelowArgs(lastTaskId, userId, limit);
    var page := TaskPageBelow(db, lastTaskId, userId, limit);
    assert SelectRows(db, stmt, args) == Ok(page);
    var q := Query(db, stmt, args, fault);
    assert q.Ok? && |q.value| == |page|;
    assert forall i :: 0 <= i < |page| ==> q.value[i] == Project(page[i], TaskSelectColumns);
  }

  lemma TaskPageBelowRows(db: Database, lastTaskId: int, userId: int, limit: nat)
    ensures var page := TaskPageBelow(db, lastTaskId, userId, limit);
      && |page| <= limit
      && SortedDesc(page, "task_id")
      && forall i :: 0 <= i < |page| ==> page[i] in db.tasks.rows && BelowCursorAndOwned(page[i], lastTaskId, userId)
  {
    var args := BelowArgs(lastTaskId, userId, limit);
    var matching := Filter(db.tasks.rows, BelowStatement(lastTaskId).where, args);
    var sorted := SortDesc(matching, "task_id");
    SortDescFacts(matching, "task_id");
    var page := Take(sorted, limit);
    assert page == sorted[..|page|];
    forall i | 0 <= i < |page|
      ensures page[i] in db.tasks.rows && BelowCursorAndOwned(page[i], lastTaskId, userId)
    {
      assert page[i] == sorted[i];
      assert sorted[i] in multiset(matching);
      var j :| 0 <= j < |matching| && matching[j] == page[i];
      GetTasksBelowWhere(page[i], lastTaskId, userId, limit);
    }
  }

  /** On a well-formed table a listed task's id is its page row's `task_id`, a positive id. */
  lemma BelowListingKeys(db: Database, lastTaskId: int, userId: int, limit: int, fault: Option<string>)
    requires TableWf(db.tasks, "task_id")
    requires GetAllTasksBelow(db, lastTaskId, userId, limit, fault).Ok?
    ensures fault.None? && limit >= 0
    ensures var ts := GetAllTasksBelow(db, lastTaskId, userId, limit, fault).value;
      var page := TaskPageBelow(db, lastTaskId, userId, limit);
      && |ts| == |page|
      && forall i :: 0 <= i < |page| ==>
           ts[i].taskId == KeyOf(page[i], "task_id") && ts[i].taskId >= 1 && ts[i].userId == userId
  {
    GetAllTasksBelowScansPage(db, lastTaskId, userId, limit, fault);
    TaskPageBelowRows(db, lastTaskId, userId, limit);
    var ts := GetAllTasksBelow(db, lastTaskId, userId, limit, fault).value;
    var page := TaskPageBelow(db, lastTaskId, userId, limit);
    forall i | 0 <= i < |page|
      ensures ts[i].taskId == KeyOf(page[i], "task_id") && ts[i].taskId >= 1 && ts[i].userId == userId
    {
      var k :| 0 <= k < |db.tasks.rows| && db.tasks.rows[k] == page[i];
      var vals := Project(page[i], TaskSelectColumns);
      assert vals[0] == page[i]["task_id"] && vals[1] == page[i]["user_id"];
      ScanRowTaskKey(vals, 0);
      ScanRowTaskKey(vals, 1);
    }
  }

  /**
   * On a well-formed table the corrected listing holds only the caller's
   * tasks, all below the cursor (any positive id for cursor 0), at most
   * `limit` of them.
   */
  lemma GetAllTasksBelowScoped(db: Database, lastTaskId: int, userId: int, limit: int, fault: Option<string>)
    requires TableWf(db.tasks, "task_id")
    requires GetAllTasksBelow(db, lastTaskId, userId, limit, fault).Ok?
    ensures var ts := GetAllTasksBelow(db, lastTaskId, userId, limit, fault).value;
      && |ts| <= limit
      && (forall i :: 0 <= i < |ts| ==>
            ts[i].userId == userId && ts[i].taskId >= 1 && (lastTaskId != 0 ==> ts[i].taskId < lastTaskId))
  {
    TaskPageBelowRows(db, lastTaskId, userId, limit);
    BelowListingKeys(db, lastTaskId, userId, limit, fault);
  }

  /** On a well-formed table no two rows of the corrected page share an id. */
  lemma TaskPageBelowDistinct(db: Database, lastTaskId: int, userId: int, limit: nat)
    requires TableWf(db.tasks, "task_id")
    ensures DistinctKeys(TaskPageBelow(db, lastTaskId, userId, limit), "task_id")
  {
    var args := BelowArgs(lastTaskId, userId, limit);
    var matching := Filter(db.tasks.rows, BelowStatement(lastTaskId).where, args);
    WfDistinctKeys(db.tasks, "task_id");
    FilterDistinct(db.tasks.rows, BelowStatement(lastTaskId).where, args, "task_id");
    SortDescDistinct(matching, "task_id");
    var sorted := SortDesc(matching, "task_id");
    var page := TaskPageBelow(db, lastTaskId, userId, limit);
    assert page == sorted[..|page|];
  }

  /** On a well-formed table the corrected listing's ids strictly decrease, so no task is listed twice. */
  lemma GetAllTasksBelowStrictlyDescending(db: Database, lastTaskId: int, userId: int, limit: int, fault: Option<string>)
    requires TableWf(db.tasks, "task_id")
    requires GetAllTasksBelow(db, lastTaskId, userId, limit, fault).Ok?
    ensures var ts := GetAllTasksBelow(db, lastTaskId, userId, limit, fault).value;
      forall i, j :: 0 <= i < j < |ts| ==> ts[i].taskId > ts[j].taskId
  {
    BelowListingKeys(db, lastTaskId, userId, limit, fault);
    TaskPageBelowRows(db, lastTaskId, userId, limit);
    TaskPageBelowDistinct(db, lastTaskId, userId, limit);
  }

  /** The rows the corrected listing selects are the highest-ranked matching rows. */
  lemma TaskPageBelowTop(db: Database, lastTaskId: int, userId: int, limit: nat, k: nat)
    requires k < |db.tasks.rows|
    requires BelowCursorAndOwned(db.tasks.rows[k], lastTaskId, userId)
    ensures var page := TaskPageBelow(db, lastTaskId, userId, limit);
      || (exists i :: 0 <= i < |page| && page[i] == db.tasks.rows[k])
      || (|page| == limit && forall i :: 0 <= i < |page| ==> KeyOf(db.tasks.rows[k], "task_id") <= KeyOf(page[i], "task_id"))
  {
    var args := BelowArgs(lastTaskId, userId, limit);
    var matching := Filter(db.tasks.rows, BelowStatement(lastTaskId).where, args);
    var sorted := SortDesc(matching, "task_id");
    SortDescFacts(matching, "task_id");
    var row := db.tasks.rows[k];
    GetTasksBelowWhere(row, lastTaskId, userId, limit);
    assert row in matching;
    assert row in multiset(sorted);
    var j :| 0 <= j < |sorted| && sorted[j] == row;
    var page := TaskPageBelow(db, lastTaskId, userId, limit);
    assert page == sorted[..|page|];
    if j < |page| {
      assert page[j] == row;
    }
  }

  /**
   * The corrected page is the top of the caller's tasks below the cursor: a
   * matching stored task is on the page, or the page is full and the task
   * ranks no higher than every task on it.
   */
  lemma GetAllTasksBelowTopOfRange(db: Database, lastTaskId: int, userId: int, limit: int, fault: Option<string>, k: nat)
    requires TableWf(db.tasks, "task_id")
    requires GetAllTasksBelow(db, lastTaskId, userId, limit, fault).Ok?
    requires k < |db.tasks.rows|
    requires BelowCursorAndOwned(db.tasks.rows[k], lastTaskId, userId)
    ensures var ts := GetAllTasksBelow(db, lastTaskId, userId, limit, fault).value;
      || (exists i :: 0 <= i < |ts| && ts[i].taskId == KeyOf(db.tasks.rows[k], "task_id"))
      || (|ts| == limit && forall i :: 0 <= i < |ts| ==> KeyOf(db.tasks.rows[k], "task_id") <= ts[i].taskId)
  {
    BelowListingKeys(db, lastTaskId, userId, limit, fault);
    var ts := GetAllTasksBelow(db, lastTaskId, userId, limit, fault).value;
    var page := TaskPageBelow(db, lastTaskId, userId, limit);
    var row := db.tasks.rows[k];
    TaskPageBelowTop(db, lastTaskId, userId, limit, k);
    if i :| 0 <= i < |page| && page[i] == row {
      assert ts[i].taskId == KeyOf(row, "task_id");
    }
  }

  /**
   * A task id is reached by two consecutive descending pages when it is
   * listed on one of them, or the second page is full and the id ranks below
   * all of it, so that a later page can still list it.
   */
  predicate ReachedBelow(taskId: int, ts1: seq<Task>, ts2: seq<Task>, limit: int) {
    || (exists i :: 0 <= i < |ts1| && ts1[i].taskId == taskId)
    || (exists j :: 0 <= j < |ts2| && ts2[j].taskId == taskId)
    || (|ts2| == limit && forall j :: 0 <= j < |ts2| ==> taskId <= ts2[j].taskId)
  }

  /** Every task of `later` has a lower id than every task of `earlier`. */
  predicate RanksBelow(later: seq<Task>, earlier: seq<Task>) {
    forall i, j :: 0 <= i < |earlier| && 0 <= j < |later| ==> later[j].taskId < earlier[i].taskId
  }

  /** Every stored task of the owner below the first cursor is reached by the two pages. */
  predicate PagesCoverBelow(rows: seq<Row>, lastTaskId: int, userId: int, ts1: seq<Task>, ts2: seq<Task>, limit: int) {
    forall k :: 0 <= k < |rows| && BelowCursorAndOwned(rows[k], lastTaskId, userId) ==>
      ReachedBelow(KeyOf(rows[k], "task_id"), ts1, ts2, limit)
  }

  /** After the corrected cursor (the last listed id), every task of the next page ranks below every task of this one. */
  lemma BelowNextPageBelow(db: Database, lastTaskId: int, userId: int, limit: int, ts1: seq<Task>, ts2: seq<Task>)
    requires TableWf(db.tasks, "task_id")
    requires GetAllTasksBelow(db, lastTaskId, userId, limit, None) == Ok(ts1) && |ts1| > 0
    requires GetAllTasksBelow(db, ts1[|ts1| - 1].taskId, userId, limit, None) == Ok(ts2)
    ensures RanksBelow(ts2, ts1)
  {
    var next := ts1[|ts1| - 1].taskId;
    BelowPageFacts(db, lastTaskId, userId, limit, ts1);
    BelowPageFacts(db, next, userId, limit, ts2);
    forall i, j | 0 <= i < |ts1| && 0 <= j < |ts2| ensures ts2[j].taskId < ts1[i].taskId {
      assert ts2[j].taskId < next;
      if i < |ts1| - 1 {
        assert ts1[i].taskId > next;
      }
    }
  }

  /**
   * `GetAllTasksBelowScoped` and `GetAllTasksBelowStrictlyDescending`,
   * stated about the page `ts` the listing returned.
   */
  lemma BelowPageFacts(db: Database, lastTaskId: int, userId: int, limit: int, ts: seq<Task>)
    requires TableWf(db.tasks, "task_id")
    requires GetAllTasksBelow(db, lastTaskId, userId, limit, None) == Ok(ts)
    ensures forall i :: 0 <= i < |ts| ==> ts[i].taskId >= 1 && (lastTaskId != 0 ==> ts[i].taskId < lastTaskId)
    ensures forall i, j :: 0 <= i < j < |ts| ==> ts[i].taskId > ts[j].taskId
  {
    GetAllTasksBelowScoped(db, lastTaskId, userId, limit, None);
    GetAllTasksBelowStrictlyDescending(db, lastTaskId, userId, limit, None);
  }

  /** A task of the caller below the first cursor is reached by the page and the one after it. */
  lemma BelowPagesReach(db: Database, lastTaskId: int, userId: int, limit: int, ts1: seq<Task>, ts2: seq<Task>, k: nat)
    requires TableWf(db.tasks, "task_id")
    requires GetAllTasksBelow(db, lastTaskId, userId, limit, None) == Ok(ts1) && |ts1| > 0
    requires GetAllTasksBelow(db, ts1[|ts1| - 1].taskId, userId, limit, None) == Ok(ts2)
    requires k < |db.tasks.rows| && BelowCursorAndOwned(db.tasks.rows[k], lastTaskId, userId)
    ensures ReachedBelow(KeyOf(db.tasks.rows[k], "task_id"), ts1, ts2, limit)
  {
    var next := ts1[|ts1| - 1].taskId;
    var key := KeyOf(db.tasks.rows[k], "task_id");
    BelowPageOnOrAbove(db, lastTaskId, userId, limit, ts1, k);
    if key < next {
      assert BelowCursorAndOwned(db.tasks.rows[k], next, userId);
      BelowPageOnOrAbove(db, next, userId, limit, ts2, k);
    }
    ReachedFromTops(key, ts1, ts2, limit);
  }

  /** Whether a page lists `taskId`, or is full and ranks above it. */
  predicate OnOrAbove(taskId: int, ts: seq<Task>, limit: int) {
    || (exists i :: 0 <= i < |ts| && ts[i].taskId == taskId)
    || (|ts| == limit && forall i :: 0 <= i < |ts| ==> taskId <= ts[i].taskId)
  }

  /** `GetAllTasksBelowTopOfRange`, stated about the page `ts` the listing returned. */
  lemma BelowPageOnOrAbove(db: Database, lastTaskId: int, userId: int, limit: int, ts: seq<Task>, k: nat)
    requires TableWf(db.tasks, "task_id")
    requires GetAllTasksBelow(db, lastTaskId, userId, limit, None) == Ok(ts)
    requires k < |db.tasks.rows| && BelowCursorAndOwned(db.tasks.rows[k], lastTaskId, userId)
    ensures OnOrAbove(KeyOf(db.tasks.rows[k], "task_id"), ts, limit)
  {
    GetAllTasksBelowTopOfRange(db, lastTaskId, userId, limit, None, k);
  }

  /**
   * A task the first page lists or ranks above, and that the second page
   * lists or ranks above whenever it lies below the first page's last id,
   * is reached by the two pages.
   */
  lemma ReachedFromTops(taskId: int, ts1: seq<Task>, ts2: seq<Task>, limit: int)
    requires |ts1| > 0 && OnOrAbove(taskId, ts1, limit)
    requires taskId < ts1[|ts1| - 1].taskId ==> OnOrAbove(taskId, ts2, limit)
    ensures ReachedBelow(taskId, ts1, ts2, limit)
  {
    if taskId >= ts1[|ts1| - 1].taskId && !(exists i :: 0 <= i < |ts1| && ts1[i].taskId == taskId) {
      assert taskId <= ts1[|ts1| - 1].taskId;
      assert ts1[|ts1| - 1].taskId == taskId;
    }
  }

  /**
   * Following the corrected cursor (the last task's id) neither repeats nor
   * skips: every task on the next page ranks below every task on this one,
   * and each of the caller's tasks below the first cursor (every task, for
   * cursor 0) is on one of the two pages, or the next page is full and the
   * task ranks below all of it (so a later page reaches it).
   */
  lemma BelowPagesChain(db: Database, lastTaskId: int, userId: int, limit: int, ts1: seq<Task>, ts2: seq<Task>)
    requires TableWf(db.tasks, "task_id")
    requires GetAllTasksBelow(db, lastTaskId, userId, limit, None) == Ok(ts1) && |ts1| > 0
    requires GetAllTasksBelow(db, ts1[|ts1| - 1].taskId, userId, limit, None) == Ok(ts2)
    ensures RanksBelow(ts2, ts1)
    ensures PagesCoverBelow(db.tasks.rows, lastTaskId, userId, ts1, ts2, limit)
  {
    BelowNextPageBelow(db, lastTaskId, userId, limit, ts1, ts2);
    forall k | 0 <= k < |db.tasks.rows| && BelowCursorAndOwned(db.tasks.rows[k], lastTaskId, userId)
      ensures ReachedBelow(KeyOf(db.tasks.rows[k], "task_id"), ts1, ts2, limit)
    {
      BelowPagesReach(db, lastTaskId, userId, limit, ts1, ts2, k);
    }
  }

  // ---------------------------------------------------------------------
  // A row stream that breaks off
  // ---------------------------------------------------------------------

  /**
   * The driver's row stream failing before row `at` of the result (or after
   * the last row, when `at` is past the end): `rows.Next()` returns false
   * there, and the failure is left for `rows.Err()`.
   */
  datatype StreamBreak = StreamBreak(at: nat, error: string)

  /** The rows the `rows.Next()` loop sees before the stream ends. */
  function Delivered(rows: seq<seq<Value>>, brk: Option<StreamBreak>): (d: seq<seq<Value>>)
    ensures d <= rows
    ensures |d| == if brk.Some? && brk.value.at < |rows| then brk.value.at else |rows|
  {
    if brk.Some? && brk.value.at < |rows| then rows[..brk.value.at] else rows
  }

  /**
   * `GetAllTasks` with the row stream breaking at `brk`: the loop ends where
   * the stream does, and the tasks read so far are returned as a success,
   * because `rows.Err()` is never consulted.
   */
  function GetAllTasksStreamed(db: Database, lastTaskId: int, userId: int, limit: int, fault: Option<string>,
                               brk: Option<StreamBreak>): (r: Result<seq<Task>>)
    ensures fault.Some? ==> r == Err(fault.value)
  {
    match Query(db, GetTasksStatement, TaskPageArgs(lastTaskId, userId, limit), fault)
    case Err(e) => Err(e)
    case Ok(rows) => ScanTasks(Delivered(rows, brk))
  }

  /** Without a break the stream delivers every row, and the listing is `GetAllTasks`'. */
  lemma StreamedWithoutBreak(db: Database, lastTaskId: int, userId: int, limit: int, fault: Option<string>)
    ensures GetAllTasksStreamed(db, lastTaskId, userId, limit, fault, None) == GetAllTasks(db, lastTaskId, userId, limit, fault)
  {
  }

  /** Scanning the first `n` rows of a result that scans gives the first `n` tasks. */
  lemma {:induction false} ScanTasksPrefix(rows: seq<seq<Value>>, n: nat)
    requires ScanTasks(rows).Ok? && n <= |rows|
    ensures ScanTasks(rows[..n]) == Ok(ScanTasks(rows).value[..n])
    decreases n
  {
    if n > 0 {
      var ts := ScanTasks(rows).value;
      var t := ScanRowTask(rows[0]).value;
      assert ScanTasks(rows[1..]) == Ok(ts[1..]);
      ScanTasksPrefix(rows[1..], n - 1);
      var head := rows[..n];
      assert head[0] == rows[0] && head[1..] == rows[1..][..n - 1];
      assert ScanTasks(head) == Ok([t] + ts[1..][..n - 1]);
      assert ts[..n] == [t] + ts[1..][..n - 1];
    }
  }

  /**
   * A stream that breaks before row `at` of a listing that would hold more
   * than `at` tasks is answered as a success with only the first `at` of
   * them: the driver's error is lost, and the client sees a short page.
   */
  lemma BrokenStreamLooksComplete(db: Database, lastTaskId: int, userId: int, limit: int, ts: seq<Task>,
                                  brk: StreamBreak)
    requires GetAllTasks(db, lastTaskId, userId, limit, None) == Ok(ts)
    requires brk.at < |ts|
    ensures GetAllTasksStreamed(db, lastTaskId, userId, limit, None, Some(brk)) == Ok(ts[..brk.at])
  {
    var rows := Query(db, GetTasksStatement, TaskPageArgs(lastTaskId, userId, limit), None).value;
    ScanTasksPrefix(rows, brk.at);
  }

  /**
   * The listing with `rows.Err()` checked after the loop: a scan error is
   * still reported first, and a break in the stream is reported instead of
   * the partial list.
   */
  function GetAllTasksChecked(db: Database, lastTaskId: int, userId: int, limit: int, fault: Option<string>,
                              brk: Option<StreamBreak>): (r: Result<seq<Task>>)
    ensures fault.Some? ==> r == Err(fault.value)
    ensures brk.Some? ==> r.Err?
    ensures brk.None? ==> r == GetAllTasks(db, lastTaskId, userId, limit, fault)
  {
    match Query(db, GetTasksStatement, TaskPageArgs(lastTaskId, userId, limit), fault)
    case Err(e) => Err(e)
    case Ok(rows) =>
      match ScanTasks(Delivered(rows, brk))
      case Err(e) => Err(e)
      case Ok(ts) => if brk.Some? then Err(brk.value.error) else Ok(ts)
  }

  /**
   * With the check, every success is the complete listing, and a break
   * whose rows all scan is reported with the driver's own error.
   */
  lemma CheckedListingIsComplete(db: Database, lastTaskId: int, userId: int, limit: int, fault: Option<string>,
                                 brk: Option<StreamBreak>)
    ensures GetAllTasksChecked(db, lastTaskId, userId, limit, fault, brk).Ok? ==>
      GetAllTasksChecked(db, lastTaskId, userId, limit, fault, brk) == GetAllTasks(db, lastTaskId, userId, limit, fault)
    ensures brk.Some? && GetAllTasks(db, lastTaskId, userId, limit, fault).Ok? ==>
      GetAllTasksChecked(db, lastTaskId, userId, limit, fault, brk) == Err(brk.value.error)
  {
    match Query(db, GetTasksStatement, TaskPageArgs(lastTaskId, userId, limit), fault)
    case Err(_) =>
    case Ok(rows) =>
      if brk.Some? && ScanTasks(rows).Ok? {
        ScanTasksPrefix(rows, |Delivered(rows, brk)|);
      }
  }
}

=== FILE: router.dfy ===
/**
 * `app/router.go`: the route table and the token check in front of the
 * secured group. A request is routed on its method and path segments; a
 * route in the secured group runs its handler only after the token in the
 * `x-access-token` header authenticates.
 */
module Router {
  import opened Base
  import opened Models
  import opened Gin
  import opened Sql
  import opened Auth
  import opened AppController
  import TaskController
  import AuthController

  datatype Method = GET | POST

  /** A path pattern segment: literal text, or a `:name` parameter that takes one non-empty segment. */
  datatype Segment = Lit(text: string) | Param(name: string)

  datatype Endpoint = RegisterEndpoint | LoginEndpoint | AddTaskEndpoint | GetTasksEndpoint | GetTaskEndpoint

  datatype Route = Route(verb: Method, pattern: seq<Segment>, secured: bool, endpoint: Endpoint)

  const AuthGroup := [Lit("api"), Lit("auth")]
  const SecuredGroup := [Lit("api"), Lit("secured")]

  /** `registerRoutes`: two open routes under /api/auth, three behind the token check under /api/secured. */
  const Routes: seq<Route> := [
    Route(POST, AuthGroup + [Lit("register")], false, RegisterEndpoint),
    Route(POST, AuthGroup + [Lit("login")], false, LoginEndpoint),
    Route(POST, SecuredGroup + [Lit("tasks")], true, AddTaskEndpoint),
    Route(GET, SecuredGroup + [Lit("tasks")], true, GetTasksEndpoint),
    Route(GET, SecuredGroup + [Lit("tasks"), Param("taskId")], true, GetTaskEndpoint)
  ]

  predicate SegmentMatches(s: Segment, text: string) {
    match s
    case Lit(t) => text == t
    case Param(_) => |text| > 0
  }

  predicate PatternMatches(pattern: seq<Segment>, path: seq<string>) {
    |pattern| == |path| && forall i :: 0 <= i < |path| ==> SegmentMatches(pattern[i], path[i])
  }

  predicate RouteMatches(r: Route, verb: Method, path: seq<string>) {
    r.verb == verb && PatternMatches(r.pattern, path)
  }

  /** The first route, from `from` on, that serves the request. */
  function FindRoute(verb: Method, path: seq<string>, from: nat): (r: Option<nat>)
    requires from <= |Routes|
    ensures r.Some? ==> from <= r.value < |Routes| && RouteMatches(Routes[r.value], verb, path)
    ensures r.None? ==> forall i :: from <= i < |Routes| ==> !RouteMatches(Routes[i], verb, path)
    decreases |Routes| - from
  {
    if from == |Routes| then None
    else if RouteMatches(Routes[from], verb, path) then Some(from)
    else FindRoute(verb, path, from + 1)
  }

  /** The value the path gives a `:name` parameter of the pattern ("" when there is none). */
  function ParamValue(pattern: seq<Segment>, path: seq<string>, name: string): string
    decreases |pattern|
  {
    if |pattern| == 0 || |path| == 0 then ""
    else if pattern[0] == Param(name) then path[0]
    else ParamValue(pattern[1..], path[1..], name)
  }

  /**
   * An incoming request. The body and the query string reach the handlers
   * only through gin's binding, so the request carries what binding would
   * make of them for each target type.
   */
  datatype Request = Request(
    verb: Method,
    path: seq<string>,
    headers: map<string, string>,
    login: Bind<LoginRequest>,
    register: Bind<RegisterRequest>,
    task: Bind<Task>,
    query: Bind<PageQuery>)

  type PageQuery = TaskController.PageQuery

  /** What the router is built from: the auth service and the libraries the handlers call. */
  datatype Server = Server(auth: Auth, codec: TokenCodec, hasher: AuthController.Hasher)

  const Unauthorized := "UNAUTHORIZED ACCESS"
  const PageNotFound := "page not found"

  /** `authMiddleware`: authenticates the header's token, or aborts with 401 and the reason. */
  function AuthMiddleware(s: Server, ctx: Context<Claims>, now: int): (r: Result<Context<Claims>>)
    ensures r.Ok? <==> Accepts(s.codec.parse(GetHeader(ctx, TokenHeader), s.auth.jwtKey, now))
    ensures r.Ok? ==> MustGet(r.value, ClaimsKey) == Some(s.codec.parse(GetHeader(ctx, TokenHeader), s.auth.jwtKey, now).claims)
  {
    var out := AuthenticateUser(s.auth, ctx, GetHeader(ctx, TokenHeader), now, s.codec);
    if out.result.Err? then Err(out.result.error) else Ok(out.ctx)
  }

  function RunEndpoint(s: Server, e: Endpoint, db: Database, ctx: Context<Claims>, req: Request, taskId: string,
                       now: int, later: int, faults: StoreFaults): Handled
  {
    match e
    case RegisterEndpoint => AuthController.Register(db, req.register, now, s.hasher, faults)
    case LoginEndpoint => AuthController.Login(db, s.auth, req.login, now, s.codec, s.hasher, faults)
    case AddTaskEndpoint => TaskController.AddTask(db, ctx, req.task, now, later, faults.write)
    case GetTasksEndpoint => Handled(TaskController.GetTasks(db, ctx, req.query, faults.query), db)
    case GetTaskEndpoint => Handled(TaskController.GetTask(db, ctx, taskId, faults.query), db)
  }

  /**
   * The engine serving one request: an unmatched method and path get
   * `handle404`'s 404; a secured route whose token does not authenticate
   * gets 401 with the reason and its handler never runs. `now` is the
   * request time in Unix seconds and `later` a second reading of the clock,
   * for the handler that reads it twice.
   */
  function Serve(s: Server, db: Database, req: Request, now: int, later: int, faults: StoreFaults): (h: Handled)
    ensures FindRoute(req.verb, req.path, 0).None? ==>
      h == Handled(Reply(StatusNotFound, Response(PageNotFound, NoData, None)), db)
  {
    match FindRoute(req.verb, req.path, 0)
    case None => Handled(Reply(StatusNotFound, Response(PageNotFound, NoData, None)), db)
    case Some(i) =>
      var route := Routes[i];
      var ctx := NewContext(req.headers);
      var taskId := ParamValue(route.pattern, req.path, "taskId");
      if route.secured then
        match AuthMiddleware(s, ctx, now)
        case Err(e) => Handled(Abort(StatusUnauthorized, Unauthorized, Some(e)), db)
        case Ok(ctx') => RunEndpoint(s, route.endpoint, db, ctx', req, taskId, now, later, faults)
      else RunEndpoint(s, route.endpoint, db, ctx, req, taskId, now, later, faults)
  }

  // ---------------------------------------------------------------------
  // Properties of the routing
  // ---------------------------------------------------------------------

  /** No request matches two routes, so the first match is the only one. */
  lemma RoutesAreDisjoint(verb: Method, path: seq<string>, i: nat, j: nat)
    requires i < j < |Routes|
    ensures !(RouteMatches(Routes[i], verb, path) && RouteMatches(Routes[j], verb, path))
  {
    if i < 2 && j < 2 && RouteMatches(Routes[i], verb, path) {
      assert SegmentMatches(Routes[i].pattern[2], path[2]);
    } else if i < 2 && RouteMatches(Routes[i], verb, path) {
      assert SegmentMatches(Routes[i].pattern[1], path[1]);
    }
  }

  /** The request line each endpoint answers: its method and the group's path with the route's own segments. */
  lemma RouteTable(id: string)
    requires |id| > 0
    ensures FindRoute(POST, ["api", "auth", "register"], 0) == Some(0)
    ensures FindRoute(POST, ["api", "auth", "login"], 0) == Some(1)
    ensures FindRoute(POST, ["api", "secured", "tasks"], 0) == Some(2)
    ensures FindRoute(GET, ["api", "secured", "tasks"], 0) == Some(3)
    ensures FindRoute(GET, ["api", "secured", "tasks", id], 0) == Some(4)
    ensures ParamValue(Routes[4].pattern, ["api", "secured", "tasks", id], "taskId") == id
    ensures FindRoute(GET, ["api", "auth", "login"], 0).None?
  {
    assert RouteMatches(Routes[0], POST, ["api", "auth", "register"]);
    assert RouteMatches(Routes[1], POST, ["api", "auth", "login"]);
    assert RouteMatches(Routes[2], POST, ["api", "secured", "tasks"]);
    assert RouteMatches(Routes[3], GET, ["api", "secured", "tasks"]);
    assert RouteMatches(Routes[4], GET, ["api", "secured", "tasks", id]);
    assert !RouteMatches(Routes[0], POST, ["api", "auth", "login"]) by {
      assert !SegmentMatches(Routes[0].pattern[2], "login");
    }
    assert !RouteMatches(Routes[2], GET, ["api", "secured", "tasks"]);
    assert !RouteMatches(Routes[3], GET, ["api", "secured", "tasks", id]);
    var p := Routes[4].pattern;
    var path := ["api", "secured", "tasks", id];
    assert p == [Lit("api"), Lit("secured"), Lit("tasks"), Param("taskId")];
    assert ParamValue(p, path, "taskId") == ParamValue(p[1..], path[1..], "taskId");
    assert ParamValue(p[1..], path[1..], "taskId") == ParamValue(p[2..], path[2..], "taskId") by {
      assert p[1..][1..] == p[2..] && path[1..][1..] == path[2..];
    }
    assert ParamValue(p[2..], path[2..], "taskId") == ParamValue(p[3..], path[3..], "taskId") by {
      assert p[2..][1..] == p[3..] && path[2..][1..] == path[3..];
    }
    assert p[3..][0] == Param("taskId") && path[3..][0] == id;
  }

  /**
   * A request to a secured route whose token does not authenticate is
   * answered 401 "UNAUTHORIZED ACCESS" with the reason, and its handler never
   * runs: the store is left as it was, whatever the store would have done.
   */
  lemma UnauthenticatedRequestChangesNothing(s: Server, db: Database, req: Request, now: int, later: int, faults: StoreFaults)
    requires FindRoute(req.verb, req.path, 0).Some? && Routes[FindRoute(req.verb, req.path, 0).value].secured
    requires !Accepts(s.codec.parse(GetHeader(NewContext<Claims>(req.headers), TokenHeader), s.auth.jwtKey, now))
    ensures var h := Serve(s, db, req, now, later, faults);
      && h.db == db
      && h.reply.Reply? && h.reply.status == StatusUnauthorized && h.reply.body.message == Unauthorized
      && h.reply.body.errors.Some? && |h.reply.body.errors.value| == 1
      && InvalidToken <= h.reply.body.errors.value[0]
  {
  }

  /**
   * No request makes the server panic: the task handlers, which do
   * `MustGet("claims")`, are reachable only through the token check, which
   * stores the claims.
   */
  lemma ServeNeverPanics(s: Server, db: Database, req: Request, now: int, later: int, faults: StoreFaults)
    ensures Serve(s, db, req, now, later, faults).reply != Panicked
  {
    match FindRoute(req.verb, req.path, 0)
    case None =>
    case Some(i) =>
      var ctx := NewContext<Claims>(req.headers);
      if Routes[i].secured {
        match AuthMiddleware(s, ctx, now)
        case Err(_) =>
        case Ok(ctx') =>
          assert TaskController.Caller(ctx').Some?;
      }
  }

  /**
   * Whatever a secured route answers other than 401 was produced for a
   * token the service accepted, and with a well-behaved JWT library the
   * token's claims were live at the time of the request.
   */
  lemma SecuredAnswerNeedsLiveToken(s: Server, db: Database, req: Request, now: int, later: int, faults: StoreFaults)
    requires EnforcesExpiry(s.codec)
    requires FindRoute(req.verb, req.path, 0).Some? && Routes[FindRoute(req.verb, req.path, 0).value].secured
    requires Serve(s, db, req, now, later, faults).reply.Status() != StatusUnauthorized
    ensures var o := s.codec.parse(GetHeader(NewContext<Claims>(req.headers), TokenHeader), s.auth.jwtKey, now);
      Accepts(o) && Live(o.claims, now)
  {
  }

  /**
   * Serving a request keeps the table invariant: starting from a store
   * with unique ids below the counters (the empty store is one), every
   * store the handlers produce is one too.
   */
  lemma ServeKeepsWf(s: Server, db: Database, req: Request, now: int, later: int, faults: StoreFaults)
    requires DatabaseWf(db)
    ensures DatabaseWf(Serve(s, db, req, now, later, faults).db)
  {
    match FindRoute(req.verb, req.path, 0)
    case None =>
    case Some(i) =>
      var route := Routes[i];
      var ctx := NewContext<Claims>(req.headers);
      var ctx' := if route.secured && AuthMiddleware(s, ctx, now).Ok? then AuthMiddleware(s, ctx, now).value else ctx;
      match route.endpoint
      case RegisterEndpoint => AuthController.RegisterKeepsWf(db, req.register, now, s.hasher, faults);
      case LoginEndpoint => AuthController.LoginKeepsWf(db, s.auth, req.login, now, s.codec, s.hasher, faults);
      case AddTaskEndpoint => TaskController.AddTaskKeepsWf(db, ctx', req.task, now, later, faults.write);
      case GetTasksEndpoint =>
      case GetTaskEndpoint =>
  }
}

=== FILE: sql.dfy ===
/**
 * The relational store the repository talks to, reduced to what the six
 * prepared statements of the repository use: tables of rows keyed by column
 * name with an auto-increment id, positional `?` parameters, conjunctions of
 * `=`/`>` comparisons, `order by <col> desc`, `limit ?`, and the way
 * `database/sql` hands result rows back as positional values.
 *
 * A driver failure (lost connection, constraint violation, ...) is an input:
 * every statement takes `fault`, and a `Some` fault is the error the driver
 * reports instead of running the statement.
 */
module Sql {
  import opened Base
  import Strconv

  datatype Value = Null | IntVal(i: int) | StrVal(s: string)

  /** A stored row: the value of each column, by column name. */
  type Row = map<string, Value>

  datatype TableName = GosUser | GosTask

  /** A table's rows in storage order and the id its next insert receives. */
  datatype Table = Table(rows: seq<Row>, nextId: int)

  datatype Database = Database(users: Table, tasks: Table)

  /** MySQL auto-increment counters start at 1. */
  const EmptyDatabase := Database(Table([], 1), Table([], 1))

  /** The auto-increment primary key of each table. */
  function IdColumn(name: TableName): string {
    match name
    case GosUser => "user_id"
    case GosTask => "task_id"
  }

  function TableOf(db: Database, name: TableName): Table {
    match name
    case GosUser => db.users
    case GosTask => db.tasks
  }

  function WithTable(db: Database, name: TableName, t: Table): (db': Database)
    ensures TableOf(db', name) == t
    ensures forall other :: other != name ==> TableOf(db', other) == TableOf(db, other)
  {
    match name
    case GosUser => db.(users := t)
    case GosTask => db.(tasks := t)
  }

  // ---------------------------------------------------------------------
  // Statements
  // ---------------------------------------------------------------------

  /** A WHERE clause: `column = ?n`, `column > ?n`, `column < ?n`, and their conjunction (`?n` is the n-th argument, from 0). */
  datatype Cond =
    | ColEq(column: string, param: nat)
    | ColGt(column: string, param: nat)
    | ColLt(column: string, param: nat)
    | And(left: Cond, right: Cond)

  datatype Order = StorageOrder | Descending(column: string) | Ascending(column: string)

  /**
   * `insert into T (c1..cn) values (?..?)`;
   * `update T set c1 = ?, .., cn = ? where W` (W's parameters follow the n assignments);
   * `select c1..cn from T where W [order by c desc] [limit ?k]`.
   */
  datatype Statement =
    | Insert(table: TableName, columns: seq<string>)
    | Update(table: TableName, columns: seq<string>, where: Cond)
    | Select(table: TableName, columns: seq<string>, where: Cond, order: Order, limit: Option<nat>)

  function CondPlaceholders(c: Cond): nat {
    match c
    case ColEq(_, _) => 1
    case ColGt(_, _) => 1
    case ColLt(_, _) => 1
    case And(a, b) => CondPlaceholders(a) + CondPlaceholders(b)
  }

  /** The number of `?` in the statement's text. */
  function Placeholders(stmt: Statement): nat {
    match stmt
    case Insert(_, cols) => |cols|
    case Update(_, cols, w) => |cols| + CondPlaceholders(w)
    case Select(_, _, w, _, lim) => CondPlaceholders(w) + (if lim.Some? then 1 else 0)
  }

  /** The row has the column, holding that value. */
  predicate ColumnIs(r: Row, col: string, v: Value) {
    col in r && r[col] == v
  }

  /** SQL equality: NULL equals nothing, values of different kinds never compare equal. */
  predicate SqlEq(a: Value, b: Value) {
    a != Null && a == b
  }

  /** Whether a row satisfies a WHERE clause under the given arguments. */
  predicate Holds(c: Cond, r: Row, args: seq<Value>) {
    match c
    case ColEq(col, p) => p < |args| && col in r && SqlEq(r[col], args[p])
    case ColGt(col, p) =>
      p < |args| && col in r && r[col].IntVal? && args[p].IntVal? && r[col].i > args[p].i
    case ColLt(col, p) =>
      p < |args| && col in r && r[col].IntVal? && args[p].IntVal? && r[col].i < args[p].i
    case And(a, b) => Holds(a, r, args) && Holds(b, r, args)
  }

  // ---------------------------------------------------------------------
  // Row construction
  // ---------------------------------------------------------------------

  /** Binds the i-th column name to the i-th value; a later duplicate name wins. */
  function Zip(cols: seq<string>, vals: seq<Value>): (m: Row)
    requires |cols| == |vals|
    ensures m.Keys == set c | c in cols
    decreases |cols|
  {
    if |cols| == 0 then map[] else map[cols[0] := vals[0]] + Zip(cols[1..], vals[1..])
  }

  predicate Distinct(cols: seq<string>) {
    forall i, j :: 0 <= i < j < |cols| ==> cols[i] != cols[j]
  }

  lemma {:induction false} ZipLookup(cols: seq<string>, vals: seq<Value>, i: nat)
    requires |cols| == |vals| && Distinct(cols) && i < |cols|
    ensures cols[i] in Zip(cols, vals) && Zip(cols, vals)[cols[i]] == vals[i]
    decreases |cols|
  {
    if i > 0 {
      assert Distinct(cols[1..]) by {
        forall a, b | 0 <= a < b < |cols[1..]| ensures cols[1..][a] != cols[1..][b] {
          assert cols[1..][a] == cols[a + 1] && cols[1..][b] == cols[b + 1];
        }
      }
      ZipLookup(cols[1..], vals[1..], i - 1);
    }
  }

  /** The values of the named columns of a row, in the order named; a missing column reads as NULL. */
  function Project(r: Row, cols: seq<string>): (vals: seq<Value>)
    ensures |vals| == |cols|
    ensures forall i :: 0 <= i < |cols| && cols[i] in r ==> vals[i] == r[cols[i]]
  {
    seq(|cols|, i requires 0 <= i < |cols| => if cols[i] in r then r[cols[i]] else Null)
  }

  /** A new row receives the table's next id in its id column; the counter moves on. */
  function InsertRow(t: Table, idCol: string, r: Row): (t': Table)
    ensures t'.rows == t.rows + [r[idCol := IntVal(t.nextId)]]
    ensures t'.nextId == t.nextId + 1
  {
    Table(t.rows + [r[idCol := IntVal(t.nextId)]], t.nextId + 1)
  }

  /** Overwrites the assigned columns of every row the WHERE clause selects. */
  function UpdateRows(t: Table, assign: Row, where: Cond, args: seq<Value>): (t': Table)
    ensures t'.nextId == t.nextId && |t'.rows| == |t.rows|
    ensures forall i :: 0 <= i < |t.rows| ==>
      t'.rows[i] == if Holds(where, t.rows[i], args) then t.rows[i] + assign else t.rows[i]
  {
    Table(seq(|t.rows|, i requires 0 <= i < |t.rows| =>
      if Holds(where, t.rows[i], args) then t.rows[i] + assign else t.rows[i]), t.nextId)
  }

  // ---------------------------------------------------------------------
  // Selection, ordering, limit
  // ---------------------------------------------------------------------

  /** The rows satisfying the WHERE clause, in storage order. */
  function Filter(rows: seq<Row>, where: Cond, args: seq<Value>): (s: seq<Row>)
    ensures |s| <= |rows|
    ensures forall i :: 0 <= i < |s| ==> Holds(where, s[i], args) && s[i] in rows
    ensures forall i :: 0 <= i < |rows| && Holds(where, rows[i], args) ==> rows[i] in s
    decreases |rows|
  {
    if |rows| == 0 then []
    else
      var rest := Filter(rows[1..], where, args);
      assert forall i :: 0 <= i < |rest| ==> rest[i] in rows by {
        forall i | 0 <= i < |rest| ensures rest[i] in rows {
          var j :| 0 <= j < |rows[1..]| && rows[1..][j] == rest[i];
          assert rows[j + 1] == rest[i];
        }
      }
      assert forall i :: 1 <= i < |rows| ==> rows[i] == rows[1..][i - 1];
      if Holds(where, rows[0], args) then [rows[0]] + rest else rest
  }

  /** The first row the WHERE clause selects is the first result row. */
  lemma {:induction false} FilterFirst(rows: seq<Row>, where: Cond, args: seq<Value>, k: nat)
    requires k < |rows| && Holds(where, rows[k], args)
    requires forall j :: 0 <= j < k ==> !Holds(where, rows[j], args)
    ensures |Filter(rows, where, args)| > 0 && Filter(rows, where, args)[0] == rows[k]
    decreases k
  {
    if k > 0 {
      assert forall j :: 0 <= j < k - 1 ==> rows[1..][j] == rows[j + 1];
      FilterFirst(rows[1..], where, args, k - 1);
    }
  }

  /** A row stored under a fresh id, read back through the columns id-first, gives back the inserted values. */
  lemma ProjectInserted(cols: seq<string>, vals: seq<Value>, idCol: string, id: int)
    requires |cols| == |vals| && Distinct(cols) && idCol !in cols
    ensures Project(Zip(cols, vals)[idCol := IntVal(id)], [idCol] + cols) == [IntVal(id)] + vals
  {
    var row := Zip(cols, vals)[idCol := IntVal(id)];
    var p := Project(row, [idCol] + cols);
    forall i | 0 <= i < |p| ensures p[i] == ([IntVal(id)] + vals)[i] {
      if i > 0 {
        ZipLookup(cols, vals, i - 1);
        assert ([idCol] + cols)[i] == cols[i - 1];
      }
    }
  }

  /** The ordering key: the column's integer value (non-integers sort as 0; see README). */
  function KeyOf(r: Row, col: string): int {
    if col in r && r[col].IntVal? then r[col].i else 0
  }

  ghost predicate SortedDesc(s: seq<Row>, col: string) {
    forall i, j :: 0 <= i < j < |s| ==> KeyOf(s[i], col) >= KeyOf(s[j], col)
  }

  ghost predicate DistinctKeys(s: seq<Row>, col: string) {
    forall i, j :: 0 <= i < j < |s| ==> KeyOf(s[i], col) != KeyOf(s[j], col)
  }

  function InsertDesc(r: Row, s: seq<Row>, col: string): (s': seq<Row>)
    decreases |s|
  {
    if |s| == 0 then [r]
    else if KeyOf(r, col) >= KeyOf(s[0], col) then [r] + s
    else [s[0]] + InsertDesc(r, s[1..], col)
  }

  /** `order by col desc`, stable: rows with equal keys keep their storage order. */
  function SortDesc(s: seq<Row>, col: string): seq<Row>
    decreases |s|
  {
    if |s| == 0 then [] else InsertDesc(s[0], SortDesc(s[1..], col), col)
  }

  lemma {:induction false} InsertDescMultiset(r: Row, s: seq<Row>, col: string)
    ensures multiset(InsertDesc(r, s, col)) == multiset(s) + multiset{r}
    decreases |s|
  {
    if |s| > 0 && KeyOf(r, col) < KeyOf(s[0], col) {
      InsertDescMultiset(r, s[1..], col);
      assert s == [s[0]] + s[1..];
    }
  }

  /** Every element of an insertion result is the inserted row or came from the sequence. */
  lemma InsertDescMember(r: Row, s: seq<Row>, col: string, x: Row)
    requires x in InsertDesc(r, s, col)
    ensures x == r || x in s
  {
    InsertDescMultiset(r, s, col);
    assert x in multiset(InsertDesc(r, s, col));
  }

  lemma {:induction false} InsertDescSorted(r: Row, s: seq<Row>, col: string)
    requires SortedDesc(s, col)
    ensures SortedDesc(InsertDesc(r, s, col), col)
    decreases |s|
  {
    if |s| > 0 && KeyOf(r, col) < KeyOf(s[0], col) {
      assert SortedDesc(s[1..], col) by {
        forall i, j | 0 <= i < j < |s[1..]| ensures KeyOf(s[1..][i], col) >= KeyOf(s[1..][j], col) {
          assert s[1..][i] == s[i + 1] && s[1..][j] == s[j + 1];
        }
      }
      InsertDescSorted(r, s[1..], col);
      var tail := InsertDesc(r, s[1..], col);
      var res := [s[0]] + tail;
      forall i, j | 0 <= i < j < |res| ensures KeyOf(res[i], col) >= KeyOf(res[j], col) {
        if i == 0 {
          assert res[j] == tail[j - 1];
          InsertDescMember(r, s[1..], col, res[j]);
          if res[j] != r {
            var k :| 0 <= k < |s[1..]| && s[1..][k] == res[j];
            assert s[k + 1] == res[j];
          }
        } else {
          assert res[i] == tail[i - 1] && res[j] == tail[j - 1];
        }
      }
    }
  }

  lemma SortDescFacts(s: seq<Row>, col: string)
    ensures SortedDesc(SortDesc(s, col), col)
    ensures multiset(SortDesc(s, col)) == multiset(s)
  {
    SortDescSorted(s, col);
    SortDescMultiset(s, col);
  }

  lemma {:induction false} SortDescSorted(s: seq<Row>, col: string)
    ensures SortedDesc(SortDesc(s, col), col)
    decreases |s|
  {
    if |s| > 0 {
      SortDescSorted(s[1..], col);
      InsertDescSorted(s[0], SortDesc(s[1..], col), col);
    }
  }

  lemma {:induction false} SortDescMultiset(s: seq<Row>, col: string)
    ensures multiset(SortDesc(s, col)) == multiset(s)
    decreases |s|
  {
    if |s| > 0 {
      SortDescMultiset(s[1..], col);
      InsertDescMultiset(s[0], SortDesc(s[1..], col), col);
      assert s == [s[0]] + s[1..];
    }
  }

  lemma {:induction false} InsertDescDistinct(r: Row, s: seq<Row>, col: string)
    requires SortedDesc(s, col) && DistinctKeys(s, col)
    requires forall x :: x in s ==> KeyOf(x, col) != KeyOf(r, col)
    ensures DistinctKeys(InsertDesc(r, s, col), col)
    decreases |s|
  {
    if |s| == 0 {
    } else if KeyOf(r, col) >= KeyOf(s[0], col) {
      DistinctKeysCons(r, s, col);
    } else {
      DistinctKeysTail(s, col);
      assert SortedDesc(s[1..], col) by {
        forall i, j | 0 <= i < j < |s[1..]| ensures KeyOf(s[1..][i], col) >= KeyOf(s[1..][j], col) {
          assert s[1..][i] == s[i + 1] && s[1..][j] == s[j + 1];
        }
      }
      InsertDescDistinct(r, s[1..], col);
      var tail := InsertDesc(r, s[1..], col);
      forall x | x in tail
        ensures KeyOf(x, col) != KeyOf(s[0], col)
      {
        InsertDescMember(r, s[1..], col, x);
      }
      DistinctKeysCons(s[0], tail, col);
    }
  }

  lemma {:induction false} SortDescDistinct(s: seq<Row>, col: string)
    requires DistinctKeys(s, col)
    ensures DistinctKeys(SortDesc(s, col), col)
    decreases |s|
  {
    if |s| > 0 {
      assert DistinctKeys(s[1..], col) by {
        forall i, j | 0 <= i < j < |s[1..]| ensures KeyOf(s[1..][i], col) != KeyOf(s[1..][j], col) {
          assert s[1..][i] == s[i + 1] && s[1..][j] == s[j + 1];
        }
      }
      SortDescDistinct(s[1..], col);
      SortDescFacts(s[1..], col);
      var sorted := SortDesc(s[1..], col);
      forall x | x in sorted ensures KeyOf(x, col) != KeyOf(s[0], col) {
        assert x in multiset(sorted);
        assert x in multiset(s[1..]);
        var j :| 0 <= j < |s[1..]| && s[1..][j] == x;
        assert s[j + 1] == x;
      }
      InsertDescDistinct(s[0], sorted, col);
    }
  }

  /** `limit n`: at most the first n rows. */
  function Take(s: seq<Row>, n: nat): (s': seq<Row>)
    ensures |s'| <= n && |s'| <= |s|
    ensures s' == s[..|s'|]
    ensures |s'| == if n < |s| then n else |s|
  {
    if n < |s| then s[..n] else s
  }

  ghost predicate SortedAsc(s: seq<Row>, col: string) {
    forall i, j :: 0 <= i < j < |s| ==> KeyOf(s[i], col) <= KeyOf(s[j], col)
  }

  function Reverse(s: seq<Row>): (r: seq<Row>)
    ensures |r| == |s|
    ensures forall i :: 0 <= i < |s| ==> r[i] == s[|s| - 1 - i]
  {
    if |s| == 0 then [] else Reverse(s[1..]) + [s[0]]
  }

  lemma {:induction false} ReverseMultiset(s: seq<Row>)
    ensures multiset(Reverse(s)) == multiset(s)
    decreases |s|
  {
    if |s| > 0 {
      ReverseMultiset(s[1..]);
      assert s == [s[0]] + s[1..];
    }
  }

  /** `order by col asc`: the descending order read backwards (rows with equal keys in reverse storage order). */
  function SortAsc(s: seq<Row>, col: string): seq<Row> {
    Reverse(SortDesc(s, col))
  }

  lemma SortAscFacts(s: seq<Row>, col: string)
    ensures SortedAsc(SortAsc(s, col), col)
    ensures multiset(SortAsc(s, col)) == multiset(s)
  {
    SortDescFacts(s, col);
    ReverseMultiset(SortDesc(s, col));
  }

  function Arrange(rows: seq<Row>, order: Order): seq<Row> {
    match order
    case StorageOrder => rows
    case Descending(col) => SortDesc(rows, col)
    case Ascending(col) => SortAsc(rows, col)
  }

  /**
   * The rows a SELECT returns before projection, or the error MySQL reports
   * for a LIMIT argument that is not a non-negative integer.
   */
  function SelectRows(db: Database, stmt: Statement, args: seq<Value>): Result<seq<Row>>
    requires stmt.Select?
  {
    var matching := Filter(TableOf(db, stmt.table).rows, stmt.where, args);
    var ordered := Arrange(matching, stmt.order);
    match stmt.limit
    case None => Ok(ordered)
    case Some(p) =>
      if p < |args| && args[p].IntVal? && args[p].i >= 0 then Ok(Take(ordered, args[p].i))
      else Err(LimitError)
  }

  const LimitError := "Error 1210: Incorrect arguments to LIMIT"

  /** The error `database/sql` raises when a statement receives the wrong number of arguments. */
  function ArityError(expected: nat, got: nat): string {
    "sql: expected " + Strconv.FormatInt(expected) + " arguments, got " + Strconv.FormatInt(got)
  }

  // ---------------------------------------------------------------------
  // database/sql entry points
  // ---------------------------------------------------------------------

  /** `stmt.Exec(args...)`: the database after an INSERT or UPDATE, or the error. */
  function Exec(db: Database, stmt: Statement, args: seq<Value>, fault: Option<string>): (r: Result<Database>)
    ensures fault.Some? ==> r == Err(fault.value)
    ensures fault.None? && |args| != Placeholders(stmt) ==> r == Err(ArityError(Placeholders(stmt), |args|))
    ensures r.Ok? && stmt.Insert? ==>
      r.value == WithTable(db, stmt.table,
        InsertRow(TableOf(db, stmt.table), IdColumn(stmt.table), Zip(stmt.columns, args)))
  {
    if fault.Some? then Err(fault.value)
    else if |args| != Placeholders(stmt) then Err(ArityError(Placeholders(stmt), |args|))
    else
      match stmt
      case Insert(name, cols) =>
        Ok(WithTable(db, name, InsertRow(TableOf(db, name), IdColumn(name), Zip(cols, args))))
      case Update(name, cols, where) =>
        Ok(WithTable(db, name, UpdateRows(TableOf(db, name), Zip(cols, args[..|cols|]), where, args)))
      case Select(_, _, _, _, _) => Ok(db)
  }

  /** `stmt.Query(args...)`: the selected rows as positional values, or the error. */
  function Query(db: Database, stmt: Statement, args: seq<Value>, fault: Option<string>): (r: Result<seq<seq<Value>>>)
    requires stmt.Select?
    ensures fault.Some? ==> r == Err(fault.value)
    ensures fault.None? && |args| == Placeholders(stmt) ==>
      (r.Ok? <==> SelectRows(db, stmt, args).Ok?)
  {
    if fault.Some? then Err(fault.value)
    else if |args| != Placeholders(stmt) then Err(ArityError(Placeholders(stmt), |args|))
    else
      match SelectRows(db, stmt, args)
      case Err(e) => Err(e)
      case Ok(rows) => Ok(seq(|rows|, i requires 0 <= i < |rows| => Project(rows[i], stmt.columns)))
  }

  /** What `stmt.QueryRow(args...)` leaves for `Scan`: an error, `sql.ErrNoRows`, or the first row. */
  datatype RowOutcome = RowError(error: string) | NoRows | FirstRow(values: seq<Value>)

  function QueryRow(db: Database, stmt: Statement, args: seq<Value>, fault: Option<string>): (r: RowOutcome)
    requires stmt.Select?
    ensures fault.Some? ==> r == RowError(fault.value)
  {
    match Query(db, stmt, args, fault)
    case Err(e) => RowError(e)
    case Ok(rows) => if |rows| == 0 then NoRows else FirstRow(rows[0])
  }

  // ---------------------------------------------------------------------
  // Table invariant
  // ---------------------------------------------------------------------

  /** Every row carries an id the counter has already handed out, and no two rows share one. */
  ghost predicate TableWf(t: Table, idCol: string) {
    && t.nextId >= 1
    && (forall i :: 0 <= i < |t.rows| ==>
          idCol in t.rows[i] && t.rows[i][idCol].IntVal? && 1 <= t.rows[i][idCol].i < t.nextId)
    && (forall i, j :: 0 <= i < j < |t.rows| ==> t.rows[i][idCol] != t.rows[j][idCol])
  }

  ghost predicate DatabaseWf(db: Database) {
    TableWf(db.users, IdColumn(GosUser)) && TableWf(db.tasks, IdColumn(GosTask))
  }

  lemma EmptyDatabaseWf()
    ensures DatabaseWf(EmptyDatabase)
  {
  }

  /** An insert keeps the invariant: the new id is fresh and the counter moves past it. */
  lemma InsertKeepsWf(t: Table, idCol: string, r: Row)
    requires TableWf(t, idCol)
    ensures TableWf(InsertRow(t, idCol, r), idCol)
  {
  }

  /** An update that does not assign the id column keeps the invariant. */
  lemma UpdateKeepsWf(t: Table, idCol: string, assign: Row, where: Cond, args: seq<Value>)
    requires TableWf(t, idCol) && idCol !in assign
    ensures TableWf(UpdateRows(t, assign, where, args), idCol)
  {
    var t' := UpdateRows(t, assign, where, args);
    assert forall i :: 0 <= i < |t.rows| ==> idCol in t'.rows[i] && t'.rows[i][idCol] == t.rows[i][idCol];
  }

  lemma WfDistinctKeys(t: Table, idCol: string)
    requires TableWf(t, idCol)
    ensures DistinctKeys(t.rows, idCol)
  {
  }

  lemma {:induction false} FilterDistinct(rows: seq<Row>, where: Cond, args: seq<Value>, col: string)
    requires DistinctKeys(rows, col)
    ensures DistinctKeys(Filter(rows, where, args), col)
    decreases |rows|
  {
    if |rows| > 0 {
      DistinctKeysTail(rows, col);
      FilterDistinct(rows[1..], where, args, col);
      var rest := Filter(rows[1..], where, args);
      if Holds(where, rows[0], args) {
        forall x | x in rest
          ensures KeyOf(x, col) != KeyOf(rows[0], col)
        {
          var i :| 0 <= i < |rest| && rest[i] == x;
          assert x in rows[1..];
        }
        DistinctKeysCons(rows[0], rest, col);
      }
    }
  }

  /** Dropping the first row keeps the keys distinct, and no later row shares the first row's key. */
  lemma DistinctKeysTail(rows: seq<Row>, col: string)
    requires |rows| > 0 && DistinctKeys(rows, col)
    ensures DistinctKeys(rows[1..], col)
    ensures forall x :: x in rows[1..] ==> KeyOf(x, col) != KeyOf(rows[0], col)
  {
    forall i, j | 0 <= i < j < |rows[1..]|
      ensures KeyOf(rows[1..][i], col) != KeyOf(rows[1..][j], col)
    {
      assert rows[1..][i] == rows[i + 1] && rows[1..][j] == rows[j + 1];
    }
    forall x | x in rows[1..]
      ensures KeyOf(x, col) != KeyOf(rows[0], col)
    {
      var k :| 0 <= k < |rows[1..]| && rows[1..][k] == x;
      assert rows[k + 1] == x;
    }
  }

  /** A row whose key no row of `rest` shares can go in front of `rest`. */
  lemma DistinctKeysCons(r: Row, rest: seq<Row>, col: string)
    requires DistinctKeys(rest, col)
    requires forall x :: x in rest ==> KeyOf(x, col) != KeyOf(r, col)
    ensures DistinctKeys([r] + rest, col)
  {
    var s := [r] + rest;
    forall i, j | 0 <= i < j < |s|
      ensures KeyOf(s[i], col) != KeyOf(s[j], col)
    {
      assert s[j] == rest[j - 1];
      if i > 0 {
        assert s[i] == rest[i - 1];
      }
    }
  }
}

=== FILE: strconv.dfy ===
/**
 * The conversions of Go's `strconv` package the core relies on:
 * `ParseInt(s, 10, 64)` for the `taskId` path segment and for text scanned
 * into integer variables, `%d` formatting for the response messages, and
 * `Quote`, which `%q` uses in `database/sql`'s scan errors.
 */
module Strconv {
  import opened Base

  predicate IsDigit(c: char) {
    '0' <= c <= '9'
  }

  predicate AllDigits(s: string) {
    forall i :: 0 <= i < |s| ==> IsDigit(s[i])
  }

  function DigitValue(c: char): nat
    requires IsDigit(c)
  {
    (c - '0') as nat
  }

  function DigitChar(d: nat): (c: char)
    requires d < 10
    ensures IsDigit(c) && DigitValue(c) == d
  {
    ('0' as int + d) as char
  }

  /** The number a non-empty run of decimal digits denotes (leading zeros allowed). */
  function DigitsValue(s: string): nat
    requires AllDigits(s)
    decreases |s|
  {
    if |s| == 0 then 0 else DigitsValue(s[..|s| - 1]) * 10 + DigitValue(s[|s| - 1])
  }

  /** Decimal digits of a natural number, most significant first, no leading zeros. */
  function FormatNat(n: nat): (s: string)
    ensures |s| > 0 && AllDigits(s)
    ensures |s| > 1 ==> s[0] != '0'
    decreases n
  {
    if n < 10 then [DigitChar(n)] else FormatNat(n / 10) + [DigitChar(n % 10)]
  }

  /** Go's `strconv.FormatInt(n, 10)`, which is also what `%d` prints. */
  function FormatInt(n: int): (s: string)
    ensures |s| > 0
    ensures n >= 0 <==> s[0] != '-'
  {
    if n < 0 then "-" + FormatNat(-n) else FormatNat(n)
  }

  /** The text `strconv.ParseInt(s, 10, 64)` accepts: an optional sign, then one or more decimal digits. */
  predicate WellFormedDecimal(s: string) {
    var body := if |s| > 0 && (s[0] == '+' || s[0] == '-') then s[1..] else s;
    |body| > 0 && AllDigits(body)
  }

  /**
   * Go's `strconv.ParseInt(s, 10, 64)`; `None` stands for a non-nil error
   * (bad syntax, including the empty string and `_` separators, which base 10
   * rejects, or a value outside int64).
   */
  function ParseInt64(s: string): (r: Option<int>)
    ensures r.Some? ==> IsInt64(r.value)
    ensures r.Some? <==> WellFormedDecimal(s) && IsInt64(SignedValue(s))
    ensures r.Some? ==> r.value == SignedValue(s)
  {
    if |s| == 0 then None
    else
      var neg := s[0] == '-';
      var body := if s[0] == '+' || s[0] == '-' then s[1..] else s;
      if |body| == 0 || !AllDigits(body) then None
      else
        var magnitude: int := DigitsValue(body);
        if neg && magnitude <= -MinInt64 then Some(-magnitude)
        else if !neg && magnitude <= MaxInt64 then Some(magnitude)
        else None
  }

  /** The value a well-formed decimal denotes, before any range check. */
  function SignedValue(s: string): int
  {
    if !WellFormedDecimal(s) then 0
    else if s[0] == '-' then 0 - DigitsValue(s[1..]) as int
    else if s[0] == '+' then DigitsValue(s[1..])
    else DigitsValue(s)
  }

  lemma {:induction false} DigitsOfFormatNat(n: nat)
    ensures DigitsValue(FormatNat(n)) == n
    decreases n
  {
    var s := FormatNat(n);
    if n < 10 {
      assert s[..|s| - 1] == [];
    } else {
      DigitsOfFormatNat(n / 10);
      assert s[..|s| - 1] == FormatNat(n / 10);
    }
  }

  /** Parsing what `FormatInt` prints gives back the number, for every int64. */
  lemma FormatParseRoundTrip(n: int)
    requires IsInt64(n)
    ensures ParseInt64(FormatInt(n)) == Some(n)
  {
    var s := FormatInt(n);
    if n < 0 {
      var body := FormatNat(-n);
      assert s == "-" + body && s[0] == '-' && s[1..] == body;
      DigitsOfFormatNat(-n);
      assert DigitsValue(body) == -n;
      assert WellFormedDecimal(s);
    } else {
      assert s == FormatNat(n) && s[0] != '+' && s[0] != '-';
      DigitsOfFormatNat(n);
      assert WellFormedDecimal(s);
    }
  }

  const LowerHex := "0123456789abcdef"

  /** How `Quote` writes one character: escaped when it is a quote, a backslash or an ASCII control character. */
  function QuoteChar(c: char): (q: string)
    ensures |q| > 0
  {
    if c == '"' then "\\\""
    else if c == '\\' then "\\\\"
    else if c as int == 7 then "\\a"
    else if c as int == 8 then "\\b"
    else if c as int == 12 then "\\f"
    else if c as int == 10 then "\\n"
    else if c as int == 13 then "\\r"
    else if c as int == 9 then "\\t"
    else if c as int == 11 then "\\v"
    else if c as int < 0x20 || c as int == 0x7F then "\\x" + [LowerHex[c as int / 16], LowerHex[c as int % 16]]
    else [c]
  }

  function QuoteBody(s: string): string
    decreases |s|
  {
    if |s| == 0 then "" else QuoteChar(s[0]) + QuoteBody(s[1..])
  }

  /** Go's `strconv.Quote`: the text in double quotes, with every character written as `QuoteChar` writes it. */
  function Quote(s: string): (q: string)
    ensures |q| >= 2 && q[0] == '"' && q[|q| - 1] == '"'
  {
    "\"" + QuoteBody(s) + "\""
  }

  /** A character `Quote` leaves as it is. */
  predicate Plain(c: char) {
    c != '"' && c != '\\' && 0x20 <= c as int && c as int != 0x7F
  }

  /** Text of plain characters is quoted by surrounding it with double quotes and nothing else. */
  lemma {:induction false} QuotePlain(s: string)
    requires forall i :: 0 <= i < |s| ==> Plain(s[i])
    ensures Quote(s) == "\"" + s + "\""
  {
    QuoteBodyPlain(s);
  }

  lemma {:induction false} QuoteBodyPlain(s: string)
    requires forall i :: 0 <= i < |s| ==> Plain(s[i])
    ensures QuoteBody(s) == s
    decreases |s|
  {
    if |s| > 0 {
      assert QuoteChar(s[0]) == [s[0]];
      QuoteBodyPlain(s[1..]);
      assert s == [s[0]] + s[1..];
    }
  }

}

=== FILE: task_controller.dfy ===
/**
 * `app/controller/task_controller.go`: the three task handlers behind the
 * token check. Each reads the caller's claims from the request context,
 * which the token check put there; without them gin's `MustGet` panics.
 */
module TaskController {
  import opened Base
  import opened Models
  import opened Gin
  import opened Sql
  import opened Auth
  import opened AppController
  import Strconv
  import Repo

  /**
   * The query parameters `lastId` and `limit` as `BindQuery` fills them in:
   * a parameter the request leaves out keeps the struct's default.
   */
  datatype PageQuery = PageQuery(lastId: Option<int>, limit: Option<int>)

  const DefaultLastId := 0
  const DefaultLimit := 100
  const MaxLimit := 100

  /** The page size used: a requested size outside 1..100 becomes 100. */
  function ClampLimit(limit: int): (r: int)
    ensures 1 <= r <= MaxLimit
    ensures r == limit <==> 1 <= limit <= MaxLimit
    ensures !(1 <= limit <= MaxLimit) ==> r == DefaultLimit
  {
    if limit > 100 then 100
    else if limit <= 0 then 100
    else limit
  }

  function RequestedLastId(q: PageQuery): int {
    if q.lastId.Some? then q.lastId.value else DefaultLastId
  }

  function RequestedLimit(q: PageQuery): int {
    ClampLimit(if q.limit.Some? then q.limit.value else DefaultLimit)
  }

  function ListedMessage(n: nat): string {
    "successfully retrieved " + Strconv.FormatInt(n) + " task/s"
  }

  /** The caller's id, as the token check stored it; `None` is `MustGet`'s panic. */
  function Caller(ctx: Context<Claims>): Option<int> {
    match MustGet(ctx, ClaimsKey)
    case None => None
    case Some(c) => Some(c.userId)
  }

  /**
   * `GetTasks`: binds the query, clamps the page size, lists the caller's
   * tasks above `lastId` and answers with the page. The next cursor it hands
   * out is read from the last task's `UserId` field.
   */
  function GetTasks(db: Database, ctx: Context<Claims>, query: Bind<PageQuery>, fault: Option<string>): (reply: Reply)
    ensures query.BindFailed? ==>
      reply == Abort(StatusBadRequest, "failed to extract query params", Some(query.error))
    ensures query.Bound? && Caller(ctx).None? ==> reply == Panicked
    ensures Caller(ctx).Some? ==> reply.Reply?
    ensures reply.Reply? && reply.status == StatusOK ==>
      && reply.body.data.PageData?
      && reply.body.errors.None?
      && 1 <= reply.body.data.page.limit <= MaxLimit
      && reply.body.message == ListedMessage(|reply.body.data.page.items|)
    ensures reply.Reply? && reply.status == StatusOK && |reply.body.data.page.items| == 0 ==>
      reply.body.data.page.lastId == 0
  {
    match query
    case BindFailed(e) => Abort(StatusBadRequest, "failed to extract query params", Some(e))
    case Bound(q) =>
      var limit := RequestedLimit(q);
      match Caller(ctx)
      case None => Panicked
      case Some(userId) =>
        match Repo.GetAllTasks(db, RequestedLastId(q), userId, limit, fault)
        case Err(e) => Abort(StatusBadRequest, "failed to get tasks", Some(e))
        case Ok(tasks) =>
          var next := if |tasks| > 0 then tasks[|tasks| - 1].userId else 0;
          Reply(StatusOK, Response(ListedMessage(|tasks|), PageData(Paged(tasks, next, limit)), None))
  }

  function RetrievedMessage(taskId: int): string {
    "successfully retrieved task with id " + Strconv.FormatInt(taskId)
  }

  /**
   * `GetTask`: parses the `taskId` path segment as a decimal int64 and looks
   * the task up by id and owner. A bad segment is refused before the claims
   * are read or the store is asked.
   */
  function GetTask(db: Database, ctx: Context<Claims>, taskId: string, fault: Option<string>): (reply: Reply)
    ensures Strconv.ParseInt64(taskId).None? ==>
      reply == Abort(StatusBadRequest, "invalid request", Some("task id is invalid"))
    ensures Strconv.ParseInt64(taskId).Some? && Caller(ctx).None? ==> reply == Panicked
    ensures Caller(ctx).Some? ==> reply.Reply?
    ensures reply.Reply? && reply.status == StatusOK ==>
      && Strconv.ParseInt64(taskId).Some?
      && reply.body.data.TaskData?
      && reply.body.message == RetrievedMessage(Strconv.ParseInt64(taskId).value)
  {
    match Strconv.ParseInt64(taskId)
    case None => Abort(StatusBadRequest, "invalid request", Some("task id is invalid"))
    case Some(id) =>
      match Caller(ctx)
      case None => Panicked
      case Some(userId) =>
        match Repo.GetTaskById(db, id, userId, fault)
        case Err(e) => Abort(StatusBadRequest, "failed to get task", Some(e))
        case Ok(t) => Reply(StatusOK, Response(RetrievedMessage(id), TaskData(t), None))
  }

  /**
   * The task `AddTask` stores: the body, owned by the caller, its creation
   * date the first clock reading and its update date the second (Go reads
   * `time.Now()` once for each, so the two can differ).
   */
  function Stamped(body: Task, userId: int, created: int, updated: int): Task {
    body.(dateCreated := created, dateUpdated := updated, userId := userId)
  }

  const TitleRequired := "field title is required"

  /**
   * `AddTask`: reads the claims first (so a request without them panics
   * even with a bad body), binds the body, stamps it, refuses an empty
   * title, and inserts it. The store changes only when the answer is 201.
   */
  function AddTask(db: Database, ctx: Context<Claims>, body: Bind<Task>, created: int, updated: int,
                   fault: Option<string>): (h: Handled)
    ensures Caller(ctx).None? <==> h.reply == Panicked
    ensures Caller(ctx).Some? && body.BindFailed? ==>
      h.reply == Abort(StatusBadRequest, "invalid request", Some(body.error))
    ensures Caller(ctx).Some? && body.Bound? && |body.value.title| == 0 ==>
      h.reply == Abort(StatusBadRequest, "invalid request", Some(TitleRequired))
    ensures h.reply.Status() != StatusCreated ==> h.db == db
    ensures h.reply.Status() == StatusCreated ==>
      && Caller(ctx).Some? && body.Bound? && |body.value.title| > 0
      && h.db.users == db.users
      && h.db.tasks.rows == db.tasks.rows + [Repo.InsertedTaskRow(Stamped(body.value, Caller(ctx).value, created, updated), db.tasks.nextId)]
  {
    match Caller(ctx)
    case None => Handled(Panicked, db)
    case Some(userId) =>
      match body
      case BindFailed(e) => Handled(Abort(StatusBadRequest, "invalid request", Some(e)), db)
      case Bound(t) =>
        var task := Stamped(t, userId, created, updated);
        if |task.title| == 0 then Handled(Abort(StatusBadRequest, "invalid request", Some(TitleRequired)), db)
        else
          match Repo.AddTask(db, task, fault)
          case Err(e) => Handled(Abort(StatusBadRequest, "failed to add task", Some(e)), db)
          case Ok(db') =>
            Repo.AddTaskAppends(db, task);
            Handled(Reply(StatusCreated, Response("successfully added a task", NoData, None)), db')
  }

  // ---------------------------------------------------------------------
  // Properties of the handlers
  // ---------------------------------------------------------------------

  /**
   * A 200 from `GetTasks` carries exactly the repository's page for the
   * caller: only the caller's tasks, all above the requested cursor, at most
   * the clamped page size of them, highest id first.
   */
  lemma GetTasksServesCallersPage(db: Database, ctx: Context<Claims>, query: Bind<PageQuery>, fault: Option<string>)
    requires GetTasks(db, ctx, query, fault).Status() == StatusOK
    ensures query.Bound? && Caller(ctx).Some?
    ensures var reply := GetTasks(db, ctx, query, fault);
      var q := query.value;
      var page := reply.body.data.page;
      && Repo.GetAllTasks(db, RequestedLastId(q), Caller(ctx).value, RequestedLimit(q), fault) == Ok(page.items)
      && page.limit == RequestedLimit(q)
      && |page.items| <= page.limit
      && (forall i :: 0 <= i < |page.items| ==>
            page.items[i].userId == Caller(ctx).value && page.items[i].taskId > RequestedLastId(q))
      && (forall i, j :: 0 <= i < j < |page.items| ==> page.items[i].taskId >= page.items[j].taskId)
  {
    var q := query.value;
    Repo.GetAllTasksScoped(db, RequestedLastId(q), Caller(ctx).value, RequestedLimit(q), fault);
  }

  /**
   * The cursor `GetTasks` hands out for the next page is the caller's own
   * user id whenever the page is non-empty, whatever tasks it holds.
   */
  lemma GetTasksCursorIsCallerId(db: Database, ctx: Context<Claims>, query: Bind<PageQuery>, fault: Option<string>)
    requires GetTasks(db, ctx, query, fault).Status() == StatusOK
    requires |GetTasks(db, ctx, query, fault).body.data.page.items| > 0
    ensures Caller(ctx).Some? && GetTasks(db, ctx, query, fault).body.data.page.lastId == Caller(ctx).value
  {
    GetTasksServesCallersPage(db, ctx, query, fault);
  }

  /**
   * A 200 from `GetTask` is the caller's task with the requested id; with a
   * working store, "task not found" comes back exactly when the caller owns
   * no task with that id, which includes every task another user owns.
   */
  lemma GetTaskFindsCallersTask(db: Database, ctx: Context<Claims>, taskId: string)
    requires Strconv.ParseInt64(taskId).Some? && Caller(ctx).Some?
    ensures var reply := GetTask(db, ctx, taskId, None);
      var id := Strconv.ParseInt64(taskId).value;
      && (reply == Abort(StatusBadRequest, "failed to get task", Some(Repo.TaskNotFound))
          <==> forall k :: 0 <= k < |db.tasks.rows| ==> !Repo.IdAndOwner(db.tasks.rows[k], id, Caller(ctx).value))
      && (reply.Status() == StatusOK ==>
            reply.body.data.task.taskId == id && reply.body.data.task.userId == Caller(ctx).value)
  {
    Repo.GetTaskByIdFindsOwnedRow(db, Strconv.ParseInt64(taskId).value, Caller(ctx).value);
  }

  /**
   * Creating a task and then fetching it by the id the store handed out, in
   * its decimal form, gives back the body as stored: the caller's id as owner
   * and the two clock readings as creation and update dates.
   */
  lemma AddTaskThenGetTask(db: Database, ctx: Context<Claims>, body: Task, created: int, updated: int)
    requires TableWf(db.tasks, "task_id") && IsInt64(db.tasks.nextId)
    requires Caller(ctx).Some? && |body.title| > 0
    requires Repo.TaskFitsColumns(Stamped(body, Caller(ctx).value, created, updated))
    ensures var h := AddTask(db, ctx, Bound(body), created, updated, None);
      && h.reply.Status() == StatusCreated
      && GetTask(h.db, ctx, Strconv.FormatInt(db.tasks.nextId), None)
         == Reply(StatusOK, Response(RetrievedMessage(db.tasks.nextId),
                  TaskData(Stamped(body, Caller(ctx).value, created, updated).(taskId := db.tasks.nextId)), None))
  {
    var task := Stamped(body, Caller(ctx).value, created, updated);
    Repo.AddTaskAppends(db, task);
    Repo.AddTaskThenGetTaskById(db, task);
    Strconv.FormatParseRoundTrip(db.tasks.nextId);
  }

  /**
   * Following `GetTasks`' own cursor: when the caller's id lies between the
   * requested cursor and the first listed task's id, the next page starts
   * with the task this page started with, so a client paging through its
   * tasks sees the top ones again instead of the rest.
   */
  lemma CursorRepeatsFirstTask(db: Database, ctx: Context<Claims>, q: PageQuery, p1: Paged, p2: Paged)
    requires GetTasks(db, ctx, Bound(q), None).Status() == StatusOK
    requires GetTasks(db, ctx, Bound(q), None).body.data == PageData(p1) && |p1.items| > 0
    requires Caller(ctx).Some? && RequestedLastId(q) <= Caller(ctx).value < p1.items[0].taskId
    requires GetTasks(db, ctx, Bound(PageQuery(Some(p1.lastId), q.limit)), None).Status() == StatusOK
    requires GetTasks(db, ctx, Bound(PageQuery(Some(p1.lastId), q.limit)), None).body.data == PageData(p2)
    ensures |p2.items| > 0 && p2.items[0].taskId == p1.items[0].taskId
  {
    var userId := Caller(ctx).value;
    GetTasksCursorIsCallerId(db, ctx, Bound(q), None);
    GetTasksServesCallersPage(db, ctx, Bound(q), None);
    GetTasksServesCallersPage(db, ctx, Bound(PageQuery(Some(p1.lastId), q.limit)), None);
    Repo.DescendingNextPageRepeatsTop(db, RequestedLastId(q), userId, userId, RequestedLimit(q));
  }

  // ---------------------------------------------------------------------
  // The listing with a working cursor
  // ---------------------------------------------------------------------

  /**
   * `GetTasks` as keyset pagination needs it: the page holds the caller's
   * tasks below the cursor (from the top for cursor 0), highest id first,
   * and the cursor handed out is the last listed task's id, so the next
   * request continues where this page stopped.
   */
  function GetTasksCorrected(db: Database, ctx: Context<Claims>, query: Bind<PageQuery>, fault: Option<string>)
    : (reply: Reply)
    ensures query.BindFailed? ==>
      reply == Abort(StatusBadRequest, "failed to extract query params", Some(query.error))
    ensures query.Bound? && Caller(ctx).None? ==> reply == Panicked
    ensures Caller(ctx).Some? ==> reply.Reply?
    ensures reply.Reply? && reply.status == StatusOK ==>
      && query.Bound? && Caller(ctx).Some?
      && reply.body.data.PageData?
      && reply.body.errors.None?
      && reply.body.data.page.limit == RequestedLimit(query.value)
      && reply.body.message == ListedMessage(|reply.body.data.page.items|)
      && Repo.GetAllTasksBelow(db, RequestedLastId(query.value), Caller(ctx).value, RequestedLimit(query.value), fault)
         == Ok(reply.body.data.page.items)
      && (|reply.body.data.page.items| > 0 ==>
            reply.body.data.page.lastId == reply.body.data.page.items[|reply.body.data.page.items| - 1].taskId)
  {
    match query
    case BindFailed(e) => Abort(StatusBadRequest, "failed to extract query params", Some(e))
    case Bound(q) =>
      var limit := RequestedLimit(q);
      match Caller(ctx)
      case None => Panicked
      case Some(userId) =>
        match Repo.GetAllTasksBelow(db, RequestedLastId(q), userId, limit, fault)
        case Err(e) => Abort(StatusBadRequest, "failed to get tasks", Some(e))
        case Ok(tasks) =>
          var next := if |tasks| > 0 then tasks[|tasks| - 1].taskId else 0;
          Reply(StatusOK, Response(ListedMessage(|tasks|), PageData(Paged(tasks, next, limit)), None))
  }

  /** A 200 page of the corrected handler is the corrected listing for the caller, with the last task's id as cursor. */
  lemma CorrectedPage(db: Database, ctx: Context<Claims>, q: PageQuery, p: Paged)
    requires GetTasksCorrected(db, ctx, Bound(q), None).Status() == StatusOK
    requires GetTasksCorrected(db, ctx, Bound(q), None).body.data == PageData(p)
    ensures Caller(ctx).Some?
    ensures Repo.GetAllTasksBelow(db, RequestedLastId(q), Caller(ctx).value, RequestedLimit(q), None) == Ok(p.items)
    ensures p.limit == RequestedLimit(q)
    ensures |p.items| > 0 ==> p.lastId == p.items[|p.items| - 1].taskId
  {
  }

  /**
   * Paging with the corrected handler over a well-formed table: the page
   * fetched with the cursor the first page handed out holds only tasks
   * ranked below all of the first page's, and every task of the caller below
   * the first request's cursor (every task, when that cursor is 0) is on one
   * of the two pages, or still ahead of a full second page.
   */
  lemma CorrectedPagesChain(db: Database, ctx: Context<Claims>, userId: int, q: PageQuery, p1: Paged, p2: Paged)
    requires TableWf(db.tasks, "task_id")
    requires Caller(ctx) == Some(userId)
    requires GetTasksCorrected(db, ctx, Bound(q), None).Status() == StatusOK
    requires GetTasksCorrected(db, ctx, Bound(q), None).body.data == PageData(p1) && |p1.items| > 0
    requires GetTasksCorrected(db, ctx, Bound(PageQuery(Some(p1.lastId), q.limit)), None).Status() == StatusOK
    requires GetTasksCorrected(db, ctx, Bound(PageQuery(Some(p1.lastId), q.limit)), None).body.data == PageData(p2)
    ensures Repo.RanksBelow(p2.items, p1.items)
    ensures Repo.PagesCoverBelow(db.tasks.rows, RequestedLastId(q), userId, p1.items, p2.items, p2.limit)
  {
    CorrectedPage(db, ctx, q, p1);
    CorrectedPage(db, ctx, PageQuery(Some(p1.lastId), q.limit), p2);
    Repo.BelowPagesChain(db, RequestedLastId(q), userId, RequestedLimit(q), p1.items, p2.items);
  }

  /** Adding a task writes at most one insert, which hands out a fresh id. */
  lemma AddTaskKeepsWf(db: Database, ctx: Context<Claims>, body: Bind<Task>, created: int, updated: int,
                       fault: Option<string>)
    requires DatabaseWf(db)
    ensures DatabaseWf(AddTask(db, ctx, body, created, updated, fault).db)
  {
    if Caller(ctx).Some? && body.Bound? && fault.None? {
      Repo.AddTaskKeepsWf(db, Stamped(body.value, Caller(ctx).value, created, updated));
    }
  }
}
